=== FILE: README.md ===
# BullPoster core in Dafny

BullPoster is a raiding game on Solana. Users own *raid programs*, enrol in
other users' programs, and group programs into *competitions*. These are
either program-count competitions (`4-program` … `24-program`) or
head-to-head `PvP` challenges. Tokens are burned to take part in a raid.
This project models four parts of the system:

- **The on-chain program** (smart-contract/src/lib.rs):
  - the Borsh-style codecs of its account cards: `UserCard`, `RaidProgramCard`, `CompetitionCard`, `ProgramStateCard` and the index cards;
  - the instruction wire format: `process_instruction` and `unpack_string`;
  - the state rules of its handlers: raid program creation, user cards, enrolment, profile updates, the checks before a burn, `create_raid`, `create_new_competition` and `accept_pvp_challenge`.
- **The web client** (frontend/src/utils/solanaUtils.js): its hand-written account decoders, its seed strings, the competition sequence it picks, and the instruction data it sends.
- **The two action routes** (actions/src/app/actions/program-card/route.ts and user-card/route.ts): their account decoders and their user-card lookup.
- **The Django back end** (backend/programs/models.py): `start_raid`, `end_raid`, `required_programs` and `set_start_and_end_times`.

Layout:

- Bytes are `seq<byte>`, and numbers are unbounded with explicit `u32`/`u64` ranges.
- Card accounts are `ACCOUNT_SPACE` (1000) bytes long and zero-filled after the encoding.
- A handler that reads a card does so in a `ReadMode`:
  - `Strict` is the derived `try_from_slice`, which rejects unused trailing space.
  - `Lenient` reads the card and ignores what follows it. It is the corrected reading.
- Modules:
  - `Bytes`, `Borsh`, `Fields` and `Text`: encodings.
  - `UserCards`, `RaidProgramCards`, `CompetitionCards`, `ProgramStates` and `ListCards`: the cards.
  - `Rewrites`: the in-place account rewrite.
  - `CommaLists`: the comma-terminated key lists.
  - `Instructions`: the wire format.
  - `Seeds`: address seeds.
  - `ProgramRules` and `CompetitionRules`: the handlers.
  - `ClientDecoders` and `ClientEncoders`: the clients.
  - `Backend`: the Django models.

## Model

| member | source | states |
|---|---|---|
| Bytes.LeRoundTrip | smart-contract/src/lib.rs:155-178 | a number below 256^w written as w little-endian bytes reads back as itself |
| Bytes.LeBytesOfValue | smart-contract/src/lib.rs:82-151 | any w bytes are the little-endian encoding of the value they read as, so reading is injective |
| Bytes.LeValueBound | smart-contract/src/lib.rs:82-151 | w little-endian bytes read as a value below 256^w |
| Bytes.AsU64 | smart-contract/src/lib.rs:2034 | `as u64` of an `i64` always lands in the u64 range and keeps every value already in it |
| Bytes.U64RoundTrip | smart-contract/src/lib.rs:123-127 | `u64::from_le_bytes` inverts `to_le_bytes` on every u64 |
| Bytes.U32RoundTrip | smart-contract/src/lib.rs:1078 | `u32::from_le_bytes` inverts `to_le_bytes` on every u32 |
| Bytes.AsciiIsUtf8 | smart-contract/src/lib.rs:1087-1088 | ASCII text is valid UTF-8, so `String::from_utf8` accepts it |
| Borsh.ReadString | smart-contract/src/lib.rs:773-886 | a string read succeeds exactly on a length prefix followed by that many UTF-8 bytes, which it returns along with the rest |
| Borsh.StringReadBack | smart-contract/src/lib.rs:888-965 | a string written with its `u32` length prefix reads back unchanged, whatever follows it |
| Borsh.U64ReadBack | smart-contract/src/lib.rs:888-965 | a u64 counter written little-endian reads back unchanged |
| Borsh.PubkeyReadBack | smart-contract/src/lib.rs:888-965 | a 32-byte key reads back unchanged |
| Borsh.ReadBool | smart-contract/src/lib.rs:773-886 | a bool read succeeds exactly on a flag byte of 0 or 1, and what it accepts is the encoding of the value it returns |
| Borsh.BoolReadBack | smart-contract/src/lib.rs:888-965 | a bool written as 0/1 reads back unchanged |
| Borsh.WriteInto | smart-contract/src/lib.rs:888-965 | serializing into an account fails with `AccountDataTooSmall` exactly when the encoding does not fit, and otherwise leaves the bytes after it untouched |
| Borsh.FreshAccount | smart-contract/src/lib.rs:2420 | a new card account is the encoding followed by zeros up to 1000 bytes |
| Text.DecimalRoundTrip | smart-contract/src/lib.rs:1957 | the decimal text of a sequence number reads back as that number |
| Text.DecimalInjective | smart-contract/src/lib.rs:1957 | different sequence numbers print differently |
| Text.SplitLength | smart-contract/src/lib.rs:1954 | `split(',')` yields one more piece than there are commas |
| Text.SplitFree | smart-contract/src/lib.rs:1685 | a string without the separator splits into itself alone |
| Text.SplitAppend | smart-contract/src/lib.rs:2026-2030 | splitting `a,b` gives the pieces of `a` followed by those of `b` |
| Text.ParseIntJs | frontend/src/utils/solanaUtils.js:755 | `parseInt(s, 10)` is NaN exactly when no digit follows the leading whitespace and sign |
| Text.ParseIntJsDecimal | frontend/src/utils/solanaUtils.js:755 | `parseInt` of a printed sequence number gives the number back |
| Text.ParseIntPy | backend/programs/models.py:143-144 | Python `int()` returns a number only for text that holds a digit, and a negative number only for text that holds a `-` |
| Text.ParseIntPyDigits | backend/programs/models.py:143-144 | `int()` of a run of digits is its decimal value |
| Text.ParseIntPyPadded | backend/programs/models.py:143-144 | whitespace around a number does not change what `int()` returns |
| Text.ParseIntPyPlus | backend/programs/models.py:143-144 | a leading `+` does not change what `int()` returns |
| Text.ParseIntPyMinus | backend/programs/models.py:143-144 | a leading `-` before a digit run gives the negated value of the digits |
| Text.ParseIntPyUnderscore | backend/programs/models.py:143-144 | one underscore between digit runs is ignored by `int()` |
| Text.ParseIntPyTrailingUnderscore | backend/programs/models.py:143-144 | a trailing underscore makes `int()` raise |
| Text.ParseIntPyLetter | backend/programs/models.py:143-144 | text starting with a letter makes `int()` raise |
| Fields.ReadField | smart-contract/src/lib.rs:340-443 | one field read of a card decoder: a key, string, bool, u64, or optional key/u64 behind a 0/1 flag; every failure is `InvalidAccountData` |
| Fields.DecodeFields | smart-contract/src/lib.rs:340-443 | reading a layout field by field gives values of the layout's kinds and consumes at most the data |
| Fields.FieldsRoundTrip | smart-contract/src/lib.rs:445-527 | the field reader reads back what the field writer wrote, reporting exactly the bytes written, whatever follows |
| Fields.DecodeFieldsExact | smart-contract/src/lib.rs:549-668 | for a layout without optional fields, whatever the reader accepts is exactly the encoding of what it returns |
| Fields.StrictDecodeExact | smart-contract/src/lib.rs:2516 | the derived `try_from_slice` accepts a byte string exactly when it is the encoding of the fields it returns |
| Fields.TrailingBytesRejected | smart-contract/src/lib.rs:2516 | `try_from_slice` rejects an encoding followed by any further bytes with `BorshIoError` |
| Fields.Reencode | smart-contract/src/lib.rs:340-527 | re-encoding the fields the reader accepted, followed by what it left unread, reads back to the same result |
| CommaLists.Append | smart-contract/src/lib.rs:2536-2539 | adding a key appends the key and a comma and keeps the old list as a prefix |
| CommaLists.MembersAppend | smart-contract/src/lib.rs:2536-2539 | appending a comma-free key to a terminated list keeps it terminated and adds exactly that key as the last member |
| CommaLists.MemberIsContained | smart-contract/src/lib.rs:2529-2534 | the `contains` test finds every key that is a member of the list |
| CommaLists.ContainedButNotMember | smart-contract/src/lib.rs:2529-2534 | `contains` also finds a key that is only the tail of a longer member |
| UserCards.Serialize | smart-contract/src/lib.rs:888-965 | `custom_serialize` writes the encoding at the front and reports its length, or fails with `AccountDataTooSmall` when the account is too short |
| UserCards.Decode | smart-contract/src/lib.rs:773-886 | `custom_deserialize` returns a well-formed card and a position within the data, or `InvalidAccountData` |
| UserCards.RoundTrip | smart-contract/src/lib.rs:773-965 | decoding what `custom_serialize` wrote gives the card back, and the position reported is exactly the bytes written |
| UserCards.DecodeExact | smart-contract/src/lib.rs:773-886 | the decoder accepts only a card's encoding followed by anything, and the position reported is the encoding's length |
| UserCards.SerializeThenDecode | smart-contract/src/lib.rs:773-965 | serializing into an account and decoding it gives the card back with the written length |
| UserCards.TryFromSlice | smart-contract/src/lib.rs:755-770 | derived `try_from_slice` succeeds only on exactly the encoding of a storable card, and otherwise fails with `BorshIoError` |
| UserCards.TryFromSliceExact | smart-contract/src/lib.rs:755-770 | `try_from_slice` yields a card exactly when the data is that card's encoding |
| UserCards.TrailingSpaceRejected | smart-contract/src/lib.rs:2516 | with unused space after the card, `try_from_slice` fails while `custom_deserialize` reads the card |
| UserCards.ReadStored | smart-contract/src/lib.rs:2573 | a stored card is read back leniently whatever follows it, and strictly only when nothing follows it |
| UserCards.EncodeLength | smart-contract/src/lib.rs:888-965 | a user card's encoding is 65 bytes plus its key and its six strings |
| RaidProgramCards.Serialize | smart-contract/src/lib.rs:670-752 | `custom_serialize` writes the encoding at the front or fails with `AccountDataTooSmall` |
| RaidProgramCards.RoundTrip | smart-contract/src/lib.rs:549-752 | decoding what `custom_serialize` wrote gives the card back and reports the bytes written |
| RaidProgramCards.DecodeExact | smart-contract/src/lib.rs:549-668 | the decoder accepts only a card's encoding followed by anything |
| RaidProgramCards.SerializeThenDecode | smart-contract/src/lib.rs:549-752 | serializing into an account and decoding it gives the card back |
| RaidProgramCards.TryFromSliceExact | smart-contract/src/lib.rs:530-546 | derived `try_from_slice` yields a card exactly when the data is that card's encoding |
| RaidProgramCards.TrailingSpaceRejected | smart-contract/src/lib.rs:2525 | with unused space after the card, `try_from_slice` fails while `custom_deserialize` reads it |
| RaidProgramCards.ReadStored | smart-contract/src/lib.rs:1679 | a stored card is read leniently whatever follows it, and strictly only when nothing follows |
| RaidProgramCards.EncodeLength | smart-contract/src/lib.rs:670-752 | a raid program card's encoding is 61 bytes plus its three keys (`raid_program_id`, `user_key`, `active_raid_id`) and five strings |
| CompetitionCards.Serialize | smart-contract/src/lib.rs:445-527 | `custom_serialize` writes the encoding at the front or fails with `AccountDataTooSmall` |
| CompetitionCards.RoundTrip | smart-contract/src/lib.rs:340-527 | decoding what `custom_serialize` wrote, optional fields included, gives the card back and reports the bytes written |
| CompetitionCards.DecodeThenReencode | smart-contract/src/lib.rs:340-443 | what the decoder accepts has the width of the returned card's canonical encoding, and re-serializing it decodes to the same card |
| CompetitionCards.SerializeThenDecode | smart-contract/src/lib.rs:340-527 | serializing into an account and decoding it gives the card back |
| CompetitionCards.TryFromSliceExact | smart-contract/src/lib.rs:322-337 | derived `try_from_slice` yields a card exactly when the data is that card's encoding |
| CompetitionCards.TrailingSpaceRejected | smart-contract/src/lib.rs:1684 | with unused space after the card, `try_from_slice` fails while `custom_deserialize` reads it |
| CompetitionCards.ReadStored | smart-contract/src/lib.rs:2315 | a stored card is read leniently whatever follows it, and strictly only when nothing follows |
| CompetitionCards.WellFormedFields | smart-contract/src/lib.rs:322-337 | a card is storable exactly when its keys are 32 bytes, its strings UTF-8 and its counters u64 |
| CompetitionCards.EncodeBound | smart-contract/src/lib.rs:445-527 | a competition card takes at most 159 bytes besides its strings |
| ListCards.Serialize | smart-contract/src/lib.rs:232-245 | the index card writes its key list length-prefixed at the front, or fails with `AccountDataTooSmall` |
| ListCards.Decode | smart-contract/src/lib.rs:188-230 | the index decoder reads one string and reports `4 + len` |
| ListCards.RoundTrip | smart-contract/src/lib.rs:188-245 | decoding what the index serializer wrote gives the list back and reports the bytes written |
| ListCards.TryFromSliceExact | smart-contract/src/lib.rs:299-302 | the competitions index's derived `try_from_slice` yields a list exactly when the data is its encoding |
| ListCards.TrailingSpaceRejected | smart-contract/src/lib.rs:2281-2289 | with unused space after the list, `try_from_slice` fails while the hand-written reader reads it |
| ListCards.ReadStored | smart-contract/src/lib.rs:2281-2289 | a stored index is read leniently whatever follows it, and strictly only when nothing follows |
| ProgramStates.Serialize | smart-contract/src/lib.rs:155-178 | the state card writes its JSON text and both counters at the front, or fails with `AccountDataTooSmall` |
| ProgramStates.DecodeAsWritten | smart-contract/src/lib.rs:82-151 | the state decoder as written returns a storable card or `InvalidAccountData` |
| ProgramStates.ConsumedShortOfWritten | smart-contract/src/lib.rs:120-151 | the decoder as written recovers every field, but reports a position 8 bytes short of what the serializer wrote |
| ProgramStates.RoundTrip | smart-contract/src/lib.rs:82-178 | the corrected decoder reads back the card and reports exactly the bytes written |
| ProgramStates.DecodersAgreeOnValue | smart-contract/src/lib.rs:82-151 | both decoders accept the same data and return the same card; only the reported position differs, by 8 |
| Rewrites.Rewrite | smart-contract/src/lib.rs:2437-2497 | the rewrite fails with `AccountDataTooSmall` exactly when the new encoding does not fit; otherwise it writes the encoding, zeroes up to the bytes read and keeps the rest |
| Rewrites.CleanRewrite | smart-contract/src/lib.rs:1496-1551 | rewriting a clean account that was read in full leaves the new encoding followed by zeros |
| Rewrites.UserCardRewrite | smart-contract/src/lib.rs:1608-1640 | a user card rewritten in a clean account decodes to the new card, and the account stays clean |
| Rewrites.CompetitionCardRewrite | smart-contract/src/lib.rs:2018-2056 | a competition card rewritten in place by a join decodes to the new card, and the account stays clean |
| Rewrites.ProgramStateRewrite | smart-contract/src/lib.rs:2437-2497 | with the corrected decoder, the state rewrite leaves the new state followed by zeros |
| Rewrites.ProgramStateRewriteLeavesStaleBytes | smart-contract/src/lib.rs:1992-2017 | with the decoder as written, a state that shrinks by 8 bytes or more leaves the old user counter's bytes behind the new encoding (this write is reached only once the state's borrow is released) |
| Rewrites.RewrittenKeepsBeyond | smart-contract/src/lib.rs:1528-1551 | the rewrite changes no byte beyond both the new encoding and the bytes read |
| Instructions.UnpackString | smart-contract/src/lib.rs:1074-1091 | `unpack_string` succeeds exactly on a u32 length, then that many UTF-8 bytes; it returns the string and the rest, and every failure is `InvalidInstructionData` |
| Instructions.UnpackStringAgrees | smart-contract/src/lib.rs:1074-1091 | `unpack_string` accepts exactly what the account string reader accepts, with the same result |
| Instructions.UnpackStringBack | smart-contract/src/lib.rs:1074-1091 | `unpack_string` reads back a length-prefixed UTF-8 string, leaving the rest |
| Instructions.UnpackStringsBack | smart-contract/src/lib.rs:998-1071 | consecutive `unpack_string` calls read back consecutive length-prefixed strings |
| Instructions.U64Body | smart-contract/src/lib.rs:1022-1029 | an amount body is accepted exactly when it is 8 bytes, and reads as their little-endian value |
| Instructions.Decode | smart-contract/src/lib.rs:982-1072 | empty data and tags outside 1..9 are `InvalidInstructionData`; a decoded instruction has the tag of the first byte |
| Instructions.RoundTrip | smart-contract/src/lib.rs:982-1072 | decoding an encoded instruction gives it back, and string-carrying instructions ignore trailing bytes |
| Instructions.FixedLengthExact | smart-contract/src/lib.rs:1022-1046 | an amount instruction with trailing bytes is rejected |
| Instructions.DecodeExact | smart-contract/src/lib.rs:982-1072 | whatever decodes is well formed and starts with its canonical encoding, which is all of the data for an amount instruction |
| Seeds.RaidProgramSeedInjective | smart-contract/src/lib.rs:1359-1363 | `raid_program_<owner>_<name>` seeds are equal exactly when owner and name are |
| Seeds.CompetitionSeedInjective | smart-contract/src/lib.rs:2193 | `<type>_<sequence>` seeds are equal exactly when type and sequence are |
| Seeds.PvpSeedInjective | smart-contract/src/lib.rs:2180-2192 | PvP seeds are equal exactly when challenger, sequence and challenged program are |
| Seeds.CompetitionSeedShapesDisjoint | smart-contract/src/lib.rs:2180-2194 | no program-count competition seed equals a PvP seed |
| Seeds.UpdateAddressCheck | smart-contract/src/lib.rs:2566-2570 | `update_user_card` accepts exactly the account derived from `"user_card"` and the key bytes, and otherwise fails with `InvalidAccountData` |
| Seeds.UpdateCheckMissesCreatedCard | smart-contract/src/lib.rs:2378-2390 | the seed list `create_user_card` derives from differs from `update_user_card`'s, so the created card passes the update check only through an address collision |
| Seeds.FixedCheckAcceptsCreatedCard | smart-contract/src/lib.rs:2566-2570 | the corrected check accepts exactly the card `create_user_card` made |
| Seeds.BurnSeedTooLong | smart-contract/src/lib.rs:1717-1724 | the unhashed burn seed exceeds 32 bytes once the two key texts together reach 25 characters, so derivation fails |
| Seeds.BurnSeedsFixedOk | smart-contract/src/lib.rs:1717-1724 | the hashed burn seed is within the seed limits |
| Seeds.HashedSeedsOk | smart-contract/src/lib.rs:2378-2390 | the hashed seeds and `update_user_card`'s two seeds are within the seed limits |
| Seeds.ChainNewSequence | smart-contract/src/lib.rs:1890-1898 | the new competition's sequence is the recorded one plus one, with a missing record read as 0 |
| Seeds.ClientSequence | frontend/src/utils/solanaUtils.js:749-766 | the client's sequence is the recorded one when present and nonzero, else 1; it is never 0 |
| Seeds.ClientIdsMatchOnceSeen | frontend/src/utils/solanaUtils.js:768-776 | once a sequence is recorded, the client's current and new competition ids are the program's seeds |
| Seeds.ClientIdsMissFirstCompetition | frontend/src/utils/solanaUtils.js:749-776 | with no recorded sequence the client's new id names competition 2 while the program opens competition 1 |
| Seeds.ClientIdsFixedMatch | smart-contract/src/lib.rs:1890-1898 | a client that reads a missing sequence as 0 sends the program's new-competition seed |
| Seeds.ClientRaidSeedNeverMatches | frontend/src/utils/solanaUtils.js:800-801 | the client's raid seed, built from the competition's id, never equals the program's, built from the competition's address |
| Seeds.RaidSeedInjective | smart-contract/src/lib.rs:2059-2063 | a raid seed determines its competition and program texts |
| Seeds.ClientRaidSeedFixedMatches | smart-contract/src/lib.rs:2059-2080 | the corrected client's raid seed equals the program's for a competition account exactly when that account is the one derived from the id |
| ProgramRules.Bump | smart-contract/src/lib.rs:1500 | a counter increment adds one below 2^64 and stays in the u64 range |
| ProgramRules.CheckInputLimits | smart-contract/src/lib.rs:1300-1303 | a new program is accepted exactly when its name, description and URL are at most 32, 256 and 128 bytes; otherwise `InvalidArgument` |
| ProgramRules.ClientRequestWithinLimits | frontend/src/utils/solanaUtils.js:643-650 | the client's picture URL always passes the URL limit |
| ProgramRules.NewRaidProgram | smart-contract/src/lib.rs:1300-1401 | over-long inputs are `InvalidArgument`; after that, a new raid program succeeds exactly when the program state, program index and user card are at their derived addresses and the data account is the derived, empty one, and otherwise fails with `InvalidAccountData`; the card holds the inputs with empty lists and zero counters |
| ProgramRules.NewRaidProgramStored | smart-contract/src/lib.rs:1386-1420 | the new raid program card is one the codec writes and reads back, and it is shorter than its 1000-byte account |
| ProgramRules.RegisterRaidProgram | smart-contract/src/lib.rs:1496-1640 | registration bumps the program count and appends the program key to the program index and the owner's owned programs, and nothing else |
| ProgramRules.RegisterRaidProgramMembers | smart-contract/src/lib.rs:1556-1640 | registration adds the program as the last member of both lists, which stay terminated |
| ProgramRules.CountStored | smart-contract/src/lib.rs:1487-1530 | a program state that cannot be read is `InvalidAccountData`; otherwise the state with one counter bumped is written at the front of the account, which keeps its length |
| ProgramRules.CountStoredReadsBack | smart-contract/src/lib.rs:2436-2490 | a counter update on a readable state always fits, and the account reads back with that counter one higher and the other fields unchanged |
| ProgramRules.RegisterRaidProgramStored | smart-contract/src/lib.rs:1487-1640 | the state, program index and owner's card are read and rewritten in that order; an unreadable card is `InvalidAccountData` at its turn, a grown card that does not fit is `AccountDataTooSmall`, and the writes succeed exactly when both grown cards fit |
| ProgramRules.RegisterRaidProgramReadsBack | smart-contract/src/lib.rs:1487-1640 | on stored cards the registration fails only with `AccountDataTooSmall`, exactly when a grown card outgrows its account, and otherwise the three accounts read back as the registered cards |
| ProgramRules.ListGrowsInPlace | smart-contract/src/lib.rs:1556-1600 | an index grown by one key is rewritten exactly when it fits, and then reads back as the grown list |
| ProgramRules.OwnedGrowsInPlace | smart-contract/src/lib.rs:1600-1640 | a user card whose owned programs grow by one key is rewritten exactly when it fits, and then reads back as the grown card |
| ProgramRules.CreateUserCard | smart-contract/src/lib.rs:2365-2490 | a wrong card address is `InvalidAccountData`, an occupied one `AccountAlreadyInitialized`, and a program state away from its derived address `InvalidAccountData`, in that order; on success the new card is written into a fresh account and the state gets the user count bumped |
| ProgramRules.NewUserCard | smart-contract/src/lib.rs:2404-2420 | the new card names the signer and holds empty lists, empty profile fields and zero counters |
| ProgramRules.NewUserCardStored | smart-contract/src/lib.rs:2404-2420 | the new user card is one the codec writes and reads back |
| ProgramRules.NewUserCardAccount | smart-contract/src/lib.rs:2404-2490 | at the right addresses the card is created exactly when the state can be read; the new card's 97 bytes leave its 1000-byte account unreadable by `try_from_slice` but readable leniently, and the state reads back with one more user |
| ProgramRules.RecordRaid | smart-contract/src/lib.rs:2105-2154 | a new raid makes the program conducting it with it as the active raid, and appends its key to the program's raids and to the raid index |
| ProgramRules.RecordRaidMembers | smart-contract/src/lib.rs:2105-2154 | recording a raid adds it as the last member of the program's raids and of the raid index |
| ProgramRules.RecordRaidStored | smart-contract/src/lib.rs:2104-2155 | the program card and then the raid index are read and rewritten; an unreadable card is `InvalidAccountData` at its turn, a grown card that does not fit `AccountDataTooSmall`, and the writes succeed exactly when both fit |
| ProgramRules.RecordRaidReadsBack | smart-contract/src/lib.rs:2104-2155 | on stored cards the raid is recorded exactly when both grown cards fit, fails otherwise only with `AccountDataTooSmall`, and the accounts read back as the recorded cards |
| ProgramRules.RaidedGrowsInPlace | smart-contract/src/lib.rs:2104-2129 | a program card that records a raid is rewritten exactly when it fits, and then reads back as the raided card |
| ProgramRules.IndexFullAfter22 | smart-contract/src/lib.rs:1556-1590 | an index in a 1000-byte account that already lists 22 keys takes no further key: the competition write fails with `BorshIoError` and the in-place rewrite with `AccountDataTooSmall` |
| ProgramRules.GrowingStore | smart-contract/src/lib.rs:2131-2154 | the corrected index write enlarges the account to the new encoding when needed, and otherwise is the in-place rewrite |
| ProgramRules.GrowingIndexTakesEveryKey | smart-contract/src/lib.rs:2131-2154 | with the enlarging write, an index of any size reads back with the new key as its last member |
| ProgramRules.OpenCompetition | smart-contract/src/lib.rs:2160-2289 | a refused competition fails with the refusal; otherwise the card goes into a fresh 1000-byte account and succeeds exactly when its key is registered in the competition index |
| ProgramRules.CreateRaidInstruction | smart-contract/src/lib.rs:1824-2155 | `create_raid` fails on a misplaced program-wide account, an unreadable state, an unreadable program card or one the signer does not own, in that order and before the competition step; then the step's error, the competition stage's error (`OpenOrJoin`) and the raid stage's error (`RaidRecorded`) propagate in that order; a success is exactly both stages' writes |
| ProgramRules.CreateRaidWrites | smart-contract/src/lib.rs:1908-2155 | a successful `create_raid` came from the signer's own program card; a join wrote only the current competition; an opening wrote the new competition, the competition index and the state, which needs the state's borrow released; the raid account was the derived, empty one and the raid is recorded in the program card and the raid index |
| ProgramRules.OpenOrJoin | smart-contract/src/lib.rs:1908-2056 | joining writes the current competition or fails with the join's error; opening fails with the opening's error, aborts while the state's borrow is held, and otherwise also writes the state or fails with that write's error |
| ProgramRules.RaidRecorded | smart-contract/src/lib.rs:2058-2155 | a raid account away from its derived address is `InvalidAccountData`, an occupied one `AccountAlreadyInitialized`; otherwise the raid is recorded in the program card and the raid index |
| ProgramRules.SeenStored | smart-contract/src/lib.rs:1992-2017 | an unreadable state is `InvalidAccountData`; otherwise the state with the new sequence map is written exactly when it fits, else `AccountDataTooSmall` |
| ProgramRules.SeenStoredReadsBack | smart-contract/src/lib.rs:1992-2017 | a written sequence map reads back, with both counters unchanged |
| ProgramRules.OpeningRaidAbortsAsWritten | smart-contract/src/lib.rs:1867-1997 | as written, every successful raid joined the current competition, and no PvP raid succeeds |
| ProgramRules.OpeningRaidStoresState | smart-contract/src/lib.rs:1992-2155 | with the state's borrow released, a raid that opens a competition succeeds exactly when the new state fits and the raid stage succeeds, and the state then reads back with the new sequence map |
| ProgramRules.CreateRaidChecksOwnerFirst | smart-contract/src/lib.rs:1900-1905 | a signer who does not own the stored raid program gets `InvalidAccountData`, whatever the competition accounts hold |
| ProgramRules.Enroll | smart-contract/src/lib.rs:2516-2539 | a card not owned by the signer is refused; a program whose key occurs in the enrolled list is `AccountAlreadyInitialized`; otherwise the key and a comma are appended and nothing else changes |
| ProgramRules.EnrollMembers | smart-contract/src/lib.rs:2529-2539 | enrolment never lists a program twice and adds exactly the program as the last member |
| ProgramRules.EnrollTwiceRefused | smart-contract/src/lib.rs:2529-2534 | enrolling in the same program twice fails the second time |
| ProgramRules.EnrollRefusesNonMember | smart-contract/src/lib.rs:2529-2534 | the substring test refuses a program that is not a member when its key is the tail of a member's key |
| ProgramRules.EnrollInstruction | smart-contract/src/lib.rs:2504-2546 | `enroll_in_program` on the account bytes: read errors and enrolment refusals propagate, the write fails with `BorshIoError` exactly when the enrolled card does not fit the account, and on success the account starts with the card whose enrolled list gained the program's key text |
| ProgramRules.EnrollStoredAsWritten | smart-contract/src/lib.rs:2516 | as written, enrolment fails with `BorshIoError` for every user card stored with unused space after it |
| ProgramRules.EnrollNeverSucceedsAsWritten | smart-contract/src/lib.rs:2515-2542 | as written no enrolment succeeds on any account: the strict read accepts only an account exactly as long as the card, and the enrolled card is longer |
| ProgramRules.EnrollStoredFixed | smart-contract/src/lib.rs:2504-2546 | read leniently, stored cards go through the enrolment rule, and the write fails with `BorshIoError` exactly when the enrolled card does not fit |
| ProgramRules.EnrolledAccountReadsBack | smart-contract/src/lib.rs:2529-2542 | read leniently, a successful enrolment leaves an account that reads back as the enrolled card |
| ProgramRules.UpdateProfile | smart-contract/src/lib.rs:2573-2577 | an update replaces the four profile fields and nothing else |
| ProgramRules.UpdateProfileLaws | smart-contract/src/lib.rs:2573-2577 | the latest update wins, and an update with valid strings keeps a card storable |
| ProgramRules.UpdateUserCardInstruction | smart-contract/src/lib.rs:2548-2582 | `update_user_card` on the account bytes: a wrong address is `InvalidAccountData`, read errors propagate, the write fails with `BorshIoError` exactly when the updated card does not fit, and on success the account starts with the card whose four profile fields changed |
| ProgramRules.UpdateStoredAsWritten | smart-contract/src/lib.rs:2573 | as written, a profile update fails with `BorshIoError` for every card stored with unused space after it |
| ProgramRules.UpdateStoredFixed | smart-contract/src/lib.rs:2548-2582 | read leniently, a stored card at the right address is updated exactly when the updated card fits, and with valid strings reads back as the updated card |
| ProgramRules.BurnCheck | smart-contract/src/lib.rs:1685-1714 | a burn passes exactly when the program is a piece of the competition's list, the competition is active and not over, the card is the signer's and mentions the program, and no burn record exists; a present record alone is `AccountAlreadyInitialized` |
| ProgramRules.BurnChecksPassAfterJoinAndEnroll | smart-contract/src/lib.rs:1685-1714 | on decoded cards, a user enrolled in a program that joined an active competition passes the checks before the end time |
| ProgramRules.BurnInstruction | smart-contract/src/lib.rs:1656-1714 | `burn_tokens_for_raid` up to the burn: the program read's error, then the competition read's error, then the competition refusal (`InvalidAccountData`), then the user read's error, then the user and record checks, each at its turn; it succeeds exactly when all three reads succeed and every check passes |
| ProgramRules.BurnStoredAsWritten | smart-contract/src/lib.rs:1679 | as written, no burn gets past reading a raid program card stored with unused space |
| ProgramRules.BurnAllowedAfterJoinAndEnroll | smart-contract/src/lib.rs:1656-1714 | read leniently, the burn goes through for stored cards of an enrolled user and a joined, active competition |
| CompetitionRules.After | smart-contract/src/lib.rs:2233-2237 | `now as u64 + offset` adds in the u64 range, wrapping only past 2^64 |
| CompetitionRules.RaidWindow | smart-contract/src/lib.rs:2030-2036 | an activated competition starts 300 seconds from now and ends 1200 seconds after it starts |
| CompetitionRules.CountTypeNames | smart-contract/src/lib.rs:2223-2230 | each program-count type name spells its count before `-program` |
| CompetitionRules.RequiredPrograms | smart-contract/src/lib.rs:2223-2230 | known types give 2 for PvP and the named count otherwise, at most 24; every other type is `InvalidArgument` |
| CompetitionRules.CreateNewCompetition | smart-contract/src/lib.rs:2160-2242 | a wrong address, an occupied account and an unknown type are refused in that order; the new card awaits with zero times, its required count, and a 300-second acceptance window only for PvP |
| CompetitionRules.NewCompetitionStored | smart-contract/src/lib.rs:2242-2278 | a new competition card fits in its 1000-byte account, which `try_from_slice` cannot read and the lenient read reads back |
| CompetitionRules.Join | smart-contract/src/lib.rs:2018-2036 | joining appends the program and activates the competition with a fresh window once the list has as many pieces as the competition requires |
| CompetitionRules.JoinMembers | smart-contract/src/lib.rs:2026-2036 | a join adds the program as the last member and activates exactly at `required - 1` members |
| CompetitionRules.JoinedUntilFull | smart-contract/src/lib.rs:1952-1956 | a join to an awaiting competition that still takes joins activates it exactly when `required - 2` programs were listed before it |
| CompetitionRules.CreateRaidStep | smart-contract/src/lib.rs:1908-1990 | PvP opens a new competition unless a program challenges itself; other types join the current competition unless it is empty or a new one is needed; a strict read of an empty account is an error |
| CompetitionRules.NewCompetitionIsJoined | smart-contract/src/lib.rs:1950-1956 | a freshly opened competition is joined by the next raid when read leniently, while the strict read makes that raid fail |
| CompetitionRules.RegisterCompetition | smart-contract/src/lib.rs:2281-2289 | registering reads the competition index, with its read errors, and succeeds exactly when the list with the new key fits the account, which then starts with that list; otherwise `BorshIoError` |
| CompetitionRules.JoinStored | smart-contract/src/lib.rs:2018-2056 | joining an empty account is `UninitializedAccount` and an unreadable one `InvalidAccountData`; the joined card is written exactly when it fits, and otherwise the join fails with `AccountDataTooSmall` |
| CompetitionRules.JoinStoredReadsBack | smart-contract/src/lib.rs:2018-2056 | a stored competition is joined exactly when the joined card fits, and the account then reads back as the joined card |
| CompetitionRules.FullCompetitionNeverActivates | smart-contract/src/lib.rs:2018-2056 | in a 1000-byte account a 24-program competition never activates: the activating join fails with `AccountDataTooSmall`, and every join that succeeds keeps the status |
| CompetitionRules.SizedCompetitionActivates | smart-contract/src/lib.rs:2018-2056 | in an account of the corrected size every join up to the activating one is written and reads back, and the last of them activates the competition |
| CompetitionRules.JoinedEncodeBound | smart-contract/src/lib.rs:2242-2278 | a joined card as opened takes at most 177 bytes besides its key texts and commas |
| CompetitionRules.IndexUnreadableAsWritten | smart-contract/src/lib.rs:1240-2289 | the competitions index created empty in 1000 bytes can never be read strictly, and read leniently takes the first competition as its only member |
| CompetitionRules.RecordSequence | smart-contract/src/lib.rs:1992-2017 | after a competition opens, its type records the new sequence and other types keep theirs |
| CompetitionRules.SuccessiveSeedsDiffer | smart-contract/src/lib.rs:1957 | two competitions opened one after the other get different seeds |
| CompetitionRules.Committed | smart-contract/src/lib.rs:2323-2328 | the runtime keeps a successful instruction's writes and discards a failed one's |
| CompetitionRules.AcceptPvpAsWritten | smart-contract/src/lib.rs:2318-2343 | acceptance succeeds exactly for an awaiting, unexpired card; it writes the expiry and then fails, or sets the raid window and marks the program as raiding |
| CompetitionRules.AcceptPvpInstruction | smart-contract/src/lib.rs:2295-2347 | `accept_pvp_challenge` on the account bytes: read errors and a program not owned by the signer fail before any write |
| CompetitionRules.AnyProgramMayAccept | smart-contract/src/lib.rs:2331-2343 | as written, any program the signer owns accepts a challenge meant for another, and overwrites the challenged program |
| CompetitionRules.ExpiryNeverRecorded | smart-contract/src/lib.rs:2323-2328 | the "expired" status is written and then discarded by the error, so the card stays awaiting |
| CompetitionRules.AcceptPvpFixed | smart-contract/src/lib.rs:2318-2343 | the corrected acceptance records an expiry successfully and accepts only for the challenged program |
| CompetitionRules.FixedRecordsExpiry | smart-contract/src/lib.rs:2323-2328 | with the correction an expired challenge stays expired and refuses later acceptance, and other programs are refused without change |
| CompetitionRules.AcceptedWindow | smart-contract/src/lib.rs:2331-2336 | an accepted challenge was within its window and starts 300 seconds later for 1200 seconds |
| CompetitionRules.AcceptStoredAsWritten | smart-contract/src/lib.rs:2308 | as written, acceptance never gets past a raid program card stored with unused space |
| CompetitionRules.AcceptStoredFixed | smart-contract/src/lib.rs:2295-2347 | read leniently, stored cards reach the acceptance rule when the signer owns the program |
| CompetitionRules.FreshChallengeUnreadable | smart-contract/src/lib.rs:2315 | a freshly opened challenge in its 1000-byte account cannot be accepted as written |
| CompetitionRules.FreshChallengeAcceptable | smart-contract/src/lib.rs:2295-2347 | read leniently, the challenged program's owner can accept a fresh challenge within its five minutes |
| CompetitionRules.NewChallengeWindow | smart-contract/src/lib.rs:2233-2237 | a new challenge awaits the program it names, and expires exactly after its window |
| ClientDecoders.Slice | frontend/src/utils/solanaUtils.js:463-507 | `slice` clamps to the buffer and agrees with indexing inside it |
| ClientDecoders.PublicKeyOf | frontend/src/utils/solanaUtils.js:463-470 | a short key slice becomes a key padded with leading zeros |
| ClientDecoders.JsReadField | frontend/src/utils/solanaUtils.js:463-507 | an unchecked read fails only on a string length past the end (`RangeError`) and otherwise yields a value of the right kind |
| ClientDecoders.TsReadField | actions/src/app/actions/program-card/route.ts:211-281 | a checked read fails with the parse error on any overrun |
| ClientDecoders.RustImpliesTs | actions/src/app/actions/program-card/route.ts:211-281 | every account the program decodes is decoded to the same fields by the checked client decoder, which stops where the encoding ends |
| ClientDecoders.TsImpliesJs | frontend/src/utils/solanaUtils.js:259-304 | where the checked decoder succeeds, the unchecked one gives the same fields |
| ClientDecoders.RustImpliesJs | frontend/src/utils/solanaUtils.js:259-304 | the unchecked decoder agrees with the program's decoder on every account the program accepts |
| ClientDecoders.LenientReaders | frontend/src/utils/solanaUtils.js:276-290 | a flag byte other than 0/1 is refused by the program but read as true by the clients; past the end the unchecked readers still return true and 0 |
| ClientDecoders.UserCardClientAgrees | actions/src/app/actions/user-card/route.ts:168-212 | the clients' user-card decoder returns the program's card on every account the program decodes |
| ClientDecoders.EmptyAccountThrows | frontend/src/utils/solanaUtils.js:463-507 | an account with no data makes the user-card decoder throw |
| ClientDecoders.RaidProgramCardClientsAgree | actions/src/app/actions/program-card/route.ts:211-281 | the three raid-program decoders agree wherever the program's decoder succeeds, and the frontend's agrees with the route's wherever the route's succeeds |
| ClientDecoders.TsRaidProgramCardInBounds | actions/src/app/actions/program-card/route.ts:211-281 | the checked decoder fails on any buffer shorter than the card it would return |
| ClientDecoders.ProgramStateClientAgrees | frontend/src/utils/solanaUtils.js:171-193 | the clients read the same state card as the program, and their cursor ends 8 bytes past the program's reported position |
| ClientDecoders.JsListCard | frontend/src/utils/solanaUtils.js:195-257 | the index decoders throw exactly when the buffer is shorter than a length prefix |
| ClientDecoders.ListCardClientAgrees | frontend/src/utils/solanaUtils.js:195-257 | the index decoders return the program's list on every index the program decodes |
| ClientDecoders.RouteGetUserCard | actions/src/app/actions/user-card/route.ts:214-221 | the route reads the account at the key it is given, and a missing account is an error |
| ClientDecoders.FrontendGetUserCard | frontend/src/utils/solanaUtils.js:420-461 | the frontend returns null for a missing card, throws when a counter needs more than 53 bits, and returns the card otherwise |
| ClientDecoders.UserCardLookupsCompared | frontend/src/utils/solanaUtils.js:420-461 | the two lookups differ on a missing account and on a counter of 2^53 or more, and otherwise both return the stored card |
| ClientDecoders.RouteReadsGivenKey | actions/src/app/actions/user-card/route.ts:34-48 | the route reads the wallet's account rather than the card's address, and throws when the wallet holds no data while the frontend finds the card |
| ClientEncoders.SerializeString | frontend/src/utils/solanaUtils.js:635-641 | the client writes a 4-byte little-endian length and then the bytes |
| ClientEncoders.PfpUrl | frontend/src/utils/solanaUtils.js:648 | the picture URL is 45 bytes plus the account's text |
| ClientEncoders.CreateRaidProgramAccepted | frontend/src/utils/solanaUtils.js:643-650 | the program decodes the client's create-program data to exactly the name, description and URL the client meant |
| ClientEncoders.CreateUserCardData | frontend/src/utils/solanaUtils.js:70 | the data `[8]` decodes as the create-user-card instruction |
| ClientEncoders.EnrollData | frontend/src/utils/solanaUtils.js:325 | the data `[7]` decodes as the enroll instruction |
| ClientEncoders.PrintableBodyRejected | smart-contract/src/lib.rs:1074-1091 | printable text cannot begin with an acceptable string length |
| ClientEncoders.UpdateUserCardRawRejected | frontend/src/utils/solanaUtils.js:405-411 | the client's update data, strings without lengths, is always `InvalidInstructionData` |
| ClientEncoders.UpdateUserCardDataAccepted | smart-contract/src/lib.rs:1055-1069 | length-prefixed update data decodes to exactly the four profile strings |
| ClientEncoders.CreateRaidRawRejected | frontend/src/utils/solanaUtils.js:848 | the client's create-raid data, the type without a length, is always `InvalidInstructionData` |
| ClientEncoders.CreateRaidDataAccepted | smart-contract/src/lib.rs:1030-1034 | length-prefixed create-raid data decodes to exactly the competition type |
| Backend.StartRaid | backend/programs/models.py:109-114 | a program not raiding starts and reports true; a raiding program is left alone and reports false |
| Backend.EndRaid | backend/programs/models.py:116-122 | a raiding program stops and gains a completed raid; otherwise nothing changes and the call reports false |
| Backend.RaidCallsIdempotent | backend/programs/models.py:109-122 | starting twice, or ending twice, changes nothing the second time |
| Backend.RaidCyclesCount | backend/programs/models.py:109-122 | n start/end cycles add n completed raids and change nothing else |
| Backend.RequiredPrograms | backend/programs/models.py:142-144 | `pvp` needs 2; any other type needs `int()` of its text before the first `-`, and raises when that is not an integer |
| Backend.CountTypeRequires | backend/programs/models.py:142-144 | a type `<n>-…` needs n programs |
| Backend.PythonIntForms | backend/programs/models.py:142-144 | padded, `+`-signed and underscore-grouped counts are accepted, and a dangling underscore raises |
| Backend.AgreesWithProgramOnCountTypes | backend/programs/models.py:125-144 | the back end and the program agree on every program-count type the program knows |
| Backend.PvpSpellingsDiffer | backend/programs/models.py:125-131 | the back end's `pvp` is unknown to the program, and the program's `PvP` makes the back end raise |
| Backend.SetStartAndEndTimes | backend/programs/models.py:146-149 | a competition starts five minutes from now and ends fifteen minutes after its start, and nothing else changes |
| Backend.ScheduleAgainstProgramWindow | backend/programs/models.py:146-149 | both schedules start five minutes from now, and the program's ends five minutes after the back end's |

## Left out

- Signatures (`is_signer`) are not modelled. The signer is a parameter wherever an ownership check compares a key with it.
- Token movement is not modelled: transfers, burns, minting and stake amounts. `authority_mint` and the token steps of `burn_tokens_for_raid` and `initialize_raid_program` are outside the model.
- Account creation is not modelled: rent, `create_pda_account`, system-program calls and account ownership. An account's emptiness is a boolean parameter, and each derived address is given next to the account's key (`ProgramRules.Address`).
- Accounts are taken to be distinct. A transaction that passes the same account twice, for example the raid index as the competition index, is outside the model.
- `create_raid`'s write of the program state's `last_seen_raids` (lib.rs 1992-2017) is modelled on the account bytes by `ProgramRules.SeenStored`, but the JSON text it writes is a parameter. `CompetitionRules.RecordSequence` states how the sequence map changes; printing it as JSON is not modelled.
- The `RaidCard` that `create_raid` writes into the raid account is not modelled; `ProgramRules.CreateRaidInstruction` checks the raid account's address and emptiness and then records the raid in the program card and the raid index.
- Hashing and address derivation are parameters: SHA-256, `find_program_address` and Base58 `to_string`. Only the seed strings are modelled.
- `initialize_program` is left out, apart from the empty competitions index it creates in a 1000-byte account (used by `CompetitionRules.IndexUnreadableAsWritten`). `check_raid_status` is left out because its body is commented out in the source.
- `RaidCard`, `BurnCard` and the leaderboard card are not modelled: they are written once and never read back by the core.
- The leaderboard decoder is not modelled; it is the same one-string reader as `ClientDecoders.JsListCard`.
- Program-state JSON: `last_seen_raids` is a JSON text in the account, but the model keeps it as a map from competition type to sequence number. JSON printing and parsing are left out.
- `msg!` logging, `console.log` and Django `save()` have no effect on the modelled state and are left out.
- The HTTP handling, image generation and transaction building of the routes and the frontend are left out. Only their decoders, seeds and instruction data are modelled.
- Text.ParseIntPy: covers ASCII input only. Python's `int()` also strips non-ASCII whitespace and accepts non-ASCII decimal digits; those inputs are outside the model.
- Seeds.ClientSequence: assumes JavaScript sees the exact stored sequence number. `JSON.parse` rounds numbers above 2^53, so the model is exact only for sequences below 2^53.
- CompetitionRules.Stamp: the clock's `as u64` cast is reduction modulo 2^64, so a negative clock reads as a time near 2^64; the model keeps that reading instead of ruling such clocks out.
- CompetitionRules.After: `now as u64 + offset` wraps modulo 2^64, as a build without overflow checks does; a build with overflow checks would panic there instead, which is not modelled, and the contract gives the exact sum only below 2^64.
- Backend.SetStartAndEndTimes: times are whole seconds. Django's `timezone.now()` also carries microseconds and a time zone; both pass unchanged through the whole-minute offsets, so the model leaves them out.
- Borsh.ReadString: a length prefix that runs past the buffer is `InvalidAccountData` in the model. The hand-written decoders allocate `vec![0u8; len]` before reading, so a prefix larger than the 32 KiB program heap aborts the program instead. Either way the instruction fails and nothing is written, and no serializer writes such a prefix.
- ClientDecoders.JsReadField: treats the offset as an unbounded natural number. `readUInt32LE` coerces it with `offset >>> 0`, which would wrap past 2^32; no buffer the clients read comes near that size.

## Findings

| source | as written | input that shows it | evidently intended | confidence | as-written member | corrected member |
|---|---|---|---|---|---|---|
| smart-contract/src/lib.rs:120-151 | the state decoder never advances past `registered_users_count`, so it reports 8 bytes fewer than it read | any state account; a state that shrinks by 8 or more bytes keeps the old counter's bytes behind it | report the full width, so the rewrite clears the old bytes; the only write that can shrink the state is `create_raid`'s at lib.rs:1992-2017, which is reached only once the borrow taken at lib.rs:1867 is released | high, not executed | ProgramStates.ConsumedShortOfWritten | ProgramStates.RoundTrip |
| smart-contract/src/lib.rs:2323-2328 | the "expired" status is written and then the instruction fails, so the runtime discards it | an awaiting PvP card accepted after `start_expiration` | the card stays expired | high, not executed | CompetitionRules.ExpiryNeverRecorded | CompetitionRules.FixedRecordsExpiry |
| smart-contract/src/lib.rs:1717-1724 | the burn record is derived from the unhashed seed `burn_<user>_<program>_<time>`, longer than the 32-byte seed limit | any two Base58 keys (32 to 44 characters each) | hash the seed to 32 bytes, as for every other record | high, not executed | Seeds.BurnSeedTooLong | Seeds.BurnSeedsFixedOk |
| smart-contract/src/lib.rs:2566-2570 | `update_user_card` derives the card address from `["user_card", key]`, while `create_user_card` uses `[sha256("user_card_<key>")]` | any user who created a card | use the same derivation as `create_user_card` | high, not executed | Seeds.UpdateCheckMissesCreatedCard | Seeds.FixedCheckAcceptsCreatedCard |
| frontend/src/utils/solanaUtils.js:749-776 | a type with no recorded sequence makes the client use 1, so it asks for competition 2 | the first raid of a type, where the program opens `4-program_1` | read a missing sequence as 0, as the program does | high, not executed | Seeds.ClientIdsMissFirstCompetition | Seeds.ClientIdsFixedMatch |
| frontend/src/utils/solanaUtils.js:800-801 | the client builds the raid seed from the competition's id, which contains `_`, while the program uses the competition account's Base58 address | every raid | build the seed from the derived competition address | high, not executed | Seeds.ClientRaidSeedNeverMatches | Seeds.ClientRaidSeedFixedMatches |
| frontend/src/utils/solanaUtils.js:405-411 | the profile update sends the four strings without length prefixes | any profile typed as printable text | length-prefix each string, as `unpack_string` expects | high, not executed | ClientEncoders.UpdateUserCardRawRejected | ClientEncoders.UpdateUserCardDataAccepted |
| frontend/src/utils/solanaUtils.js:848 | the create-raid data sends the type without a length prefix | `PvP`, `4-program` and the other types | length-prefix the type | high, not executed | ClientEncoders.CreateRaidRawRejected | ClientEncoders.CreateRaidDataAccepted |
| smart-contract/src/lib.rs:2516 | `try_from_slice` rejects a user card followed by the unused space of its 1000-byte account | enrolling with a freshly created user card | read the card and ignore what follows, as `custom_deserialize` does | high, not executed | ProgramRules.EnrollStoredAsWritten | ProgramRules.EnrollStoredFixed |
| smart-contract/src/lib.rs:2573 | the same strict read in `update_user_card` | updating any stored card | a lenient read | high, not executed | ProgramRules.UpdateStoredAsWritten | ProgramRules.UpdateStoredFixed |
| smart-contract/src/lib.rs:1679 | the same strict read of the raid program in `burn_tokens_for_raid` | burning for any stored program | a lenient read | high, not executed | ProgramRules.BurnStoredAsWritten | ProgramRules.BurnAllowedAfterJoinAndEnroll |
| smart-contract/src/lib.rs:2308 | the same strict read in `accept_pvp_challenge` | accepting any fresh challenge | a lenient read; a challenge exists only once `create_raid` also releases the program-state borrow taken at lib.rs:1867 | high, not executed | CompetitionRules.FreshChallengeUnreadable | CompetitionRules.FreshChallengeAcceptable |
| smart-contract/src/lib.rs:1950-1956 | the current competition is read strictly before its emptiness is tested, so the empty-account branch is dead and a stored competition cannot be joined | the second raid of a program-count type | test emptiness first and read leniently; a competition to join exists only once `create_raid` also releases the program-state borrow taken at lib.rs:1867 | high, not executed | CompetitionRules.NewCompetitionIsJoined | CompetitionRules.NewCompetitionIsJoined |
| smart-contract/src/lib.rs:2281-2289 | the competitions index, created as an empty list in 1000 bytes, is read with `try_from_slice` | the first competition ever created | a lenient read; the raid that creates the competition then also needs the program-state borrow taken at lib.rs:1867 released | high, not executed | CompetitionRules.IndexUnreadableAsWritten | CompetitionRules.IndexUnreadableAsWritten |
| smart-contract/src/lib.rs:2018-2056 | the activating join of a 24-program competition writes 23 key texts and commas into the 1000-byte competition account, which does not have room for them | a `24-program` competition with 22 members and a further join | size the competition account for its required programs | high, not executed | CompetitionRules.FullCompetitionNeverActivates | CompetitionRules.SizedCompetitionActivates |
| smart-contract/src/lib.rs:2131-2154 | the program-wide indexes live in 1000-byte accounts that are never enlarged, so after 22 keys the next registration fails | the 23rd raid program, raid or competition | enlarge the index account before the write | high, not executed | ProgramRules.IndexFullAfter22 | ProgramRules.GrowingIndexTakesEveryKey |
| smart-contract/src/lib.rs:2515-2542 | enrolment reads the user card with `try_from_slice` and writes the longer enrolled card back into the same account, so no enrolment can succeed | any user card account | read the card leniently and write into the account's spare room | high, not executed | ProgramRules.EnrollNeverSucceedsAsWritten | ProgramRules.EnrolledAccountReadsBack |
| smart-contract/src/lib.rs:1867-1997 | `create_raid` borrows the program state's data for a slice that stays alive to the end of the handler, so the state write's `borrow_mut` panics | every PvP raid and every raid that opens a program-count competition | take only the length and release the borrow before the write | high, not executed | ProgramRules.OpeningRaidAbortsAsWritten | ProgramRules.OpeningRaidStoresState |
| smart-contract/src/lib.rs:2331-2343 | acceptance never compares the accepting program with `challenged_program_id`, and overwrites it | a challenge to program B accepted by the owner of program C | accept only for the challenged program | medium, not executed | CompetitionRules.AnyProgramMayAccept | CompetitionRules.FixedRecordsExpiry |

=== FILE: backend.dfy ===
/**
 * The Django back end's program and competition models
 * (backend/programs/models.py): starting and ending a raid on a program,
 * the number of programs a competition type needs, and the start and end
 * times a competition gets. `save()` is the database write and is left
 * out: each operation returns the updated record instead. Times are whole
 * seconds; `timezone.now()` is a parameter.
 */
module Backend {
  import opened Bytes
  import opened Wrappers
  import opened Text
  import CompetitionRules
  import Seeds

  /** The exception Python's `int()` raises on text that is not a number. */
  datatype PyError = ValueError

  /** The fields of `Program` that raids touch. */
  datatype Program = Program(name: seq<byte>, isConductingRaid: bool, completedRaids: int)

  /** The fields of `Competition` that the scheduling touches. */
  datatype Competition = Competition(competitionType: seq<byte>, startTime: Option<int>,
                                     endTime: Option<int>, status: seq<byte>)

  /** The back end spells the head-to-head type in lower case. */
  const PVP_TYPE: seq<byte> := Ascii("pvp")

  const FIVE_MINUTES: int := 300
  const FIFTEEN_MINUTES: int := 900

  // ----- raids on a program -----

  /**
   * `start_raid`: a program not already raiding starts, and the call
   * reports whether it did; a raiding program is left alone.
   */
  function StartRaid(p: Program): (r: (Program, bool))
    ensures r.1 <==> !p.isConductingRaid
    ensures r.0.isConductingRaid
    ensures r.0.name == p.name && r.0.completedRaids == p.completedRaids
  {
    if !p.isConductingRaid then (p.(isConductingRaid := true), true) else (p, false)
  }

  /**
   * `end_raid`: a raiding program stops and its completed raids go up by
   * one; a program not raiding is left alone and the call reports false.
   */
  function EndRaid(p: Program): (r: (Program, bool))
    ensures r.1 <==> p.isConductingRaid
    ensures !r.0.isConductingRaid
    ensures r.0.name == p.name
    ensures r.0.completedRaids == p.completedRaids + (if r.1 then 1 else 0)
  {
    if p.isConductingRaid then (p.(isConductingRaid := false, completedRaids := p.completedRaids + 1), true)
    else (p, false)
  }

  /** Starting twice, or ending twice, changes nothing the second time and reports false. */
  lemma RaidCallsIdempotent(p: Program)
    ensures StartRaid(StartRaid(p).0) == (StartRaid(p).0, false)
    ensures EndRaid(EndRaid(p).0) == (EndRaid(p).0, false)
  {
  }

  /** `n` raids started and ended, one after another. */
  function RaidCycles(p: Program, n: nat): Program
    decreases n
  {
    if n == 0 then p else RaidCycles(EndRaid(StartRaid(p).0).0, n - 1)
  }

  /**
   * A program that is not raiding and goes through `n` raids ends up not
   * raiding with `n` more completed raids, and nothing else changed.
   */
  lemma {:induction false} RaidCyclesCount(p: Program, n: nat)
    requires !p.isConductingRaid
    ensures RaidCycles(p, n) == p.(completedRaids := p.completedRaids + n)
    decreases n
  {
    if n > 0 {
      var q := EndRaid(StartRaid(p).0).0;
      assert q == p.(completedRaids := p.completedRaids + 1);
      RaidCyclesCount(q, n - 1);
    }
  }

  // ----- required programs -----

  /**
   * `required_programs`: 2 for `pvp`, otherwise `int()` of the text before
   * the first `-`, which raises `ValueError` when that text is not an
   * integer. The text before the first `-` holds no `-`, so the count is
   * never negative.
   */
  function RequiredPrograms(competitionType: seq<byte>): (r: Result<nat, PyError>)
    ensures competitionType == PVP_TYPE ==> r == Ok(2)
    ensures competitionType != PVP_TYPE ==> (r.Ok? <==> ParseIntPy(Split(competitionType, MINUS)[0]).Some?)
    ensures r.Ok? && competitionType != PVP_TYPE ==> ParseIntPy(Split(competitionType, MINUS)[0]) == Some(r.value)
  {
    if competitionType == PVP_TYPE then Ok(2)
    else
      var head := Split(competitionType, MINUS)[0];
      SplitHeadFree(competitionType, MINUS);
      match ParseIntPy(head)
      case Some(n) => Ok(n)
      case None => Err(ValueError)
  }

  /** Any type that starts with a number and a `-` needs that many programs. */
  lemma {:induction false} CountTypeRequires(n: nat, tail: seq<byte>)
    ensures RequiredPrograms(Decimal(n) + [MINUS] + tail) == Ok(n)
  {
    var d := Decimal(n);
    assert d != PVP_TYPE by { assert IsDigit(d[0]) && !IsDigit(PVP_TYPE[0]); }
    assert d + [MINUS] + tail != PVP_TYPE by {
      assert (d + [MINUS] + tail)[0] == d[0];
    }
    assert Free(d, MINUS);
    SplitAppend(d, MINUS, tail);
    SplitFree(d, MINUS);
    DecimalRoundTrip(n);
    ParseIntPyDigits(d);
  }

  /**
   * `int()` is more forgiving than a run of digits: whitespace around the
   * number, a leading `+` and an underscore between digits are accepted,
   * so types such as ` 4-program`, `+4-program` and `1_2-program`, which
   * the program rejects, still get a count; a dangling underscore still
   * raises.
   */
  lemma PythonIntForms(n: nat, a: seq<byte>, b: seq<byte>, pre: seq<byte>, post: seq<byte>)
    requires AllPySpace(pre) && AllPySpace(post)
    requires |a| > 0 && AllDigits(a) && |b| > 0 && AllDigits(b)
    ensures RequiredPrograms(pre + Decimal(n) + post + CompetitionRules.PROGRAM_SUFFIX) == Ok(n)
    ensures RequiredPrograms([PLUS] + Decimal(n) + CompetitionRules.PROGRAM_SUFFIX) == Ok(n)
    ensures RequiredPrograms(a + [UNDERSCORE] + b + CompetitionRules.PROGRAM_SUFFIX) == Ok(DigitsValue(a + b))
    ensures RequiredPrograms(a + [UNDERSCORE] + CompetitionRules.PROGRAM_SUFFIX) == Err(ValueError)
  {
    SpacedCount(n, pre, post);
    SignedCount(n);
    UnderscoredCount(a, b);
    DanglingUnderscore(a);
  }

  lemma SpacedCount(n: nat, pre: seq<byte>, post: seq<byte>)
    requires AllPySpace(pre) && AllPySpace(post)
    ensures RequiredPrograms(pre + Decimal(n) + post + CompetitionRules.PROGRAM_SUFFIX) == Ok(n)
  {
    var d := Decimal(n);
    var padded := pre + d + post;
    assert ParseIntPy(padded) == Some(n) by {
      DecimalRoundTrip(n);
      assert IsDigit(d[0]) && IsDigit(d[|d| - 1]);
      ParseIntPyPadded(pre, d, post);
      ParseIntPyDigits(d);
    }
    assert Free(padded, MINUS) by {
      assert Free(pre, MINUS) && Free(d, MINUS) && Free(post, MINUS);
      FreeConcat(pre, d, MINUS);
      FreeConcat(pre + d, post, MINUS);
    }
    assert padded[0] != 0x70 by {
      if |pre| > 0 { assert padded[0] == pre[0]; } else { assert padded[0] == d[0]; }
    }
    CountFromHead(padded);
  }

  lemma SignedCount(n: nat)
    ensures RequiredPrograms([PLUS] + Decimal(n) + CompetitionRules.PROGRAM_SUFFIX) == Ok(n)
  {
    var d := Decimal(n);
    DecimalRoundTrip(n);
    ParseIntPyPlus(d);
    assert Free(d, MINUS);
    FreeConcat([PLUS], d, MINUS);
    CountFromHead([PLUS] + d);
  }

  lemma UnderscoredCount(a: seq<byte>, b: seq<byte>)
    requires |a| > 0 && AllDigits(a) && |b| > 0 && AllDigits(b)
    ensures RequiredPrograms(a + [UNDERSCORE] + b + CompetitionRules.PROGRAM_SUFFIX) == Ok(DigitsValue(a + b))
  {
    ParseIntPyUnderscore(a, b);
    assert Free(a + [UNDERSCORE] + b, MINUS);
    CountFromHead(a + [UNDERSCORE] + b);
  }

  lemma DanglingUnderscore(a: seq<byte>)
    requires |a| > 0 && AllDigits(a)
    ensures RequiredPrograms(a + [UNDERSCORE] + CompetitionRules.PROGRAM_SUFFIX) == Err(ValueError)
  {
    ParseIntPyTrailingUnderscore(a);
    assert Free(a + [UNDERSCORE], MINUS);
    CountFromHead(a + [UNDERSCORE]);
  }

  /** A type `head-program`, with `head` free of `-`, needs `int(head)` programs. */
  lemma CountFromHead(head: seq<byte>)
    requires Free(head, MINUS) && |head| > 0 && head[0] != 0x70
    ensures ParseIntPy(head).Some? ==>
              ParseIntPy(head).value >= 0
              && RequiredPrograms(head + CompetitionRules.PROGRAM_SUFFIX) == Ok(ParseIntPy(head).value)
    ensures ParseIntPy(head).None? ==> RequiredPrograms(head + CompetitionRules.PROGRAM_SUFFIX) == Err(ValueError)
  {
    var tail := Ascii("program");
    SuffixShape();
    assert head + CompetitionRules.PROGRAM_SUFFIX == head + [MINUS] + tail;
    HeadOf(head, tail, head + [MINUS] + tail);
    NotPvp(head + CompetitionRules.PROGRAM_SUFFIX);
  }

  lemma SuffixShape()
    ensures CompetitionRules.PROGRAM_SUFFIX == [MINUS] + Ascii("program")
  {
  }

  lemma NotPvp(s: seq<byte>)
    requires |s| > 0 && s[0] != 0x70
    ensures s != PVP_TYPE
  {
    assert s[0] != PVP_TYPE[0];
  }

  /** The text before the first `-` of `head-tail`. */
  lemma HeadOf(head: seq<byte>, tail: seq<byte>, s: seq<byte>)
    requires Free(head, MINUS) && s == head + [MINUS] + tail
    ensures Split(s, MINUS)[0] == head
  {
    SplitAppend(head, MINUS, tail);
    SplitFree(head, MINUS);
  }

  /**
   * The back end and the program agree on every program-count type the
   * program accepts.
   */
  lemma AgreesWithProgramOnCountTypes(competitionType: seq<byte>)
    requires CompetitionRules.RequiredPrograms(competitionType).Ok?
    requires competitionType != Seeds.PVP
    ensures RequiredPrograms(competitionType) == Ok(CompetitionRules.RequiredPrograms(competitionType).value)
  {
    var n := CompetitionRules.RequiredPrograms(competitionType).value;
    var tail := Ascii("program");
    SuffixShape();
    assert competitionType == Decimal(n) + [MINUS] + tail;
    CountTypeRequires(n, tail);
  }

  /**
   * The two head-to-head spellings: the back end's `pvp` is a type the
   * program rejects, and the program's `PvP` makes the back end's `int()`
   * raise.
   */
  lemma PvpSpellingsDiffer()
    ensures CompetitionRules.RequiredPrograms(PVP_TYPE).Err?
    ensures RequiredPrograms(Seeds.PVP) == Err(ValueError)
  {
    ProgramRejectsLowerPvp();
    BackendRejectsPvP();
  }

  lemma ProgramRejectsLowerPvp()
    ensures CompetitionRules.RequiredPrograms(PVP_TYPE).Err?
  {
    assert Seeds.PVP != PVP_TYPE by { assert Seeds.PVP[0] != PVP_TYPE[0]; }
  }

  lemma BackendRejectsPvP()
    ensures RequiredPrograms(Seeds.PVP) == Err(ValueError)
  {
    var p := Seeds.PVP;
    assert p != PVP_TYPE by { assert p[0] != PVP_TYPE[0]; }
    assert Split(p, MINUS)[0] == p by {
      assert Free(p, MINUS);
      SplitFree(p, MINUS);
    }
    assert ParseIntPy(p) == None by {
      ParseIntPyLetter(p);
    }
  }

  // ----- scheduling -----

  /**
   * `set_start_and_end_times`: the competition starts five minutes from
   * now and ends fifteen minutes after it starts; nothing else changes.
   */
  function SetStartAndEndTimes(c: Competition, now: int): (r: Competition)
    ensures r.startTime.Some? && r.endTime.Some?
    ensures r.startTime.value - now == FIVE_MINUTES
    ensures r.endTime.value - r.startTime.value == FIFTEEN_MINUTES
    ensures r.(startTime := c.startTime, endTime := c.endTime) == c
  {
    var start := now + FIVE_MINUTES;
    c.(startTime := Some(start), endTime := Some(start + FIFTEEN_MINUTES))
  }

  /**
   * Against the program's own raid window for the same moment: both start
   * five minutes from now, but the program's window ends five minutes
   * later than the back end's.
   */
  lemma ScheduleAgainstProgramWindow(c: Competition, now: nat)
    requires now + CompetitionRules.START_DELAY + CompetitionRules.RAID_DURATION < TWO_64
    ensures var r := SetStartAndEndTimes(c, now);
            var (start, end) := CompetitionRules.RaidWindow(now);
            start == r.startTime.value && end == r.endTime.value + 300
  {
    assert CompetitionRules.Stamp(now) == now;
  }
}

=== FILE: borsh.dfy ===
/**
 * The Borsh primitives the on-chain program reads and writes
 * (smart-contract/src/lib.rs): fixed 32-byte public keys, little-endian
 * `u32`/`u64`, one-byte `bool`, and strings as a `u32` length followed by
 * UTF-8 bytes. Each reader takes the unread suffix of the account buffer,
 * as `T::deserialize(&mut &data[pos..])` does, and returns the value with
 * the suffix left after it.
 */
module Borsh {
  import opened Bytes
  import opened Wrappers

  /** The `ProgramError` variants that the modelled code paths return. */
  datatype ProgramError =
    | InvalidAccountData
    | AccountDataTooSmall
    | InvalidInstructionData
    | InvalidArgument
    | UninitializedAccount
    | AccountAlreadyInitialized
    | BorshIoError        // a derived Borsh reader's I/O error, converted by `?`
    | Aborted             // a panic: the runtime fails the instruction without an error code

  /** A public key: an opaque 32-byte identity. */
  type Pubkey = seq<byte>

  predicate IsKey(k: Pubkey) { |k| == 32 }

  /** A string field that the serializer can length-prefix without truncation. */
  predicate StrOk(s: seq<byte>) { ValidUtf8(s) && |s| < TWO_32 }

  predicate U64Ok(n: nat) { n < TWO_64 }

  /** A value read from the front of a buffer, and the bytes after it. */
  datatype Parsed<T> = Parsed(value: T, rest: seq<byte>)

  /** A decoded record and the cursor position the decoder reports. */
  datatype Decoded<T> = Decoded(value: T, consumed: nat)

  function EncBool(b: bool): (r: seq<byte>)
    ensures |r| == 1
  {
    if b then [1] else [0]
  }

  /** A string as Borsh writes it: `(len as u32)` little-endian, then the bytes. */
  function EncString(s: seq<byte>): (r: seq<byte>)
    ensures |r| == 4 + |s|
  {
    U32Bytes(|s|) + s
  }

  function ReadU8(s: seq<byte>): (r: Result<Parsed<byte>, ProgramError>)
    ensures r.Ok? <==> |s| >= 1
    ensures r.Ok? ==> s == [r.value.value] + r.value.rest
  {
    if |s| < 1 then Err(InvalidAccountData) else Ok(Parsed(s[0], s[1..]))
  }

  function ReadU32(s: seq<byte>): (r: Result<Parsed<nat>, ProgramError>)
    ensures r.Ok? <==> |s| >= 4
    ensures r.Ok? ==> r.value.value == LeValue(s[..4]) && r.value.rest == s[4..]
    ensures r.Ok? ==> r.value.value < TWO_32 && s == U32Bytes(r.value.value) + r.value.rest
  {
    if |s| < 4 then Err(InvalidAccountData)
    else
      LeValueBound(s[..4]);
      LeBytesOfValue(s[..4]);
      assert Pow256(4) == TWO_32;
      Ok(Parsed(LeValue(s[..4]), s[4..]))
  }

  function ReadU64(s: seq<byte>): (r: Result<Parsed<nat>, ProgramError>)
    ensures r.Ok? <==> |s| >= 8
    ensures r.Ok? ==> r.value.value == LeValue(s[..8]) && r.value.rest == s[8..]
    ensures r.Ok? ==> r.value.value < TWO_64 && s == U64Bytes(r.value.value) + r.value.rest
  {
    if |s| < 8 then Err(InvalidAccountData)
    else
      LeValueBound(s[..8]);
      LeBytesOfValue(s[..8]);
      assert Pow256(8) == TWO_64;
      Ok(Parsed(LeValue(s[..8]), s[8..]))
  }

  function ReadPubkey(s: seq<byte>): (r: Result<Parsed<Pubkey>, ProgramError>)
    ensures r.Ok? <==> |s| >= 32
    ensures r.Ok? ==> IsKey(r.value.value) && s == r.value.value + r.value.rest
  {
    if |s| < 32 then Err(InvalidAccountData) else Ok(Parsed(s[..32], s[32..]))
  }

  /** Borsh's `bool`: byte 0 is false, byte 1 is true, any other byte is an error. */
  function ReadBool(s: seq<byte>): (r: Result<Parsed<bool>, ProgramError>)
    ensures r.Ok? <==> |s| >= 1 && s[0] <= 1
    ensures r.Ok? ==> s == EncBool(r.value.value) + r.value.rest
  {
    if |s| < 1 || s[0] > 1 then Err(InvalidAccountData)
    else Ok(Parsed(s[0] == 1, s[1..]))
  }

  /**
   * A length-prefixed string: fails when the length field or the declared
   * number of bytes runs past the buffer, or the bytes are not UTF-8.
   */
  function ReadString(s: seq<byte>): (r: Result<Parsed<seq<byte>>, ProgramError>)
    ensures r.Ok? <==> |s| >= 4 && 4 + LeValue(s[..4]) <= |s| && ValidUtf8(s[4..4 + LeValue(s[..4])])
    ensures r.Ok? ==> StrOk(r.value.value) && s == EncString(r.value.value) + r.value.rest
  {
    var len :- ReadU32(s);
    if |len.rest| < len.value then Err(InvalidAccountData)
    else if !ValidUtf8(len.rest[..len.value]) then
      assert s[4..4 + len.value] == len.rest[..len.value];
      Err(InvalidAccountData)
    else
      assert s[4..4 + len.value] == len.rest[..len.value];
      Ok(Parsed(len.rest[..len.value], len.rest[len.value..]))
  }

  /** Where the string reader succeeds, it returns the bytes after the length and what follows them. */
  lemma ReadStringParts(s: seq<byte>)
    requires ReadString(s).Ok?
    ensures var n := LeValue(s[..4]);
            ReadString(s).value == Parsed(s[4..4 + n], s[4 + n..])
  {
  }

  lemma U32ReadBack(n: nat, rest: seq<byte>)
    requires n < TWO_32
    ensures ReadU32(U32Bytes(n) + rest) == Ok(Parsed(n, rest))
  {
    var s := U32Bytes(n) + rest;
    assert s[..4] == U32Bytes(n);
    U32RoundTrip(n);
  }

  lemma U64ReadBack(n: nat, rest: seq<byte>)
    requires U64Ok(n)
    ensures ReadU64(U64Bytes(n) + rest) == Ok(Parsed(n, rest))
  {
    var s := U64Bytes(n) + rest;
    assert s[..8] == U64Bytes(n);
    U64RoundTrip(n);
  }

  lemma PubkeyReadBack(k: Pubkey, rest: seq<byte>)
    requires IsKey(k)
    ensures ReadPubkey(k + rest) == Ok(Parsed(k, rest))
  {
    assert (k + rest)[..32] == k;
  }

  lemma BoolReadBack(b: bool, rest: seq<byte>)
    ensures ReadBool(EncBool(b) + rest) == Ok(Parsed(b, rest))
  {
    assert (EncBool(b) + rest)[1..] == rest;
  }

  lemma StringReadBack(v: seq<byte>, rest: seq<byte>)
    requires StrOk(v)
    ensures ReadString(EncString(v) + rest) == Ok(Parsed(v, rest))
  {
    var s := EncString(v) + rest;
    assert s == U32Bytes(|v|) + (v + rest);
    U32ReadBack(|v|, v + rest);
    assert (v + rest)[..|v|] == v;
    assert (v + rest)[|v|..] == rest;
  }

  /**
   * Serializing through a `Cursor` over the account's bytes: the encoding
   * overwrites the front of the buffer when it fits, and otherwise the
   * write fails with `AccountDataTooSmall`. (A failed write aborts the
   * instruction and the runtime discards the partly written buffer.)
   */
  function WriteInto(enc: seq<byte>, buf: seq<byte>): (r: Result<seq<byte>, ProgramError>)
    ensures r.Ok? <==> |enc| <= |buf|
    ensures r.Err? ==> r.error == AccountDataTooSmall
    ensures r.Ok? ==> |r.value| == |buf| && r.value[..|enc|] == enc && r.value[|enc|..] == buf[|enc|..]
  {
    if |enc| > |buf| then Err(AccountDataTooSmall) else Ok(enc + buf[|enc|..])
  }

  /**
   * The derived `serialize` into the account slice (`&mut &mut data[..]`):
   * the same bytes as `WriteInto`, but a slice that fills up is Borsh's
   * I/O error, which `?` converts.
   */
  function SerializeInto(enc: seq<byte>, buf: seq<byte>): (r: Result<seq<byte>, ProgramError>)
    ensures r.Ok? <==> |enc| <= |buf|
    ensures r.Err? ==> r.error == BorshIoError
    ensures r.Ok? ==> WriteInto(enc, buf) == r
  {
    if |enc| > |buf| then Err(BorshIoError) else WriteInto(enc, buf)
  }

  /**
   * How a handler reads a card account: `Strict` is `try_from_slice`, as
   * the handlers are written; `Lenient` is the card's hand-written decoder,
   * which stops after the last field and ignores the unused space.
   */
  datatype ReadMode = Strict | Lenient

  /** The size every card account is created with (`space = 1000`). */
  const ACCOUNT_SPACE: nat := 1000

  /** Every byte from position `n` on is zero: the account's unused space is clean. */
  predicate ZeroFrom(account: seq<byte>, n: nat)
  {
    forall i :: n <= i < |account| ==> account[i] == 0
  }

  function Zeros(n: nat): (r: seq<byte>)
    ensures |r| == n && ZeroFrom(r, 0)
  {
    seq(n, _ => 0)
  }

  /**
   * A new account as the handlers leave it: `ACCOUNT_SPACE` bytes, zero
   * when the runtime creates them, with the card's encoding written at the
   * front.
   */
  function FreshAccount(enc: seq<byte>): (r: seq<byte>)
    requires |enc| <= ACCOUNT_SPACE
    ensures |r| == ACCOUNT_SPACE && r[..|enc|] == enc && ZeroFrom(r, |enc|)
    ensures WriteInto(enc, Zeros(ACCOUNT_SPACE)) == Ok(r)
  {
    assert Zeros(ACCOUNT_SPACE)[|enc|..] == Zeros(ACCOUNT_SPACE - |enc|);
    enc + Zeros(ACCOUNT_SPACE - |enc|)
  }
}

=== FILE: bytes.dfy ===
/**
 * Bytes, fixed-width little-endian integers and UTF-8 well-formedness:
 * the primitives of the Borsh layout shared by the on-chain program and its
 * clients.
 */
module Bytes {

  type byte = x: int | 0 <= x < 256

  const TWO_32: nat := 0x1_0000_0000
  const TWO_64: nat := 0x1_0000_0000_0000_0000

  /** 256 to the power `width`: one more than the largest `width`-byte value. */
  function Pow256(width: nat): (r: nat)
    ensures r >= 1
  {
    if width == 0 then 1 else 256 * Pow256(width - 1)
  }

  /** The little-endian value of a byte string of any length. */
  function LeValue(s: seq<byte>): nat
  {
    if |s| == 0 then 0 else s[0] + 256 * LeValue(s[1..])
  }

  /** The low `width` bytes of `n`, least significant first. */
  function LeBytes(n: nat, width: nat): (r: seq<byte>)
    ensures |r| == width
  {
    if width == 0 then [] else [n % 256] + LeBytes(n / 256, width - 1)
  }

  /** A value that fits in `width` bytes survives encoding and decoding. */
  lemma {:induction false} LeRoundTrip(n: nat, width: nat)
    requires n < Pow256(width)
    ensures LeValue(LeBytes(n, width)) == n
  {
    if width > 0 {
      LeRoundTrip(n / 256, width - 1);
      assert LeBytes(n, width)[1..] == LeBytes(n / 256, width - 1);
    }
  }

  /** `width` bytes never hold more than `Pow256(width) - 1`. */
  lemma {:induction false} LeValueBound(s: seq<byte>)
    ensures LeValue(s) < Pow256(|s|)
  {
    if |s| > 0 {
      LeValueBound(s[1..]);
    }
  }

  /** Decoding then re-encoding a byte string gives it back: the encoding is onto. */
  lemma {:induction false} LeBytesOfValue(s: seq<byte>)
    ensures LeBytes(LeValue(s), |s|) == s
  {
    if |s| > 0 {
      LeBytesOfValue(s[1..]);
      var v := LeValue(s);
      assert v % 256 == s[0] && v / 256 == LeValue(s[1..]);
    }
  }

  /** `x as u32` in Rust, `>>> 0` / a `Uint32Array` slot in JavaScript. */
  function AsU32(x: int): (r: nat)
    ensures r < TWO_32
    ensures 0 <= x < TWO_32 ==> r == x
  {
    x % TWO_32
  }

  /** `x as u64` in Rust: wrap-around modulo 2^64 (an `i64` clock is cast this way). */
  function AsU64(x: int): (r: nat)
    ensures r < TWO_64
    ensures 0 <= x < TWO_64 ==> r == x
  {
    x % TWO_64
  }

  /** A `u32` written little-endian, as Borsh writes a string length. */
  function U32Bytes(n: nat): (r: seq<byte>)
    ensures |r| == 4
  {
    LeBytes(AsU32(n), 4)
  }

  /** A `u64` written little-endian. */
  function U64Bytes(n: nat): (r: seq<byte>)
    ensures |r| == 8
  {
    LeBytes(AsU64(n), 8)
  }

  lemma U32RoundTrip(n: nat)
    requires n < TWO_32
    ensures LeValue(U32Bytes(n)) == n
  {
    assert Pow256(4) == TWO_32;
    LeRoundTrip(n, 4);
  }

  lemma U64RoundTrip(n: nat)
    requires n < TWO_64
    ensures LeValue(U64Bytes(n)) == n
  {
    assert Pow256(8) == TWO_64;
    LeRoundTrip(n, 8);
  }

  predicate IsCont(b: byte) { 0x80 <= b <= 0xBF }

  /**
   * Length of the well-formed UTF-8 sequence that starts `s`, or 0 when the
   * first bytes are ill-formed (Table 3-7 of the Unicode Standard: no
   * overlong forms, no surrogates, nothing above U+10FFFF).
   */
  function Utf8SeqLen(s: seq<byte>): (n: nat)
    ensures n <= |s| && n <= 4
    ensures |s| > 0 && s[0] < 0x80 ==> n == 1
    ensures |s| == 0 ==> n == 0
  {
    if |s| == 0 then 0
    else if s[0] <= 0x7F then 1
    else if 0xC2 <= s[0] <= 0xDF then
      if |s| >= 2 && IsCont(s[1]) then 2 else 0
    else if 0xE0 <= s[0] <= 0xEF then
      if |s| >= 3 && IsCont(s[1]) && IsCont(s[2])
         && (s[0] != 0xE0 || s[1] >= 0xA0)
         && (s[0] != 0xED || s[1] <= 0x9F)
      then 3 else 0
    else if 0xF0 <= s[0] <= 0xF4 then
      if |s| >= 4 && IsCont(s[1]) && IsCont(s[2]) && IsCont(s[3])
         && (s[0] != 0xF0 || s[1] >= 0x90)
         && (s[0] != 0xF4 || s[1] <= 0x8F)
      then 4 else 0
    else 0
  }

  /** The bytes are well-formed UTF-8, which `String::from_utf8` demands. */
  predicate ValidUtf8(s: seq<byte>)
    decreases |s|
  {
    |s| == 0 || (Utf8SeqLen(s) > 0 && ValidUtf8(s[Utf8SeqLen(s)..]))
  }

  /** Every byte is below 0x80. */
  predicate IsAscii(s: seq<byte>) {
    forall i :: 0 <= i < |s| ==> s[i] < 0x80
  }

  lemma {:induction false} AsciiIsUtf8(s: seq<byte>)
    requires IsAscii(s)
    ensures ValidUtf8(s)
  {
    if |s| > 0 {
      assert Utf8SeqLen(s) == 1;
      AsciiIsUtf8(s[1..]);
    }
  }

  /** The first sequence of well-formed UTF-8 is read the same whatever follows it. */
  lemma Utf8SeqLenPrefix(a: seq<byte>, b: seq<byte>)
    requires Utf8SeqLen(a) > 0
    ensures Utf8SeqLen(a + b) == Utf8SeqLen(a)
  {
    assert forall i | 0 <= i < |a| :: (a + b)[i] == a[i];
  }

  /** Well-formed UTF-8 followed by well-formed UTF-8 is well formed. */
  lemma {:induction false} Utf8Concat(a: seq<byte>, b: seq<byte>)
    requires ValidUtf8(a) && ValidUtf8(b)
    ensures ValidUtf8(a + b)
    decreases |a|
  {
    if |a| == 0 {
      assert a + b == b;
    } else {
      var n := Utf8SeqLen(a);
      Utf8SeqLenPrefix(a, b);
      assert (a + b)[n..] == a[n..] + b;
      Utf8Concat(a[n..], b);
    }
  }

  /** The bytes of a string literal; every literal in the model is ASCII. */
  function Ascii(s: string): (r: seq<byte>)
    ensures |r| == |s|
    ensures forall i :: 0 <= i < |s| ==> r[i] == (s[i] as int) % 256
  {
    seq(|s|, i requires 0 <= i < |s| => (s[i] as int) % 256)
  }

  /** The bytes of a literal written in 7-bit characters are ASCII. */
  lemma AsciiText(s: string)
    requires forall i :: 0 <= i < |s| ==> s[i] < 128 as char
    ensures IsAscii(Ascii(s))
  {
  }
}

=== FILE: client_decoders.dfy ===
/**
 * The clients' hand-written account decoders. The web frontend
 * (frontend/src/utils/solanaUtils.js) and the user-card action route read
 * with unchecked offset readers: `readUInt32LE` throws a `RangeError` past
 * the end, but `slice` is clamped, a bool past the end reads as `true`
 * (`undefined !== 0`), a short `u64` slice is read as the bytes present,
 * and a short key slice is a key with leading zero bytes. The program-card
 * action route checks every read against the buffer length and reports any
 * overrun as one "Failed to parse program data" error. Decoded strings are
 * kept as their bytes.
 */
module ClientDecoders {
  import opened Bytes
  import opened Wrappers
  import opened Borsh
  import opened Fields
  import UserCards
  import RaidProgramCards
  import ProgramStates
  import ListCards

  datatype JsError =
    | RangeError        // `readUInt32LE` past the end of the buffer
    | ParseError        // the checked decoder's "Failed to parse program data"
    | AccountNotFound   // "User card account not found"
    | PrecisionError    // bn.js `toNumber()` of a value that needs more than 53 bits

  /** A value read at an offset and the offset after it. */
  datatype Read<T> = Read(value: T, offset: nat)

  function Min(a: nat, b: nat): nat { if a <= b then a else b }

  /** `data.slice(from, to)`: both ends clamped to the buffer. */
  function Slice(data: seq<byte>, from: nat, to: nat): (r: seq<byte>)
    requires from <= to
    ensures |r| <= to - from
    ensures to <= |data| ==> r == data[from..to]
  {
    data[Min(from, |data|)..Min(to, |data|)]
  }

  /** `new PublicKey(bytes)` of at most 32 bytes: a big-endian number, so short input gains leading zeros. */
  function PublicKeyOf(bytes: seq<byte>): (k: Pubkey)
    requires |bytes| <= 32
    ensures IsKey(k) && k[32 - |bytes|..] == bytes
    ensures forall i :: 0 <= i < 32 - |bytes| ==> k[i] == 0
  {
    seq(32 - |bytes|, _ => 0) + bytes
  }

  /** One unchecked reader of the frontend decoders. */
  function JsReadField(kind: Kind, data: seq<byte>, off: nat): (r: Result<Read<Value>, JsError>)
    requires !IsOptional(kind)
    ensures r.Err? <==> kind == StrKind && off + 4 > |data|
    ensures r.Err? ==> r.error == RangeError
    ensures r.Ok? ==> KindOf(r.value.value) == kind && r.value.offset > off
    ensures r.Ok? && kind == KeyKind ==> IsKey(r.value.value.key)
    ensures r.Ok? && kind == U64Kind ==> U64Ok(r.value.value.num)
  {
    match kind
    case KeyKind => Ok(Read(Key(PublicKeyOf(Slice(data, off, off + 32))), off + 32))
    case StrKind =>
      if off + 4 > |data| then Err(RangeError)
      else
        var length := LeValue(data[off..off + 4]);
        Ok(Read(Str(Slice(data, off + 4, off + 4 + length)), off + 4 + length))
    case BoolKind => Ok(Read(Bool(off >= |data| || data[off] != 0), off + 1))
    case U64Kind =>
      var bytes := Slice(data, off, off + 8);
      LeValueBound(bytes);
      assert Pow256(8) == TWO_64;
      Pow256Monotone(|bytes|, 8);
      Ok(Read(U64(LeValue(bytes)), off + 8))
  }

  lemma {:induction false} Pow256Monotone(a: nat, b: nat)
    requires a <= b
    ensures Pow256(a) <= Pow256(b)
    decreases b
  {
    if a < b {
      Pow256Monotone(a, b - 1);
    }
  }

  /** One checked reader of the program-card route: any read past the end fails. */
  function TsReadField(kind: Kind, data: seq<byte>, off: nat): (r: Result<Read<Value>, JsError>)
    requires !IsOptional(kind)
    ensures r.Err? ==> r.error == ParseError
    ensures r.Ok? ==> KindOf(r.value.value) == kind
                      && r.value.offset == off + Width(r.value.value) <= |data|
  {
    match kind
    case KeyKind =>
      if off + 32 > |data| then Err(ParseError) else Ok(Read(Key(data[off..off + 32]), off + 32))
    case StrKind =>
      if off + 4 > |data| then Err(ParseError)
      else
        var length := LeValue(data[off..off + 4]);
        if off + 4 + length > |data| then Err(ParseError)
        else Ok(Read(Str(data[off + 4..off + 4 + length]), off + 4 + length))
    case BoolKind =>
      if off + 1 > |data| then Err(ParseError) else Ok(Read(Bool(data[off] != 0), off + 1))
    case U64Kind =>
      if off + 8 > |data| then Err(ParseError) else Ok(Read(U64(LeValue(data[off..off + 8])), off + 8))
  }

  /** The unchecked readers applied to the fields of `layout` in order. */
  function JsDecodeFields(layout: seq<Kind>, data: seq<byte>, off: nat): (r: Result<Read<seq<Value>>, JsError>)
    requires Plain(layout)
    ensures r.Err? ==> r.error == RangeError
    ensures r.Ok? ==> Conforms(r.value.value, layout)
    decreases |layout|
  {
    if |layout| == 0 then Ok(Read([], off))
    else
      PlainTail(layout);
      var first :- JsReadField(layout[0], data, off);
      var others :- JsDecodeFields(layout[1..], data, first.offset);
      Ok(Read([first.value] + others.value, others.offset))
  }

  /** The checked readers applied to the fields of `layout` in order. */
  function TsDecodeFields(layout: seq<Kind>, data: seq<byte>, off: nat): (r: Result<Read<seq<Value>>, JsError>)
    requires Plain(layout) && off <= |data|
    ensures r.Err? ==> r.error == ParseError
    ensures r.Ok? ==> Conforms(r.value.value, layout) && off <= r.value.offset <= |data|
    decreases |layout|
  {
    if |layout| == 0 then Ok(Read([], off))
    else
      PlainTail(layout);
      var first :- TsReadField(layout[0], data, off);
      var others :- TsDecodeFields(layout[1..], data, first.offset);
      Ok(Read([first.value] + others.value, others.offset))
  }

  /** When the first field and the rest both read, the checked decoder returns them together. */
  lemma TsDecodeFieldsCons(layout: seq<Kind>, data: seq<byte>, off: nat)
    requires Plain(layout) && |layout| > 0 && off <= |data|
    requires !IsOptional(layout[0]) && Plain(layout[1..])
    requires TsReadField(layout[0], data, off).Ok?
    requires TsDecodeFields(layout[1..], data, TsReadField(layout[0], data, off).value.offset).Ok?
    ensures var first := TsReadField(layout[0], data, off).value;
            var others := TsDecodeFields(layout[1..], data, first.offset).value;
            TsDecodeFields(layout, data, off) == Ok(Read([first.value] + others.value, others.offset))
  {
  }

  /** The checked decoder's cursor moves by exactly the encoded width of the fields it read. */
  lemma {:induction false} TsOffset(layout: seq<Kind>, data: seq<byte>, off: nat)
    requires Plain(layout) && off <= |data| && TsDecodeFields(layout, data, off).Ok?
    ensures var r := TsDecodeFields(layout, data, off).value;
            r.offset == off + TotalWidth(r.value)
    decreases |layout|
  {
    if |layout| > 0 {
      PlainTail(layout);
      var first := TsReadField(layout[0], data, off).value;
      var others := TsDecodeFields(layout[1..], data, first.offset).value;
      TsOffset(layout[1..], data, first.offset);
      ConsFields(first.value, others.value);
    }
  }

  lemma RustImpliesTsString(data: seq<byte>, off: nat)
    requires off <= |data| && ReadString(data[off..]).Ok?
    ensures var v := ReadString(data[off..]).value.value;
            TsReadField(StrKind, data, off) == Ok(Read(Str(v), off + 4 + |v|))
  {
    var n := ProgramReadStringAt(data, off);
    TsReadStringAt(data, off, n);
  }

  /** The program's string reader applied at an offset, in terms of the whole buffer. */
  lemma ProgramReadStringAt(data: seq<byte>, off: nat) returns (n: nat)
    requires off <= |data| && ReadString(data[off..]).Ok?
    ensures off + 4 + n <= |data| && n == LeValue(data[off..off + 4])
    ensures ReadString(data[off..]).value.value == data[off + 4..off + 4 + n]
  {
    var s := data[off..];
    ReadStringParts(s);
    n := LeValue(s[..4]);
    assert s[..4] == data[off..off + 4];
    assert s[4..4 + n] == data[off + 4..off + 4 + n];
  }

  /** The checked string reader, once the length prefix is known to fit. */
  lemma TsReadStringAt(data: seq<byte>, off: nat, n: nat)
    requires off + 4 + n <= |data| && n == LeValue(data[off..off + 4])
    ensures TsReadField(StrKind, data, off) == Ok(Read(Str(data[off + 4..off + 4 + n]), off + 4 + n))
  {
  }

  /** Where the program's reader succeeds, the checked reader reads the same value. */
  lemma RustImpliesTsField(kind: Kind, data: seq<byte>, off: nat)
    requires !IsOptional(kind) && off <= |data| && ReadField(kind, data[off..]).Ok?
    ensures var v := ReadField(kind, data[off..]).value.value;
            TsReadField(kind, data, off) == Ok(Read(v, off + Width(v)))
  {
    if kind == KeyKind {
      RustImpliesTsFixed(kind, data, off, 32);
    } else if kind == StrKind {
      RustImpliesTsString(data, off);
    } else if kind == U64Kind {
      RustImpliesTsFixed(kind, data, off, 8);
    } else {
      assert data[off..][0] == data[off];
    }
  }

  /** The fixed-width fields: the bytes at the offset are the bytes at the head of the slice. */
  lemma RustImpliesTsFixed(kind: Kind, data: seq<byte>, off: nat, w: nat)
    requires kind == KeyKind || kind == U64Kind
    requires w == (if kind == KeyKind then 32 else 8)
    requires off <= |data| && ReadField(kind, data[off..]).Ok?
    ensures var v := ReadField(kind, data[off..]).value.value;
            TsReadField(kind, data, off) == Ok(Read(v, off + Width(v)))
  {
    assert data[off..][..w] == data[off..off + w];
  }

  /** Where the checked reader succeeds, the unchecked one reads the same value. */
  lemma TsImpliesJsField(kind: Kind, data: seq<byte>, off: nat)
    requires !IsOptional(kind) && TsReadField(kind, data, off).Ok?
    ensures JsReadField(kind, data, off) == TsReadField(kind, data, off)
  {
  }

  /**
   * One step of the comparison: the program's first field is what the
   * checked reader reads at the offset, and the program's remaining fields
   * are read from where that field ends.
   */
  lemma RustImpliesTsStep(layout: seq<Kind>, data: seq<byte>, off: nat) returns (v: Value, next: nat)
    requires Plain(layout) && |layout| > 0 && off <= |data| && DecodeFields(layout, data[off..]).Ok?
    ensures ReadField(layout[0], data[off..]).Ok? && v == ReadField(layout[0], data[off..]).value.value
    ensures next == off + Width(v) && next <= |data|
    ensures TsReadField(layout[0], data, off) == Ok(Read(v, next))
    ensures DecodeFields(layout[1..], data[next..]).Ok?
    ensures DecodeFields(layout, data[off..]).value.value == [v] + DecodeFields(layout[1..], data[next..]).value.value
  {
    PlainTail(layout);
    v, next := RustReadsHead(layout, data, off);
    RustImpliesTsField(layout[0], data, off);
  }

  /** The program reads the first field at the offset and the remaining fields from where it ends. */
  lemma RustReadsHead(layout: seq<Kind>, data: seq<byte>, off: nat) returns (v: Value, next: nat)
    requires |layout| > 0 && off <= |data| && DecodeFields(layout, data[off..]).Ok?
    ensures ReadField(layout[0], data[off..]).Ok? && v == ReadField(layout[0], data[off..]).value.value
    ensures next == off + Width(v) && next <= |data|
    ensures DecodeFields(layout[1..], data[next..]).Ok?
    ensures DecodeFields(layout, data[off..]).value.value == [v] + DecodeFields(layout[1..], data[next..]).value.value
  {
    var s := data[off..];
    DecodeFieldsCons(layout, s);
    var f := ReadField(layout[0], s).value;
    v := f.value;
    next := off + Width(v);
    assert f.rest == data[next..] by {
      DropDrop(data, off, Width(v));
    }
  }

  /**
   * Every account the program itself can decode is decoded to the same
   * fields by the checked client decoder, which stops where the encoding ends.
   */
  lemma {:induction false} RustImpliesTs(layout: seq<Kind>, data: seq<byte>, off: nat)
    requires Plain(layout) && off <= |data| && DecodeFields(layout, data[off..]).Ok?
    ensures TsDecodeFields(layout, data, off).Ok?
            && TsDecodeFields(layout, data, off).value.value == DecodeFields(layout, data[off..]).value.value
    decreases |layout|
  {
    if |layout| > 0 {
      PlainTail(layout);
      var v, next := RustImpliesTsStep(layout, data, off);
      RustImpliesTs(layout[1..], data, next);
      TsDecodeFieldsCons(layout, data, off);
      assert TsDecodeFields(layout, data, off).value.value == [v] + TsDecodeFields(layout[1..], data, next).value.value;
    }
  }

  /** Where the checked decoder succeeds, the unchecked decoders give the same fields. */
  lemma {:induction false} TsImpliesJs(layout: seq<Kind>, data: seq<byte>, off: nat)
    requires Plain(layout) && off <= |data| && TsDecodeFields(layout, data, off).Ok?
    ensures JsDecodeFields(layout, data, off) == TsDecodeFields(layout, data, off)
    decreases |layout|
  {
    if |layout| > 0 {
      PlainTail(layout);
      var first := TsReadField(layout[0], data, off).value;
      TsImpliesJsField(layout[0], data, off);
      TsImpliesJs(layout[1..], data, first.offset);
    }
  }

  /** The program's decoder and the unchecked client decoder agree on every account the program accepts. */
  lemma RustImpliesJs(layout: seq<Kind>, data: seq<byte>)
    requires Plain(layout) && DecodeFields(layout, data).Ok?
    ensures var vs := DecodeFields(layout, data).value.value;
            JsDecodeFields(layout, data, 0) == Ok(Read(vs, TotalWidth(vs)))
  {
    assert data[0..] == data;
    RustImpliesTs(layout, data, 0);
    TsOffset(layout, data, 0);
    TsImpliesJs(layout, data, 0);
    var ts := TsDecodeFields(layout, data, 0).value;
    assert ts == Read(ts.value, TotalWidth(ts.value));
  }

  /**
   * The decoders differ on bool bytes other than 0 and 1: the program
   * rejects the account, the clients read `true`. Past the end of the
   * buffer the unchecked readers still produce values: `true` and 0.
   */
  lemma LenientReaders(b: byte, data: seq<byte>)
    requires b > 1
    ensures ReadField(BoolKind, [b]).Err?
    ensures JsReadField(BoolKind, [b], 0) == Ok(Read(Bool(true), 1))
    ensures TsReadField(BoolKind, [b], 0) == Ok(Read(Bool(true), 1))
    ensures JsReadField(BoolKind, data, |data|) == Ok(Read(Bool(true), |data| + 1))
    ensures JsReadField(U64Kind, data, |data|) == Ok(Read(U64(0), |data| + 8))
    ensures TsReadField(BoolKind, data, |data|) == Err(ParseError)
  {
    assert Slice(data, |data|, |data| + 8) == [];
  }

  /** The user card as `customDeserializeUserCard` reads it (the frontend and the user-card route hold the same code). */
  function JsUserCard(data: seq<byte>): (r: Result<UserCards.UserCard, JsError>)
    ensures r.Err? ==> r.error == RangeError
  {
    UserCards.LayoutPlain();
    var fs :- JsDecodeFields(UserCards.LAYOUT, data, 0);
    Ok(UserCards.FromFields(fs.value))
  }

  lemma UserCardClientAgrees(data: seq<byte>)
    requires UserCards.Decode(data).Ok?
    ensures JsUserCard(data) == Ok(UserCards.Decode(data).value.value)
  {
    UserCards.LayoutPlain();
    RustImpliesJs(UserCards.LAYOUT, data);
  }

  /** An account with no data, such as a plain wallet, makes the unchecked user-card decoder throw. */
  lemma EmptyAccountThrows()
    ensures JsUserCard([]) == Err(RangeError)
  {
    UserCards.LayoutPlain();
    var first := JsReadField(KeyKind, [], 0).value;
    assert JsReadField(StrKind, [], first.offset).Err?;
    assert UserCards.LAYOUT[1..][0] == StrKind;
  }

  /** The raid program card as the frontend's unchecked `customDeserializeRaidProgramCard` reads it. */
  function JsRaidProgramCard(data: seq<byte>): (r: Result<RaidProgramCards.RaidProgramCard, JsError>)
    ensures r.Err? ==> r.error == RangeError
  {
    RaidProgramCards.LayoutPlain();
    var fs :- JsDecodeFields(RaidProgramCards.LAYOUT, data, 0);
    Ok(RaidProgramCards.FromFields(fs.value))
  }

  /** The raid program card as the program-card route's checked decoder reads it. */
  function TsRaidProgramCard(data: seq<byte>): (r: Result<RaidProgramCards.RaidProgramCard, JsError>)
    ensures r.Err? ==> r.error == ParseError
  {
    RaidProgramCards.LayoutPlain();
    var fs :- TsDecodeFields(RaidProgramCards.LAYOUT, data, 0);
    Ok(RaidProgramCards.FromFields(fs.value))
  }

  /**
   * The three raid-program decoders agree wherever the program's own
   * decoder succeeds, and the frontend's agrees with the route's wherever
   * the route's succeeds.
   */
  lemma RaidProgramCardClientsAgree(data: seq<byte>)
    ensures RaidProgramCards.Decode(data).Ok? ==>
              TsRaidProgramCard(data) == Ok(RaidProgramCards.Decode(data).value.value)
    ensures TsRaidProgramCard(data).Ok? ==> JsRaidProgramCard(data) == TsRaidProgramCard(data)
  {
    RaidProgramCards.LayoutPlain();
    if RaidProgramCards.Decode(data).Ok? {
      assert data[0..] == data;
      RustImpliesTs(RaidProgramCards.LAYOUT, data, 0);
    }
    if TsDecodeFields(RaidProgramCards.LAYOUT, data, 0).Ok? {
      TsImpliesJs(RaidProgramCards.LAYOUT, data, 0);
    }
  }

  /**
   * The checked decoder accepts only buffers that hold every field: it
   * fails on any buffer shorter than the fields it would return.
   */
  lemma TsRaidProgramCardInBounds(data: seq<byte>)
    requires TsRaidProgramCard(data).Ok?
    ensures |RaidProgramCards.Encode(TsRaidProgramCard(data).value)| <= |data|
  {
    RaidProgramCards.LayoutPlain();
    var fs := TsDecodeFields(RaidProgramCards.LAYOUT, data, 0).value;
    TsOffset(RaidProgramCards.LAYOUT, data, 0);
    assert RaidProgramCards.ToFields(RaidProgramCards.FromFields(fs.value)) == fs.value;
  }

  /** `customDeserializeProgramState` (the frontend and both action routes hold the same code). */
  function JsProgramState(data: seq<byte>): (r: Result<Read<ProgramStates.ProgramStateCard>, JsError>)
    ensures r.Err? ==> r.error == RangeError
  {
    ProgramStates.LayoutPlain();
    var fs :- JsDecodeFields(ProgramStates.LAYOUT, data, 0);
    Ok(Read(ProgramStates.FromFields(fs.value), fs.offset))
  }

  /**
   * The clients read the same state card as the program, and their cursor
   * ends where the serializer stopped writing, eight bytes past the position
   * the program's decoder reports.
   */
  lemma ProgramStateClientAgrees(data: seq<byte>)
    requires ProgramStates.Decode(data).Ok?
    ensures var d := ProgramStates.DecodeAsWritten(data).value;
            JsProgramState(data) == Ok(Read(d.value, |ProgramStates.Encode(d.value)|))
            && JsProgramState(data).value.offset == d.consumed + 8
  {
    ProgramStates.LayoutPlain();
    RustImpliesJs(ProgramStates.LAYOUT, data);
    ProgramStates.DecodersAgreeOnValue(data);
    var c := ProgramStates.Decode(data).value.value;
    assert ProgramStates.ToFields(c) == DecodeFields(ProgramStates.LAYOUT, data).value.value;
  }

  /**
   * The one-string index cards (`customDeserializeProgramRaidProgramsState`,
   * `...RaidsState`, `...CompetitionsState` and `customDeserializeLeaderboard`
   * hold the same reader).
   */
  function JsListCard(data: seq<byte>): (r: Result<ListCards.ListCard, JsError>)
    ensures r.Err? <==> |data| < 4
  {
    ListCards.LayoutPlain();
    var fs :- JsDecodeFields(ListCards.LAYOUT, data, 0);
    Ok(ListCards.FromFields(fs.value))
  }

  lemma ListCardClientAgrees(data: seq<byte>)
    requires ListCards.Decode(data).Ok?
    ensures JsListCard(data) == Ok(ListCards.Decode(data).value.value)
  {
    ListCards.LayoutPlain();
    RustImpliesJs(ListCards.LAYOUT, data);
  }

  /**
   * `getUserCardData` of the user-card route: reads the account at the
   * given key; a missing account is an error.
   */
  function RouteGetUserCard(accounts: map<Pubkey, seq<byte>>, key: Pubkey): (r: Result<UserCards.UserCard, JsError>)
    ensures key !in accounts ==> r == Err(AccountNotFound)
    ensures key in accounts ==> r == JsUserCard(accounts[key])
  {
    if key !in accounts then Err(AccountNotFound) else JsUserCard(accounts[key])
  }

  /** The smallest integer bn.js refuses to turn into a JavaScript number. */
  const TWO_POW_53: nat := 0x20_0000_0000_0000

  /** The five counters `getUserCard` converts with `toNumber()` all fit in 53 bits. */
  predicate SafeCounters(c: UserCards.UserCard) {
    c.totalRewards < TWO_POW_53 && c.participatedRaids < TWO_POW_53 && c.raidRanking < TWO_POW_53
    && c.engagementScore < TWO_POW_53 && c.streaks < TWO_POW_53
  }

  /**
   * `getUserCard` of the frontend: reads the card at its derived address; a
   * missing card is `null`, and a counter too wide for `toNumber()` throws.
   */
  function FrontendGetUserCard(accounts: map<Pubkey, seq<byte>>, cardAddress: Pubkey)
    : (r: Result<Option<UserCards.UserCard>, JsError>)
    ensures cardAddress !in accounts ==> r == Ok(None)
    ensures cardAddress in accounts ==>
              (r.Ok? <==> JsUserCard(accounts[cardAddress]).Ok? && SafeCounters(JsUserCard(accounts[cardAddress]).value))
              && (r.Ok? ==> r.value == Some(JsUserCard(accounts[cardAddress]).value))
    ensures (cardAddress in accounts && JsUserCard(accounts[cardAddress]).Ok?
             && !SafeCounters(JsUserCard(accounts[cardAddress]).value)) ==> r == Err(PrecisionError)
  {
    if cardAddress !in accounts then Ok(None)
    else
      var c :- JsUserCard(accounts[cardAddress]);
      if SafeCounters(c) then Ok(Some(c)) else Err(PrecisionError)
  }

  /**
   * The two user-card lookups differ on a missing account, where the
   * frontend returns nothing while the route fails, and on a counter of 2^53
   * or more, where the frontend throws while the route returns the card; on
   * any other account the program can decode, both return the card the
   * program stored.
   */
  lemma UserCardLookupsCompared(accounts: map<Pubkey, seq<byte>>, address: Pubkey)
    ensures address !in accounts ==>
              FrontendGetUserCard(accounts, address) == Ok(None)
              && RouteGetUserCard(accounts, address) == Err(AccountNotFound)
    ensures address in accounts && UserCards.Decode(accounts[address]).Ok? ==>
              var c := UserCards.Decode(accounts[address]).value.value;
              FrontendGetUserCard(accounts, address) == (if SafeCounters(c) then Ok(Some(c)) else Err(PrecisionError))
              && RouteGetUserCard(accounts, address) == Ok(c)
  {
    if address in accounts && UserCards.Decode(accounts[address]).Ok? {
      UserCardClientAgrees(accounts[address]);
    }
  }

  /**
   * The route is given the user's wallet key and reads that account, not
   * the card's derived address: when the wallet holds no data the route
   * throws, even though the frontend finds the card at its address.
   */
  lemma RouteReadsGivenKey(accounts: map<Pubkey, seq<byte>>, wallet: Pubkey, cardAddress: Pubkey)
    requires wallet in accounts && accounts[wallet] == []
    requires cardAddress in accounts && UserCards.Decode(accounts[cardAddress]).Ok?
    ensures RouteGetUserCard(accounts, wallet) == Err(RangeError)
    ensures SafeCounters(UserCards.Decode(accounts[cardAddress]).value.value) ==>
              FrontendGetUserCard(accounts, cardAddress) == Ok(Some(UserCards.Decode(accounts[cardAddress]).value.value))
  {
    EmptyAccountThrows();
    UserCardLookupsCompared(accounts, cardAddress);
  }
}

=== FILE: client_encoders.dfy ===
/**
 * The instruction data the web client builds (frontend/src/utils/solanaUtils.js)
 * and what `process_instruction` makes of it. Client strings are their
 * UTF-8 bytes (`Buffer.from(str)`); a key's text is its Base58 form.
 */
module ClientEncoders {
  import opened Bytes
  import opened Wrappers
  import opened Borsh
  import opened Text
  import Instructions

  /** `serializeString`: a `Uint32Array` length (little-endian host) then the bytes. */
  function SerializeString(s: seq<byte>): (r: seq<byte>)
    ensures |r| == 4 + |s|
    ensures |s| < TWO_32 ==> LeValue(r[..4]) == |s| && r[4..] == s
  {
    if |s| < TWO_32 then U32RoundTrip(|s|); U32Bytes(AsU32(|s|)) + s
    else U32Bytes(AsU32(|s|)) + s
  }

  const PFP_PREFIX_TEXT: string := "https://bullposter.xyz/media/program_pfp/"
  const PNG_TEXT: string := ".png"
  const PFP_PREFIX: seq<byte> := Ascii(PFP_PREFIX_TEXT)
  const PNG: seq<byte> := Ascii(PNG_TEXT)

  /** The picture URL the client sends for a new raid program, from its data account's Base58 text. */
  function PfpUrl(account: seq<byte>): (r: seq<byte>)
    ensures |r| == 45 + |account|
  {
    PFP_PREFIX + account + PNG
  }

  lemma PfpUrlAscii(account: seq<byte>)
    requires IsBase58(account) && |account| <= 44
    ensures IsAscii(PfpUrl(account)) && StrOk(PfpUrl(account))
  {
    AsciiText(PFP_PREFIX_TEXT);
    AsciiText(PNG_TEXT);
    Base58Free(account);
    AsciiIsUtf8(PfpUrl(account));
  }

  /** `createRaidProgram`'s instruction data: tag 2 and three length-prefixed strings. */
  function CreateRaidProgramData(name: seq<byte>, description: seq<byte>, account: seq<byte>): (r: seq<byte>)
    ensures |r| == 1 + 4 + |name| + 4 + |description| + 4 + 45 + |account|
  {
    [2] + SerializeString(name) + SerializeString(description) + SerializeString(PfpUrl(account))
  }

  lemma CreateRaidProgramDataIsEncoding(name: seq<byte>, description: seq<byte>, url: seq<byte>)
    requires |name| < TWO_32 && |description| < TWO_32 && |url| < TWO_32
    ensures [2] + SerializeString(name) + SerializeString(description) + SerializeString(url)
            == Instructions.Encode(Instructions.CreateRaidProgram(name, description, url))
  {
    var ins := Instructions.CreateRaidProgram(name, description, url);
    assert Instructions.Body(ins) == Instructions.EncStrings([name, description, url]);
    Instructions.EncStrings3(name, description, url);
    var a, b, c := EncString(name), EncString(description), EncString(url);
    assert SerializeString(name) == a && SerializeString(description) == b && SerializeString(url) == c;
    assert [2] + a + b + c == [2] + (a + b + c);
  }

  /**
   * The program decodes the client's create-program data into exactly the
   * name, description and URL the client meant, and the URL built from a
   * key's Base58 text (at most 44 characters) is at most 89 bytes long.
   */
  lemma CreateRaidProgramAccepted(name: seq<byte>, description: seq<byte>, account: seq<byte>)
    requires StrOk(name) && StrOk(description) && IsBase58(account) && |account| <= 44
    ensures Instructions.Decode(CreateRaidProgramData(name, description, account))
            == Ok(Instructions.CreateRaidProgram(name, description, PfpUrl(account)))
    ensures |PfpUrl(account)| <= 89
  {
    var url := PfpUrl(account);
    PfpUrlAscii(account);
    CreateRaidProgramDataIsEncoding(name, description, url);
    var data := CreateRaidProgramData(name, description, account);
    assert data == data + [];
    Instructions.RoundTripCreateRaidProgram(name, description, url, []);
  }

  /** `createUserCard`'s data, `[8]`, decodes as the create-user-card instruction. */
  function CreateUserCardData(): (r: seq<byte>)
    ensures Instructions.Decode(r) == Ok(Instructions.CreateUserCard)
  {
    [8]
  }

  /** `enrollInProgram`'s data, `[7]`, decodes as the enroll instruction. */
  function EnrollData(): (r: seq<byte>)
    ensures Instructions.Decode(r) == Ok(Instructions.EnrollInProgram)
  {
    [7]
  }

  /**
   * A body of printable characters cannot start with a valid string length:
   * its first four bytes read as a length of at least 0x20202020, or it is
   * shorter than four bytes.
   */
  lemma PrintableBodyRejected(body: seq<byte>)
    requires forall i :: 0 <= i < |body| ==> body[i] >= 0x20
    requires |body| < 0x2020_2024
    ensures Instructions.UnpackString(body).Err?
  {
    if |body| >= 4 {
      var w := body[..4];
      assert LeValue(w[3..]) == w[3] + 256 * LeValue(w[4..]);
      assert LeValue(w[2..]) == w[2] + 256 * LeValue(w[3..]);
      assert LeValue(w[1..]) == w[1] + 256 * LeValue(w[2..]);
      assert LeValue(w) >= 0x2020_2020;
    }
  }

  /** `updateUserCard` as written: tag 9 and the four strings' bytes with no length prefixes. */
  function UpdateUserCardRaw(email: seq<byte>, twitter: seq<byte>, dob: seq<byte>, url: seq<byte>): seq<byte>
  {
    [9] + email + twitter + dob + url
  }

  /**
   * Any profile update typed as ordinary text is rejected with
   * `InvalidInstructionData`: the first four characters of the e-mail are
   * taken as a length.
   */
  lemma UpdateUserCardRawRejected(email: seq<byte>, twitter: seq<byte>, dob: seq<byte>, url: seq<byte>)
    requires var body := email + twitter + dob + url;
             |body| < 0x2020_2024 && forall i :: 0 <= i < |body| ==> body[i] >= 0x20
    ensures Instructions.Decode(UpdateUserCardRaw(email, twitter, dob, url)) == Err(InvalidInstructionData)
  {
    var data := UpdateUserCardRaw(email, twitter, dob, url);
    assert data[1..] == email + twitter + dob + url;
    PrintableBodyRejected(data[1..]);
  }

  /** The corrected update encoder: each string length-prefixed, as `unpack_string` expects. */
  function UpdateUserCardData(email: seq<byte>, twitter: seq<byte>, dob: seq<byte>, url: seq<byte>): (r: seq<byte>)
    ensures |r| == 1 + 16 + |email| + |twitter| + |dob| + |url|
  {
    [9] + SerializeString(email) + SerializeString(twitter) + SerializeString(dob) + SerializeString(url)
  }

  lemma UpdateUserCardDataIsEncoding(email: seq<byte>, twitter: seq<byte>, dob: seq<byte>, url: seq<byte>)
    requires |email| < TWO_32 && |twitter| < TWO_32 && |dob| < TWO_32 && |url| < TWO_32
    ensures UpdateUserCardData(email, twitter, dob, url)
            == Instructions.Encode(Instructions.UpdateUserCard(email, twitter, dob, url))
  {
    var ins := Instructions.UpdateUserCard(email, twitter, dob, url);
    assert Instructions.Body(ins) == Instructions.EncStrings([email, twitter, dob, url]);
    Instructions.EncStrings4(email, twitter, dob, url);
    var a, b, c, d := EncString(email), EncString(twitter), EncString(dob), EncString(url);
    assert SerializeString(email) == a && SerializeString(twitter) == b;
    assert SerializeString(dob) == c && SerializeString(url) == d;
    assert [9] + a + b + c + d == [9] + (a + b + c + d);
  }

  lemma UpdateUserCardDataAccepted(email: seq<byte>, twitter: seq<byte>, dob: seq<byte>, url: seq<byte>)
    requires StrOk(email) && StrOk(twitter) && StrOk(dob) && StrOk(url)
    ensures Instructions.Decode(UpdateUserCardData(email, twitter, dob, url))
            == Ok(Instructions.UpdateUserCard(email, twitter, dob, url))
  {
    var data := UpdateUserCardData(email, twitter, dob, url);
    UpdateUserCardDataIsEncoding(email, twitter, dob, url);
    assert data == data + [];
    Instructions.RoundTripUpdateUserCard(email, twitter, dob, url, []);
  }

  /** `createRaid` as written: tag 4 and the competition type's bytes with no length prefix. */
  function CreateRaidRaw(raidType: seq<byte>): seq<byte>
  {
    [4] + raidType
  }

  /**
   * Every competition type the client offers is rejected: "PvP" is shorter
   * than a length field, and "4-program" and the like read as a length of
   * over 0x20202020.
   */
  lemma CreateRaidRawRejected(raidType: seq<byte>)
    requires |raidType| < 0x2020_2024 && forall i :: 0 <= i < |raidType| ==> raidType[i] >= 0x20
    ensures Instructions.Decode(CreateRaidRaw(raidType)) == Err(InvalidInstructionData)
  {
    assert CreateRaidRaw(raidType)[1..] == raidType;
    PrintableBodyRejected(raidType);
  }

  /** The corrected create-raid encoder: the competition type length-prefixed. */
  function CreateRaidData(raidType: seq<byte>): (r: seq<byte>)
    ensures |r| == 1 + 4 + |raidType|
  {
    [4] + SerializeString(raidType)
  }

  lemma CreateRaidDataAccepted(raidType: seq<byte>)
    requires StrOk(raidType)
    ensures Instructions.Decode(CreateRaidData(raidType)) == Ok(Instructions.CreateRaid(raidType))
  {
    var ins := Instructions.CreateRaid(raidType);
    Instructions.RoundTripCreateRaid(raidType, []);
    assert SerializeString(raidType) == EncString(raidType);
    assert Instructions.Body(ins) == EncString(raidType) by {
      assert [raidType][1..] == [];
      assert Instructions.EncStrings([raidType]) == EncString(raidType) + Instructions.EncStrings([]);
    }
    assert CreateRaidData(raidType) == Instructions.Encode(ins);
    assert Instructions.Encode(ins) + [] == Instructions.Encode(ins);
  }
}

=== FILE: comma_list.dfy ===
/**
 * The comma-terminated key lists the program keeps in string fields
 * (owned and enrolled programs, PvP requests, raids, competition members,
 * and the program-wide index cards): a key is added by appending the key's
 * text and a comma (smart-contract/src/lib.rs), and lists are read back
 * with `split(',')` or searched with `contains`.
 */
module CommaLists {
  import opened Bytes
  import opened Text

  /** `list.push_str(key); list.push(',')`. */
  function Append(list: seq<byte>, key: seq<byte>): (r: seq<byte>)
    ensures |r| == |list| + |key| + 1 && r[|r| - 1] == COMMA
    ensures r[..|list|] == list
  {
    list + key + [COMMA]
  }

  /** A list as the program builds it: empty, or ending with a comma. */
  predicate Terminated(list: seq<byte>) { |list| == 0 || list[|list| - 1] == COMMA }

  /** The keys of a terminated list: the pieces of `split(',')` except the empty last one. */
  function Members(list: seq<byte>): (r: seq<seq<byte>>)
    ensures |r| == |Split(list, COMMA)| - 1
  {
    var ps := Split(list, COMMA);
    ps[..|ps| - 1]
  }

  lemma SplitTerminated(t: seq<byte>)
    ensures Split(t + [COMMA], COMMA) == Split(t, COMMA) + [[]]
  {
    SplitAppend(t, COMMA, []);
    assert t + [COMMA] + [] == t + [COMMA];
  }

  /** A comma-free key followed by a comma splits into the key and an empty piece. */
  lemma SplitKeyComma(key: seq<byte>)
    requires Free(key, COMMA)
    ensures Split(key + [COMMA], COMMA) == [key, []]
  {
    SplitFree(key, COMMA);
    SplitTerminated(key);
  }

  /** Split of a terminated, non-empty list after one more key. */
  lemma SplitAfterAppend(t: seq<byte>, key: seq<byte>)
    requires Free(key, COMMA)
    ensures Split(Append(t + [COMMA], key), COMMA) == Split(t, COMMA) + [key, []]
  {
    SplitKeyComma(key);
    assert Append(t + [COMMA], key) == t + [COMMA] + (key + [COMMA]);
    SplitAppend(t, COMMA, key + [COMMA]);
  }

  /**
   * Appending a comma-free key to a terminated list keeps it terminated,
   * adds exactly that key as the last member, and adds exactly one piece
   * to what `split(',')` yields.
   */
  lemma MembersAppend(list: seq<byte>, key: seq<byte>)
    requires Terminated(list) && Free(key, COMMA)
    ensures Terminated(Append(list, key))
    ensures Members(Append(list, key)) == Members(list) + [key]
    ensures |Split(Append(list, key), COMMA)| == |Split(list, COMMA)| + 1
  {
    if |list| == 0 {
      SplitKeyComma(key);
      assert Append(list, key) == key + [COMMA];
    } else {
      var t := list[..|list| - 1];
      assert list == t + [COMMA];
      SplitTerminated(t);
      SplitAfterAppend(t, key);
      var ps := Split(t, COMMA);
      assert Members(list) == (ps + [[]])[..|ps|] == ps;
      assert Members(Append(list, key)) == (ps + [key, []])[..|ps| + 1] == ps + [key];
    }
  }

  /** Appending a key's ASCII text keeps a UTF-8 list well formed. */
  lemma AppendUtf8(list: seq<byte>, key: seq<byte>)
    requires ValidUtf8(list) && IsAscii(key)
    ensures ValidUtf8(Append(list, key))
  {
    assert IsAscii(key + [COMMA]);
    AsciiIsUtf8(key + [COMMA]);
    Utf8Concat(list, key + [COMMA]);
    assert Append(list, key) == list + (key + [COMMA]);
  }

  /** The list a sequence of appends builds, one key after the other. */
  function AppendAll(list: seq<byte>, keys: seq<seq<byte>>): (r: seq<byte>)
    decreases |keys|
  {
    if |keys| == 0 then list else Append(AppendAll(list, keys[..|keys| - 1]), keys[|keys| - 1])
  }

  /** Every key is a comma-free piece. */
  predicate AllFree(keys: seq<seq<byte>>) {
    forall i | 0 <= i < |keys| :: Free(keys[i], COMMA)
  }

  /**
   * Built from nothing by appends, a list is terminated and its members
   * are exactly the keys appended, in order.
   */
  lemma {:induction false} AppendAllMembers(keys: seq<seq<byte>>)
    requires AllFree(keys)
    ensures Terminated(AppendAll([], keys)) && Members(AppendAll([], keys)) == keys
    decreases |keys|
  {
    if |keys| == 0 {
      assert Split([], COMMA) == [[]];
    } else {
      var init := keys[..|keys| - 1];
      assert AllFree(init) by {
        forall i | 0 <= i < |init| ensures Free(init[i], COMMA) { assert init[i] == keys[i]; }
      }
      var last := keys[|keys| - 1];
      var prev := AppendAll([], init);
      assert AppendAll([], keys) == Append(prev, last);
      AppendAllMembers(init);
      assert Free(last, COMMA);
      MembersAppend(prev, last);
      assert Members(Append(prev, last)) == init + [last];
      assert init + [last] == keys;
    }
  }

  /** Keys of at least `k` bytes take at least `k + 1` bytes each, with their commas. */
  lemma {:induction false} AppendAllAtLeast(keys: seq<seq<byte>>, k: nat)
    requires forall i | 0 <= i < |keys| :: |keys[i]| >= k
    ensures |AppendAll([], keys)| >= (k + 1) * |keys|
    decreases |keys|
  {
    if |keys| > 0 {
      var init := keys[..|keys| - 1];
      assert forall i | 0 <= i < |init| :: |init[i]| >= k by {
        forall i | 0 <= i < |init| ensures |init[i]| >= k { assert init[i] == keys[i]; }
      }
      AppendAllAtLeast(init, k);
    }
  }

  /** Keys of at most `k` bytes take at most `k + 1` bytes each, with their commas. */
  lemma {:induction false} AppendAllAtMost(keys: seq<seq<byte>>, k: nat)
    requires forall i | 0 <= i < |keys| :: |keys[i]| <= k
    ensures |AppendAll([], keys)| <= (k + 1) * |keys|
    decreases |keys|
  {
    if |keys| > 0 {
      var init := keys[..|keys| - 1];
      assert forall i | 0 <= i < |init| :: |init[i]| <= k by {
        forall i | 0 <= i < |init| ensures |init[i]| <= k { assert init[i] == keys[i]; }
      }
      AppendAllAtMost(init, k);
    }
  }

  /** The first piece of `split` is a prefix of the string. */
  lemma {:induction false} SplitHeadPrefix(s: seq<byte>, sep: byte)
    ensures |Split(s, sep)[0]| <= |s| && Split(s, sep)[0] == s[..|Split(s, sep)[0]|]
    decreases |s|
  {
    if |s| > 0 {
      SplitHeadPrefix(s[1..], sep);
    }
  }

  /** Every piece of `split` occurs in the string. */
  lemma {:induction false} SplitPieceOccurs(s: seq<byte>, sep: byte, j: nat)
    requires j < |Split(s, sep)|
    ensures Contains(s, Split(s, sep)[j])
    decreases |s|
  {
    var piece := Split(s, sep)[j];
    if |s| == 0 {
      assert OccursAt(s, piece, 0);
    } else if j == 0 {
      SplitHeadPrefix(s, sep);
      assert OccursAt(s, piece, 0);
    } else {
      var tail := Split(s[1..], sep);
      assert piece == tail[if s[0] == sep then j - 1 else j];
      SplitPieceOccurs(s[1..], sep, if s[0] == sep then j - 1 else j);
      var t := s[1..];
      var i :| 0 <= i <= |t| && OccursAt(t, piece, i);
      assert i + |piece| <= |t| && t[i..i + |piece|] == piece;
      assert forall j | i + 1 <= j < i + 1 + |piece| :: s[j] == t[j - 1];
      assert s[i + 1..i + 1 + |piece|] == piece;
      assert OccursAt(s, piece, i + 1);
    }
  }

  /**
   * The enrollment check `enrolled.contains(key)` catches every key that is
   * already a member of the list.
   */
  lemma MemberIsContained(list: seq<byte>, key: seq<byte>)
    requires key in Members(list)
    ensures Contains(list, key)
  {
    var j :| 0 <= j < |Members(list)| && Members(list)[j] == key;
    SplitPieceOccurs(list, COMMA, j);
  }

  /**
   * The converse fails: `contains` is a substring test, so a key that is
   * the tail of a longer member is reported as present although it is not
   * a member.
   */
  lemma ContainedButNotMember(c: byte, key: seq<byte>)
    requires c != COMMA && Free(key, COMMA)
    ensures var list := Append([], [c] + key);
            Contains(list, key) && key !in Members(list)
  {
    var list := Append([], [c] + key);
    assert Free([c] + key, COMMA);
    MembersAppend([], [c] + key);
    assert Members(list) == [[c] + key];
    assert list[1..1 + |key|] == key;
    assert OccursAt(list, key, 1);
  }
}

=== FILE: competition_card.dfy ===
/**
 * `CompetitionCard`, the account record of one competition, and its
 * hand-written codec (`CompetitionCard::custom_serialize` /
 * `custom_deserialize` in smart-contract/src/lib.rs). The three `Option`
 * fields are a flag byte followed by the payload when present; the
 * serializer writes flag 1 or 0, and the decoder treats any nonzero flag
 * as present.
 */
module CompetitionCards {
  import opened Bytes
  import opened Wrappers
  import opened Borsh
  import opened Fields

  datatype CompetitionCard = CompetitionCard(
    competitionId: Pubkey,
    competitionType: seq<byte>,
    startTime: nat,
    endTime: nat,
    totalRewardsDistributed: nat,
    status: seq<byte>,             // "awaiting", "active", "finalized" or "expired"
    enrolledPrograms: seq<byte>,   // comma-terminated list of program keys
    requiredPrograms: nat,
    challengerProgramId: Option<Pubkey>,
    challengedProgramId: Option<Pubkey>,
    startExpiration: Option<nat>,  // PvP only
    distributedRewards: seq<byte>,
    placements: seq<byte>)

  const LAYOUT: seq<Kind> := [KeyKind, StrKind, U64Kind, U64Kind, U64Kind, StrKind, StrKind,
                              U64Kind, OptKeyKind, OptKeyKind, OptU64Kind, StrKind, StrKind]

  /** The card as the field list the serializer walks. */
  function ToFields(c: CompetitionCard): (r: seq<Value>)
    ensures Conforms(r, LAYOUT)
  {
    [Key(c.competitionId), Str(c.competitionType), U64(c.startTime), U64(c.endTime),
     U64(c.totalRewardsDistributed), Str(c.status), Str(c.enrolledPrograms),
     U64(c.requiredPrograms), OptKey(c.challengerProgramId), OptKey(c.challengedProgramId),
     OptU64(c.startExpiration), Str(c.distributedRewards), Str(c.placements)]
  }

  function FromFields(vs: seq<Value>): (c: CompetitionCard)
    requires Conforms(vs, LAYOUT)
    ensures ToFields(c) == vs
  {
    CompetitionCard(vs[0].key, vs[1].str, vs[2].num, vs[3].num, vs[4].num, vs[5].str,
                    vs[6].str, vs[7].num, vs[8].optKey, vs[9].optKey, vs[10].optNum,
                    vs[11].str, vs[12].str)
  }

  predicate WellFormed(c: CompetitionCard) { AllOk(ToFields(c)) }

  function Encode(c: CompetitionCard): seq<byte> { EncodeFields(ToFields(c)) }

  /** `custom_serialize`: write at the front of the account or fail with `AccountDataTooSmall`. */
  function Serialize(c: CompetitionCard, buf: seq<byte>): (r: Result<(seq<byte>, nat), ProgramError>)
    ensures r.Ok? <==> |Encode(c)| <= |buf|
    ensures r.Err? ==> r.error == AccountDataTooSmall
    ensures r.Ok? ==> r.value.1 == |Encode(c)|
    ensures r.Ok? ==> |r.value.0| == |buf| && r.value.0[..r.value.1] == Encode(c)
                      && r.value.0[r.value.1..] == buf[r.value.1..]
  {
    var enc := Encode(c);
    var out :- WriteInto(enc, buf);
    Ok((out, |enc|))
  }

  /** `custom_deserialize`, reporting the cursor position after the last field. */
  function Decode(data: seq<byte>): (r: Result<Decoded<CompetitionCard>, ProgramError>)
    ensures r.Err? ==> r.error == InvalidAccountData
    ensures r.Ok? ==> WellFormed(r.value.value) && r.value.consumed <= |data|
  {
    var p :- DecodeFields(LAYOUT, data);
    Ok(Decoded(FromFields(p.value), TotalWidth(p.value)))
  }

  /** Decoding what the serializer wrote gives the card back; bytes read equal bytes written. */
  lemma RoundTrip(c: CompetitionCard, rest: seq<byte>)
    requires WellFormed(c)
    ensures Decode(Encode(c) + rest) == Ok(Decoded(c, |Encode(c)|))
  {
    ConformsKinds(ToFields(c), LAYOUT);
    FieldsRoundTrip(ToFields(c), rest);
  }

  /**
   * The decoder may accept bytes the serializer never writes (a flag byte
   * of 2, say), but what it accepts always has the same width as the
   * canonical encoding of the card it returns, and re-serialising that card
   * in place decodes to the same card.
   */
  lemma DecodeThenReencode(data: seq<byte>)
    requires Decode(data).Ok?
    ensures var d := Decode(data).value;
            d.consumed == |Encode(d.value)|
            && Decode(Encode(d.value) + data[d.consumed..]) == Ok(d)
  {
    var d := Decode(data).value;
    var p := DecodeFields(LAYOUT, data).value;
    DecodeFieldsRest(LAYOUT, data);
    assert ToFields(d.value) == p.value;
    RoundTrip(d.value, p.rest);
  }

  /** Serializing into an account and decoding the account gives the card back. */
  lemma SerializeThenDecode(c: CompetitionCard, buf: seq<byte>)
    requires WellFormed(c) && Serialize(c, buf).Ok?
    ensures var (out, n) := Serialize(c, buf).value;
            Decode(out) == Ok(Decoded(c, n))
  {
    var (out, n) := Serialize(c, buf).value;
    assert out == Encode(c) + buf[n..];
    RoundTrip(c, buf[n..]);
  }

  /**
   * `CompetitionCard::try_from_slice`: the derived reader over the whole account,
   * which accepts exactly the encoding of a storable card.
   */
  function TryFromSlice(data: seq<byte>): (r: Result<CompetitionCard, ProgramError>)
    ensures r.Ok? ==> WellFormed(r.value) && Encode(r.value) == data
    ensures r.Err? ==> r.error == BorshIoError
  {
    var vs :- StrictDecode(LAYOUT, data);
    Ok(FromFields(vs))
  }

  /** `try_from_slice` reads a card from its encoding and from nothing else. */
  lemma TryFromSliceExact(c: CompetitionCard, data: seq<byte>)
    requires WellFormed(c)
    ensures TryFromSlice(data) == Ok(c) <==> data == Encode(c)
  {
    ConformsKinds(ToFields(c), LAYOUT);
    StrictDecodeExact(ToFields(c), data);
  }

  /**
   * A card followed by unused account space: `try_from_slice` fails, while
   * the hand-written decoder reads the card back.
   */
  lemma TrailingSpaceRejected(c: CompetitionCard, tail: seq<byte>)
    requires WellFormed(c) && tail != []
    ensures TryFromSlice(Encode(c) + tail) == Err(BorshIoError)
    ensures Decode(Encode(c) + tail) == Ok(Decoded(c, |Encode(c)|))
  {
    ConformsKinds(ToFields(c), LAYOUT);
    TrailingBytesRejected(ToFields(c), tail);
    RoundTrip(c, tail);
  }

  /** A handler's read of the account, in either mode. */
  function ReadAccount(mode: ReadMode, data: seq<byte>): (r: Result<CompetitionCard, ProgramError>)
    ensures r.Ok? ==> WellFormed(r.value)
    ensures r.Err? ==> r.error == (if mode == Strict then BorshIoError else InvalidAccountData)
    ensures mode == Strict && r.Ok? ==> data == Encode(r.value)
  {
    if mode == Strict then TryFromSlice(data)
    else
      var d :- Decode(data);
      Ok(d.value)
  }

  /**
   * An account holding a card followed by `tail`: the lenient read gives
   * the card back whatever the tail, the strict read only when there is no
   * tail at all.
   */
  lemma ReadStored(c: CompetitionCard, tail: seq<byte>)
    requires WellFormed(c)
    ensures ReadAccount(Lenient, Encode(c) + tail) == Ok(c)
    ensures ReadAccount(Strict, Encode(c) + tail) == if tail == [] then Ok(c) else Err(BorshIoError)
  {
    RoundTrip(c, tail);
    if tail == [] {
      assert Encode(c) + tail == Encode(c);
      TryFromSliceExact(c, Encode(c));
    } else {
      TrailingSpaceRejected(c, tail);
    }
  }

  /** A card is well formed exactly when each field fits its Rust type. */
  lemma WellFormedFields(c: CompetitionCard)
    ensures WellFormed(c) <==>
              IsKey(c.competitionId) && StrOk(c.competitionType) && U64Ok(c.startTime) && U64Ok(c.endTime)
              && U64Ok(c.totalRewardsDistributed) && StrOk(c.status) && StrOk(c.enrolledPrograms)
              && U64Ok(c.requiredPrograms)
              && (c.challengerProgramId.Some? ==> IsKey(c.challengerProgramId.value))
              && (c.challengedProgramId.Some? ==> IsKey(c.challengedProgramId.value))
              && (c.startExpiration.Some? ==> U64Ok(c.startExpiration.value))
              && StrOk(c.distributedRewards) && StrOk(c.placements)
  {
    var vs := ToFields(c);
    assert ValueOk(vs[0]) && ValueOk(vs[1]) && ValueOk(vs[2]) && ValueOk(vs[3]) && ValueOk(vs[4])
           && ValueOk(vs[5]) && ValueOk(vs[6]) && ValueOk(vs[7]) && ValueOk(vs[8]) && ValueOk(vs[9])
           && ValueOk(vs[10]) && ValueOk(vs[11]) && ValueOk(vs[12])
       <==> AllOk(vs);
  }

  /**
   * The bytes a card takes: 52 fixed bytes besides the key, the five
   * strings and the three optional fields.
   */
  lemma EncodeLength(c: CompetitionCard)
    ensures |Encode(c)| == |c.competitionId| + 52 + |c.competitionType| + |c.status| + |c.enrolledPrograms|
                           + |c.distributedRewards| + |c.placements| + Width(OptKey(c.challengerProgramId))
                           + Width(OptKey(c.challengedProgramId)) + Width(OptU64(c.startExpiration))
  {
    var vs := ToFields(c);
    TotalWidthAll(vs);
    assert WidthSum(vs, 1) == WidthSum(vs, 0) + Width(vs[0]);
    assert WidthSum(vs, 2) == WidthSum(vs, 1) + Width(vs[1]);
    assert WidthSum(vs, 3) == WidthSum(vs, 2) + Width(vs[2]);
    assert WidthSum(vs, 4) == WidthSum(vs, 3) + Width(vs[3]);
    assert WidthSum(vs, 5) == WidthSum(vs, 4) + Width(vs[4]);
    assert WidthSum(vs, 6) == WidthSum(vs, 5) + Width(vs[5]);
    assert WidthSum(vs, 7) == WidthSum(vs, 6) + Width(vs[6]);
    assert WidthSum(vs, 8) == WidthSum(vs, 7) + Width(vs[7]);
    assert WidthSum(vs, 9) == WidthSum(vs, 8) + Width(vs[8]);
    assert WidthSum(vs, 10) == WidthSum(vs, 9) + Width(vs[9]);
    assert WidthSum(vs, 11) == WidthSum(vs, 10) + Width(vs[10]);
    assert WidthSum(vs, 12) == WidthSum(vs, 11) + Width(vs[11]);
    assert WidthSum(vs, 13) == WidthSum(vs, 12) + Width(vs[12]);
  }

  /** With its keys 32 bytes long, a card takes at most 159 bytes besides its strings. */
  lemma EncodeBound(c: CompetitionCard)
    requires IsKey(c.competitionId)
    requires c.challengerProgramId.Some? ==> IsKey(c.challengerProgramId.value)
    requires c.challengedProgramId.Some? ==> IsKey(c.challengedProgramId.value)
    ensures |Encode(c)| <= 159 + |c.competitionType| + |c.status| + |c.enrolledPrograms|
                                + |c.distributedRewards| + |c.placements|
  {
    EncodeLength(c);
  }
}

=== FILE: competition_rules.dfy ===
/**
 * The competition rules of `create_raid`, `create_new_competition` and
 * `accept_pvp_challenge` (smart-contract/src/lib.rs): which competition a
 * raid goes into, how a new competition card starts out, when a joined
 * competition becomes active, and how a PvP challenge is accepted or
 * expires. Clock readings are parameters (`unix_timestamp`, an `i64`).
 */
module CompetitionRules {
  import opened Bytes
  import opened Wrappers
  import opened Borsh
  import opened Text
  import opened CommaLists
  import opened CompetitionCards
  import opened Seeds
  import RaidProgramCards
  import ListCards
  import Fields
  import Rewrites

  const AWAITING: seq<byte> := Ascii("awaiting")
  const ACTIVE: seq<byte> := Ascii("active")
  const EXPIRED: seq<byte> := Ascii("expired")
  const PROGRAM_SUFFIX: seq<byte> := Ascii("-program")

  /** Seconds from opening to start, start to end, and for a PvP challenge to be accepted. */
  const START_DELAY: nat := 300
  const RAID_DURATION: nat := 1200
  const CHALLENGE_WINDOW: nat := 300

  /** The competition types the program knows. */
  const COMPETITION_TYPES: set<seq<byte>> :=
    {Ascii("4-program"), Ascii("6-program"), Ascii("12-program"), Ascii("24-program"), PVP}

  /** `unix_timestamp as u64`. */
  function Stamp(now: int): nat { AsU64(now) }

  /** `now as u64 + offset`, wrapping as a build without overflow checks does. */
  function After(now: int, offset: nat): (r: nat)
    ensures r < TWO_64
    ensures Stamp(now) + offset < TWO_64 ==> r == Stamp(now) + offset
  {
    AsU64(Stamp(now) + offset)
  }

  /**
   * The start and end times set when a competition becomes active: five
   * minutes from now, and twenty minutes after that.
   */
  function RaidWindow(now: int): (r: (nat, nat))
    ensures r.0 < TWO_64 && r.1 < TWO_64
    ensures Stamp(now) + START_DELAY + RAID_DURATION < TWO_64 ==>
              r.0 == Stamp(now) + START_DELAY && r.1 == r.0 + RAID_DURATION
  {
    var start := After(now, START_DELAY);
    (start, AsU64(start + RAID_DURATION))
  }

  lemma DecimalSmall(n: nat)
    requires 10 <= n < 100
    ensures Decimal(n) == [0x30 + n / 10, 0x30 + n % 10]
  {
  }

  /** The program-count type names spell their count in decimal before `-program`. */
  lemma CountTypeNames()
    ensures Ascii("4-program") == Decimal(4) + PROGRAM_SUFFIX
    ensures Ascii("6-program") == Decimal(6) + PROGRAM_SUFFIX
    ensures Ascii("12-program") == Decimal(12) + PROGRAM_SUFFIX
    ensures Ascii("24-program") == Decimal(24) + PROGRAM_SUFFIX
  {
    DecimalSmall(12);
    DecimalSmall(24);
  }

  /**
   * The `required_programs` of a new competition. Every other type is
   * rejected; a program-count type names its count before `-program`.
   */
  function RequiredPrograms(competitionType: seq<byte>): (r: Result<nat, ProgramError>)
    ensures r.Err? ==> r.error == InvalidArgument
    ensures r.Ok? <==> competitionType in COMPETITION_TYPES
    ensures competitionType == PVP ==> r == Ok(2)
    ensures r.Ok? ==> r.value <= 24
    ensures r.Ok? && competitionType != PVP ==>
              r.value >= 4 && competitionType == Decimal(r.value) + PROGRAM_SUFFIX
  {
    CountTypeNames();
    if competitionType == Ascii("4-program") then Ok(4)
    else if competitionType == Ascii("6-program") then Ok(6)
    else if competitionType == Ascii("12-program") then Ok(12)
    else if competitionType == Ascii("24-program") then Ok(24)
    else if competitionType == PVP then Ok(2)
    else Err(InvalidArgument)
  }

  /**
   * `create_new_competition`: the account must be the derived address and
   * still empty, and the type must be known; the new card awaits its
   * programs with zero times, and a PvP card gets five minutes to be
   * accepted.
   */
  function CreateNewCompetition(derived: Pubkey, account: Pubkey, accountEmpty: bool,
                                competitionType: seq<byte>, challenger: Option<Pubkey>,
                                challenged: Option<Pubkey>, now: int): (r: Result<CompetitionCard, ProgramError>)
    ensures account != derived ==> r == Err(InvalidAccountData)
    ensures account == derived && !accountEmpty ==> r == Err(AccountAlreadyInitialized)
    ensures account == derived && accountEmpty && competitionType !in COMPETITION_TYPES ==> r == Err(InvalidArgument)
    ensures r.Ok? <==> account == derived && accountEmpty && competitionType in COMPETITION_TYPES
    ensures r.Ok? ==>
              var c := r.value;
              c.competitionId == account && c.competitionType == competitionType
              && c.status == AWAITING && c.enrolledPrograms == []
              && c.startTime == 0 && c.endTime == 0 && c.totalRewardsDistributed == 0
              && Ok(c.requiredPrograms) == RequiredPrograms(competitionType)
              && c.challengerProgramId == challenger && c.challengedProgramId == challenged
              && (c.startExpiration.Some? <==> competitionType == PVP)
              && (competitionType == PVP ==> c.startExpiration == Some(After(now, CHALLENGE_WINDOW)))
              && c.distributedRewards == [] && c.placements == []
  {
    if account != derived then Err(InvalidAccountData)
    else if !accountEmpty then Err(AccountAlreadyInitialized)
    else
      var required :- RequiredPrograms(competitionType);
      Ok(CompetitionCard(account, competitionType, 0, 0, 0, AWAITING, [], required, challenger, challenged,
                         if competitionType == PVP then Some(After(now, CHALLENGE_WINDOW)) else None, [], []))
  }

  /**
   * Whether a non-PvP raid opens a new competition: when the current one is
   * missing, no longer awaiting, or already has as many `split(',')`
   * pieces as it requires programs.
   */
  predicate NeedsNewCompetition(current: Option<CompetitionCard>)
  {
    match current
    case None => true
    case Some(c) => c.status != AWAITING || |Split(c.enrolledPrograms, COMMA)| >= c.requiredPrograms
  }

  /**
   * Joining an existing competition: the program's key is appended to the
   * list, and the competition becomes active with a fresh raid window once
   * the list has as many `split(',')` pieces as the competition requires.
   */
  function Join(c: CompetitionCard, programText: seq<byte>, now: int): (r: CompetitionCard)
    ensures r.enrolledPrograms == Append(c.enrolledPrograms, programText)
    ensures |Split(r.enrolledPrograms, COMMA)| >= c.requiredPrograms ==>
              r.status == ACTIVE && (r.startTime, r.endTime) == RaidWindow(now)
    ensures |Split(r.enrolledPrograms, COMMA)| < c.requiredPrograms ==>
              r.status == c.status && r.startTime == c.startTime && r.endTime == c.endTime
    ensures r.(enrolledPrograms := c.enrolledPrograms, status := c.status,
               startTime := c.startTime, endTime := c.endTime) == c
  {
    var listed := Append(c.enrolledPrograms, programText);
    if |Split(listed, COMMA)| >= c.requiredPrograms then
      var (start, end) := RaidWindow(now);
      c.(enrolledPrograms := listed, status := ACTIVE, startTime := start, endTime := end)
    else
      c.(enrolledPrograms := listed)
  }

  /**
   * In terms of members: a joined competition records the program as its
   * last member, and activates exactly when the list then holds
   * `required - 1` members or more (the opening program is never listed).
   */
  lemma JoinMembers(c: CompetitionCard, programText: seq<byte>, now: int)
    requires Terminated(c.enrolledPrograms) && Free(programText, COMMA)
    ensures var r := Join(c, programText, now);
            Terminated(r.enrolledPrograms)
            && Members(r.enrolledPrograms) == Members(c.enrolledPrograms) + [programText]
            && (|Members(r.enrolledPrograms)| + 1 >= c.requiredPrograms ==> r.status == ACTIVE)
            && (|Members(r.enrolledPrograms)| + 1 < c.requiredPrograms ==> r.status == c.status)
  {
    MembersAppend(c.enrolledPrograms, programText);
  }

  /**
   * A new competition card is well formed and its encoding fits, with
   * room to spare, in the `ACCOUNT_SPACE` bytes its account is created
   * with. The account so written cannot be read back by `try_from_slice`,
   * and reads back as the card when read leniently.
   */
  lemma NewCompetitionStored(derived: Pubkey, competitionType: seq<byte>, challenger: Option<Pubkey>,
                           challenged: Option<Pubkey>, now: int)
    requires IsKey(derived) && competitionType in COMPETITION_TYPES
    requires challenger.Some? ==> IsKey(challenger.value)
    requires challenged.Some? ==> IsKey(challenged.value)
    ensures var c := CreateNewCompetition(derived, derived, true, competitionType, challenger, challenged, now);
            c.Ok? && WellFormed(c.value) && |Encode(c.value)| < ACCOUNT_SPACE
            && ReadAccount(Strict, FreshAccount(Encode(c.value))) == Err(BorshIoError)
            && ReadAccount(Lenient, FreshAccount(Encode(c.value))) == Ok(c.value)
  {
    var c := CreateNewCompetition(derived, derived, true, competitionType, challenger, challenged, now).value;
    KnownTypesAscii(competitionType);
    assert c.competitionType == competitionType && c.status == AWAITING;
    assert c.enrolledPrograms == [] && c.distributedRewards == [] && c.placements == [];
    assert WellFormed(c) by {
      AsciiText("awaiting");
      AsciiIsUtf8(competitionType);
      AsciiIsUtf8(AWAITING);
      AsciiIsUtf8([]);
      assert StrOk(competitionType) && StrOk(AWAITING) && StrOk([]);
      assert IsKey(c.competitionId) && StrOk(c.competitionType) && StrOk(c.status);
      assert StrOk(c.enrolledPrograms) && StrOk(c.distributedRewards) && StrOk(c.placements);
      assert U64Ok(c.startTime) && U64Ok(c.endTime) && U64Ok(c.totalRewardsDistributed) && U64Ok(c.requiredPrograms);
      assert c.startExpiration.Some? ==> U64Ok(c.startExpiration.value);
      WellFormedFields(c);
    }
    EncodeBound(c);
    var tail := Zeros(ACCOUNT_SPACE - |Encode(c)|);
    assert FreshAccount(Encode(c)) == Encode(c) + tail;
    ReadStored(c, tail);
  }

  /** The known competition type names are short ASCII. */
  lemma KnownTypesAscii(t: seq<byte>)
    requires t in COMPETITION_TYPES
    ensures IsAscii(t) && |t| <= 10
  {
    if t == Ascii("4-program") { AsciiText("4-program"); }
    else if t == Ascii("6-program") { AsciiText("6-program"); }
    else if t == Ascii("12-program") { AsciiText("12-program"); }
    else if t == Ascii("24-program") { AsciiText("24-program"); }
    else { AsciiText("PvP"); }
  }

  /** What `create_raid` does with the competition. */
  datatype CompetitionStep = OpenNew(sequence: nat) | JoinCurrent

  /**
   * The competition step of `create_raid`. A PvP raid always opens a new
   * competition (and may not challenge its own program). Any other raid
   * reads the current competition account and joins it unless the account
   * is empty or a new competition is needed. As written the account is
   * read before its emptiness is tested, so with `Strict` reads an empty
   * account is an error rather than a reason to open a competition; the
   * `Lenient` reading tests emptiness first.
   */
  function CreateRaidStep(mode: ReadMode, competitionType: seq<byte>, lastSeen: LastSeen, currentData: seq<byte>,
                          programKey: Pubkey, challengedKey: Pubkey): (r: Result<CompetitionStep, ProgramError>)
    ensures competitionType == PVP ==> (r.Err? <==> challengedKey == programKey)
    ensures competitionType == PVP && r.Err? ==> r.error == InvalidAccountData
    ensures competitionType != PVP && |currentData| == 0 ==>
              r == if mode == Strict then Err(BorshIoError) else Ok(OpenNew(ChainNewSequence(lastSeen, competitionType)))
    ensures competitionType != PVP && |currentData| > 0 ==>
              var current := ReadAccount(mode, currentData);
              (current.Err? ==> r == Err(current.error))
              && (current.Ok? ==> r.Ok? && (r.value.JoinCurrent? <==> !NeedsNewCompetition(Some(current.value))))
    ensures r.Ok? && r.value.OpenNew? ==> r.value.sequence == ChainNewSequence(lastSeen, competitionType)
    ensures r == Ok(JoinCurrent) ==> ReadAccount(mode, currentData).Ok? && ReadAccount(mode, currentData).value.status == AWAITING
  {
    if competitionType == PVP then
      if challengedKey == programKey then Err(InvalidAccountData)
      else Ok(OpenNew(ChainNewSequence(lastSeen, competitionType)))
    else if mode == Lenient && |currentData| == 0 then Ok(OpenNew(ChainNewSequence(lastSeen, competitionType)))
    else
      var current :- ReadAccount(mode, currentData);
      if |currentData| == 0 || NeedsNewCompetition(Some(current)) then Ok(OpenNew(ChainNewSequence(lastSeen, competitionType)))
      else Ok(JoinCurrent)
  }

  /**
   * A freshly opened program-count competition, stored in its new account,
   * is joined by the next raid of its type when the account is read
   * leniently. As written the stored card cannot be read back, because
   * the unused space after it is left in the account, and the raid fails.
   */
  lemma NewCompetitionIsJoined(derived: Pubkey, competitionType: seq<byte>, now: int,
                               lastSeen: LastSeen, programKey: Pubkey, challengedKey: Pubkey)
    requires IsKey(derived) && competitionType in COMPETITION_TYPES && competitionType != PVP
    ensures var c := CreateNewCompetition(derived, derived, true, competitionType, None, None, now);
            c.Ok? && |Encode(c.value)| < ACCOUNT_SPACE
            && CreateRaidStep(Lenient, competitionType, lastSeen, FreshAccount(Encode(c.value)), programKey, challengedKey)
               == Ok(JoinCurrent)
            && CreateRaidStep(Strict, competitionType, lastSeen, FreshAccount(Encode(c.value)), programKey, challengedKey)
               == Err(BorshIoError)
  {
    NewCompetitionStored(derived, competitionType, None, None, now);
    assert Split([], COMMA) == [[]];
  }

  /**
   * `create_new_competition`'s update of the competition index: the index
   * card is read, the new competition's key, as `to_string` spells it, is
   * appended, and the card is written back with the derived serializer,
   * which fails once the list outgrows the account.
   */
  function RegisterCompetition(mode: ReadMode, indexData: seq<byte>, competitionText: seq<byte>)
    : (r: Result<seq<byte>, ProgramError>)
    ensures ListCards.ReadAccount(mode, indexData).Err? ==> r == Err(ListCards.ReadAccount(mode, indexData).error)
    ensures ListCards.ReadAccount(mode, indexData).Ok? ==>
              var added := ListCards.ListCard(Append(ListCards.ReadAccount(mode, indexData).value.keys, competitionText));
              (r.Ok? <==> |ListCards.Encode(added)| <= |indexData|)
              && (r.Err? ==> r.error == BorshIoError)
              && (r.Ok? ==> |r.value| == |indexData| && r.value[..|ListCards.Encode(added)|] == ListCards.Encode(added))
  {
    var index :- ListCards.ReadAccount(mode, indexData);
    SerializeInto(ListCards.Encode(ListCards.ListCard(Append(index.keys, competitionText))), indexData)
  }

  /**
   * The competition index is created as an empty list in a
   * `ACCOUNT_SPACE`-byte account. As written no competition can ever be
   * registered in it, so every competition creation, and with it every
   * raid that opens a competition, fails; read leniently, the index is
   * written back with the first competition as its only member.
   */
  lemma IndexUnreadableAsWritten(competitionText: seq<byte>)
    requires IsBase58(competitionText) && |competitionText| <= MAX_KEY_TEXT
    ensures var index := FreshAccount(ListCards.Encode(ListCards.ListCard([])));
            RegisterCompetition(Strict, index, competitionText) == Err(BorshIoError)
            && RegisterCompetition(Lenient, index, competitionText).Ok?
            && var after := ListCards.ReadAccount(Lenient, RegisterCompetition(Lenient, index, competitionText).value);
               after.Ok? && Members(after.value.keys) == [competitionText]
  {
    var empty := ListCards.ListCard([]);
    assert ValidUtf8([]) by { AsciiIsUtf8([]); }
    assert ListCards.WellFormed(empty);
    var enc := ListCards.Encode(empty);
    assert |enc| == 4;
    var tail := Zeros(ACCOUNT_SPACE - |enc|);
    assert FreshAccount(enc) == enc + tail;
    ListCards.ReadStored(empty, tail);
    Base58Free(competitionText);
    MembersAppend([], competitionText);
    assert Members([]) == [] by { assert Split([], COMMA) == [[]]; }
    var added := ListCards.ListCard(Append([], competitionText));
    AppendUtf8([], competitionText);
    assert ListCards.WellFormed(added);
    var out := RegisterCompetition(Lenient, FreshAccount(enc), competitionText).value;
    assert out == ListCards.Encode(added) + out[|ListCards.Encode(added)|..];
    ListCards.ReadStored(added, out[|ListCards.Encode(added)|..]);
  }

  // ----- the join write and the account size -----

  /**
   * `create_raid`'s write when it joins the current competition: an empty
   * account is `UninitializedAccount`; otherwise the card is read with its
   * own decoder, joined, and rewritten over the bytes it took, which fails
   * with `AccountDataTooSmall` once the card outgrows the account.
   */
  function JoinStored(data: seq<byte>, programText: seq<byte>, now: int): (r: Result<seq<byte>, ProgramError>)
    ensures |data| == 0 ==> r == Err(UninitializedAccount)
    ensures |data| > 0 && Decode(data).Err? ==> r == Err(InvalidAccountData)
    ensures |data| > 0 && Decode(data).Ok? ==>
              var joined := Join(Decode(data).value.value, programText, now);
              (r.Ok? <==> |Encode(joined)| <= |data|) && (r.Err? ==> r.error == AccountDataTooSmall)
              && (r.Ok? ==> |r.value| == |data| && r.value[..|Encode(joined)|] == Encode(joined))
  {
    if |data| == 0 then Err(UninitializedAccount)
    else
      var d :- Decode(data);
      Rewrites.Store(data, Encode(Join(d.value, programText, now)), d.consumed)
  }

  /** A joined card is storable when the card was and the key text is Base58. */
  lemma JoinedWellFormed(c: CompetitionCard, programText: seq<byte>, now: int)
    requires WellFormed(c) && IsBase58(programText)
    requires |Append(c.enrolledPrograms, programText)| < TWO_32
    ensures WellFormed(Join(c, programText, now))
  {
    WellFormedFields(c);
    Base58Free(programText);
    AppendUtf8(c.enrolledPrograms, programText);
    AsciiText("active");
    AsciiIsUtf8(ACTIVE);
    WellFormedFields(Join(c, programText, now));
  }

  /**
   * A stored card that a program joins is written back whenever the
   * joined card fits the account, and the account then reads back as the
   * joined card; otherwise the join fails with `AccountDataTooSmall`.
   */
  lemma JoinStoredReadsBack(c: CompetitionCard, tail: seq<byte>, programText: seq<byte>, now: int)
    requires WellFormed(c) && IsBase58(programText) && |Encode(c) + tail| < TWO_32
    ensures var r := JoinStored(Encode(c) + tail, programText, now);
            var joined := Join(c, programText, now);
            (r.Ok? <==> |Encode(joined)| <= |Encode(c) + tail|)
            && (r.Err? ==> r.error == AccountDataTooSmall)
            && (r.Ok? ==> ReadAccount(Lenient, r.value) == Ok(joined))
  {
    var data := Encode(c) + tail;
    RoundTrip(c, tail);
    EncodeLength(c);
    var joined := Join(c, programText, now);
    var r := JoinStored(data, programText, now);
    if r.Ok? {
      EncodeLength(joined);
      JoinedWellFormed(c, programText, now);
      Rewrites.StoredSplit(data, Encode(joined), |Encode(c)|);
      ReadStored(joined, r.value[|Encode(joined)|..]);
    }
  }

  /**
   * In a `ACCOUNT_SPACE`-byte account a 24-program competition never
   * becomes active: the join that would activate it lists 23 programs,
   * and 23 key texts of 43 characters or more, with their commas, are
   * longer than the whole account, so that write fails and every join
   * that succeeds leaves the status as it was.
   */
  lemma FullCompetitionNeverActivates(c: CompetitionCard, tail: seq<byte>, keys: seq<seq<byte>>,
                                      programText: seq<byte>, now: int)
    requires WellFormed(c) && |Encode(c) + tail| == ACCOUNT_SPACE
    requires c.requiredPrograms == 24 && c.enrolledPrograms == AppendAll([], keys)
    requires forall i | 0 <= i < |keys| :: IsBase58(keys[i]) && |keys[i]| >= MIN_KEY_TEXT
    requires IsBase58(programText) && |programText| >= MIN_KEY_TEXT
    ensures |Split(Append(c.enrolledPrograms, programText), COMMA)| >= c.requiredPrograms ==>
              JoinStored(Encode(c) + tail, programText, now) == Err(AccountDataTooSmall)
    ensures JoinStored(Encode(c) + tail, programText, now).Ok? ==> Join(c, programText, now).status == c.status
  {
    assert AllFree(keys) by {
      forall i | 0 <= i < |keys| ensures Free(keys[i], COMMA) { Base58Free(keys[i]); }
    }
    Base58Free(programText);
    AppendAllMembers(keys);
    MembersAppend(c.enrolledPrograms, programText);
    var joined := Join(c, programText, now);
    if |Split(Append(c.enrolledPrograms, programText), COMMA)| >= c.requiredPrograms {
      assert |keys| >= 22;
      AppendAllAtLeast(keys, MIN_KEY_TEXT);
      EncodeLength(joined);
      assert |Encode(joined)| > ACCOUNT_SPACE;
    }
    JoinStoredReadsBack(c, tail, programText, now);
  }

  /**
   * The corrected size of a competition account: the `ACCOUNT_SPACE`
   * bytes plus room for one key text and its comma per program the
   * competition requires.
   */
  function CompetitionSpace(required: nat): (r: nat)
    ensures r >= ACCOUNT_SPACE + (MAX_KEY_TEXT + 1) * required
  {
    ACCOUNT_SPACE + (MAX_KEY_TEXT + 1) * required
  }

  /**
   * In an account of `CompetitionSpace` bytes a competition as
   * `create_new_competition` opens it takes every join up to and including
   * the one that activates it: each join is written and reads back as the
   * joined card, and the join that lists `required - 1` programs makes it
   * active.
   */
  lemma SizedCompetitionActivates(c: CompetitionCard, tail: seq<byte>, keys: seq<seq<byte>>,
                                  programText: seq<byte>, now: int)
    requires WellFormed(c) && |Encode(c) + tail| == CompetitionSpace(c.requiredPrograms)
    requires RequiredPrograms(c.competitionType) == Ok(c.requiredPrograms) && c.status == AWAITING
    requires c.distributedRewards == [] && c.placements == []
    requires c.enrolledPrograms == AppendAll([], keys) && |keys| + 1 < c.requiredPrograms
    requires forall i | 0 <= i < |keys| :: IsBase58(keys[i]) && |keys[i]| <= MAX_KEY_TEXT
    requires IsBase58(programText) && |programText| <= MAX_KEY_TEXT
    ensures var r := JoinStored(Encode(c) + tail, programText, now);
            r.Ok? && ReadAccount(Lenient, r.value) == Ok(Join(c, programText, now))
    ensures |keys| + 2 == c.requiredPrograms ==> Join(c, programText, now).status == ACTIVE
  {
    assert AllFree(keys) by {
      forall i | 0 <= i < |keys| ensures Free(keys[i], COMMA) { Base58Free(keys[i]); }
    }
    Base58Free(programText);
    AppendAllMembers(keys);
    MembersAppend(c.enrolledPrograms, programText);
    JoinedEncodeBound(c, keys, programText, now);
    assert c.requiredPrograms <= 24;
    JoinStoredReadsBack(c, tail, programText, now);
  }

  /** A joined card as opened takes at most 177 bytes besides its list of key texts. */
  lemma JoinedEncodeBound(c: CompetitionCard, keys: seq<seq<byte>>, programText: seq<byte>, now: int)
    requires WellFormed(c) && c.competitionType in COMPETITION_TYPES && c.status == AWAITING
    requires c.distributedRewards == [] && c.placements == []
    requires c.enrolledPrograms == AppendAll([], keys)
    requires forall i | 0 <= i < |keys| :: |keys[i]| <= MAX_KEY_TEXT
    requires |programText| <= MAX_KEY_TEXT
    ensures |Encode(Join(c, programText, now))| <= 177 + (MAX_KEY_TEXT + 1) * (|keys| + 1)
  {
    AppendAllAtMost(keys, MAX_KEY_TEXT);
    KnownTypesAscii(c.competitionType);
    WellFormedFields(c);
    var joined := Join(c, programText, now);
    assert |joined.status| <= 8;
    assert |joined.enrolledPrograms| <= (MAX_KEY_TEXT + 1) * (|keys| + 1);
    EncodeBound(joined);
  }


  /**
   * A competition that joins keep receiving stays awaiting until it fills:
   * from a fresh card, the joins up to `required - 2` members leave it
   * awaiting, and the next one activates it.
   */
  lemma JoinedUntilFull(c: CompetitionCard, programText: seq<byte>, now: int)
    requires c.status == AWAITING && Terminated(c.enrolledPrograms) && Free(programText, COMMA)
    requires !NeedsNewCompetition(Some(c))
    ensures var r := Join(c, programText, now);
            (r.status == ACTIVE <==> |Members(c.enrolledPrograms)| + 2 == c.requiredPrograms)
  {
    MembersAppend(c.enrolledPrograms, programText);
    assert ACTIVE != AWAITING by { assert ACTIVE[1] != AWAITING[1]; }
  }

  /** The program state after opening a competition records its sequence number. */
  function RecordSequence(lastSeen: LastSeen, competitionType: seq<byte>): (r: LastSeen)
    ensures ChainCurrentSequence(r, competitionType) == ChainNewSequence(lastSeen, competitionType)
    ensures forall t :: t in lastSeen && t != competitionType ==> t in r && r[t] == lastSeen[t]
  {
    lastSeen[competitionType := ChainNewSequence(lastSeen, competitionType)]
  }

  /** Two competitions opened one after the other get different seeds, hence different accounts. */
  lemma SuccessiveSeedsDiffer(lastSeen: LastSeen, competitionType: seq<byte>,
                              programText: seq<byte>, challengedText: seq<byte>)
    requires ChainCurrentSequence(lastSeen, competitionType) + 2 < TWO_64
    requires SeedPartsOk(competitionType, programText, challengedText)
    ensures ChainNewCompetitionSeed(lastSeen, competitionType, programText, challengedText)
            != ChainNewCompetitionSeed(RecordSequence(lastSeen, competitionType), competitionType, programText, challengedText)
  {
    var s := ChainNewSequence(lastSeen, competitionType);
    var next := RecordSequence(lastSeen, competitionType);
    assert ChainNewSequence(next, competitionType) == s + 1;
    if competitionType == PVP {
      PvpSeedInjective(programText, s, challengedText, programText, s + 1, challengedText);
    } else {
      CompetitionSeedInjective(competitionType, s, competitionType, s + 1);
    }
  }

  // ----- accepting a PvP challenge -----

  /**
   * An instruction's result, the competition card it wrote before
   * returning, and the raid program card as it left it.
   */
  datatype Outcome = Outcome(result: Result<(), ProgramError>, written: CompetitionCard,
                             program: RaidProgramCards.RaidProgramCard)

  /**
   * The account after the instruction: the runtime keeps what a successful
   * instruction wrote and discards the writes of a failed one.
   */
  function Committed(before: CompetitionCard, o: Outcome): (r: CompetitionCard)
    ensures o.result.Err? ==> r == before
    ensures o.result.Ok? ==> r == o.written
  {
    if o.result.Ok? then o.written else before
  }

  /** True when the challenge can no longer be accepted: `now > start_expiration.unwrap_or(0)`. */
  predicate ChallengeExpired(c: CompetitionCard, now: int)
  {
    Stamp(now) > c.startExpiration.UnwrapOr(0)
  }

  /**
   * `accept_pvp_challenge` as written, once both cards are read: a card
   * that is not awaiting is refused; an expired challenge is marked
   * "expired" and then refused; otherwise the accepting program is
   * recorded as the challenged one, the raid window starts and the program
   * is marked as conducting a raid. Which program the challenge named is
   * never looked at.
   */
  function AcceptPvpAsWritten(c: CompetitionCard, program: RaidProgramCards.RaidProgramCard, now: int): (r: Outcome)
    ensures r.result.Err? ==> r.result.error == InvalidAccountData
    ensures r.result.Ok? <==> c.status == AWAITING && !ChallengeExpired(c, now)
    ensures c.status == AWAITING && ChallengeExpired(c, now) ==> r.written == c.(status := EXPIRED)
    ensures r.result.Ok? ==>
              r.written.status == ACTIVE && r.written.challengedProgramId == Some(program.raidProgramId)
              && (r.written.startTime, r.written.endTime) == RaidWindow(now)
              && r.written.(status := c.status, challengedProgramId := c.challengedProgramId,
                            startTime := c.startTime, endTime := c.endTime) == c
    ensures r.program == if r.result.Ok? then program.(isConductingRaid := true) else program
  {
    if c.status != AWAITING then Outcome(Err(InvalidAccountData), c, program)
    else if ChallengeExpired(c, now) then Outcome(Err(InvalidAccountData), c.(status := EXPIRED), program)
    else
      var (start, end) := RaidWindow(now);
      Outcome(Ok(()), c.(challengedProgramId := Some(program.raidProgramId), status := ACTIVE, startTime := start, endTime := end),
              program.(isConductingRaid := true))
  }

  /**
   * `accept_pvp_challenge` on the account bytes: the raid program card is
   * read and must belong to the signer, then the competition card is read.
   * An error here comes before any write; otherwise the outcome is that of
   * the rule above, or of the corrected rule when `fixed` holds.
   */
  function AcceptPvpInstruction(mode: ReadMode, fixed: bool, signer: Pubkey, programData: seq<byte>,
                                competitionData: seq<byte>, now: int): (r: Result<Outcome, ProgramError>)
    ensures RaidProgramCards.ReadAccount(mode, programData).Err? ==>
              r == Err(RaidProgramCards.ReadAccount(mode, programData).error)
    ensures (RaidProgramCards.ReadAccount(mode, programData).Ok?
             && RaidProgramCards.ReadAccount(mode, programData).value.userKey != signer) ==> r == Err(InvalidAccountData)
    ensures r.Ok? ==>
              var program := RaidProgramCards.ReadAccount(mode, programData);
              var c := ReadAccount(mode, competitionData);
              program.Ok? && program.value.userKey == signer && c.Ok?
              && r.value == (if fixed then AcceptPvpFixed(c.value, program.value, now)
                             else AcceptPvpAsWritten(c.value, program.value, now))
  {
    var program :- RaidProgramCards.ReadAccount(mode, programData);
    if program.userKey != signer then Err(InvalidAccountData)
    else
      var c :- ReadAccount(mode, competitionData);
      Ok(if fixed then AcceptPvpFixed(c, program, now) else AcceptPvpAsWritten(c, program, now))
  }

  /**
   * As written, a PvP card awaiting acceptance is accepted by any program
   * the signer owns, not only the one it challenged, and the challenged
   * program it named is overwritten by the accepting one.
   */
  lemma AnyProgramMayAccept(c: CompetitionCard, program: RaidProgramCards.RaidProgramCard, now: int)
    requires c.status == AWAITING && !ChallengeExpired(c, now)
    requires c.challengedProgramId.Some? && c.challengedProgramId.value != program.raidProgramId
    ensures var r := AcceptPvpAsWritten(c, program, now);
            r.result.Ok? && r.written.challengedProgramId != c.challengedProgramId
            && r.program.isConductingRaid
  {
  }

  /**
   * The "expired" status is written and then returned with an error, so
   * the runtime discards it: the card stays "awaiting" for ever, and every
   * later attempt fails the same way.
   */
  lemma ExpiryNeverRecorded(c: CompetitionCard, program: RaidProgramCards.RaidProgramCard, now: int)
    requires c.status == AWAITING && ChallengeExpired(c, now)
    ensures AcceptPvpAsWritten(c, program, now).written.status == EXPIRED
    ensures Committed(c, AcceptPvpAsWritten(c, program, now)) == c
    ensures Committed(c, AcceptPvpAsWritten(c, program, now)).status == AWAITING
  {
  }

  /**
   * The corrected instruction succeeds after recording the expiry, so the
   * status sticks, and accepts only on behalf of the challenged program.
   */
  function AcceptPvpFixed(c: CompetitionCard, program: RaidProgramCards.RaidProgramCard, now: int): (r: Outcome)
    ensures r.result.Err? ==> r.result.error == InvalidAccountData
    ensures r.result.Ok? <==>
              c.status == AWAITING && (ChallengeExpired(c, now) || c.challengedProgramId == Some(program.raidProgramId))
    ensures r.result.Ok? ==> r.written.challengedProgramId == c.challengedProgramId
  {
    if c.status == AWAITING && ChallengeExpired(c, now) then Outcome(Ok(()), c.(status := EXPIRED), program)
    else if c.challengedProgramId != Some(program.raidProgramId) then Outcome(Err(InvalidAccountData), c, program)
    else AcceptPvpAsWritten(c, program, now)
  }

  /**
   * With the correction an expired challenge is recorded as expired, and
   * any further acceptance is refused because the card is no longer
   * awaiting; the challenged program accepts as before; any other program
   * is refused and changes nothing.
   */
  lemma FixedRecordsExpiry(c: CompetitionCard, program: RaidProgramCards.RaidProgramCard, now: int, later: int)
    ensures c.status == AWAITING && ChallengeExpired(c, now) ==>
              var after := Committed(c, AcceptPvpFixed(c, program, now));
              after.status == EXPIRED && after.(status := c.status) == c
              && AcceptPvpFixed(after, program, later).result == Err(InvalidAccountData)
    ensures !(c.status == AWAITING && ChallengeExpired(c, now)) && c.challengedProgramId == Some(program.raidProgramId) ==>
              AcceptPvpFixed(c, program, now) == AcceptPvpAsWritten(c, program, now)
    ensures !ChallengeExpired(c, now) && c.challengedProgramId != Some(program.raidProgramId) ==>
              AcceptPvpFixed(c, program, now).result.Err? && Committed(c, AcceptPvpFixed(c, program, now)) == c
              && AcceptPvpFixed(c, program, now).program == program
  {
    assert EXPIRED != AWAITING by { assert EXPIRED[0] != AWAITING[0]; }
  }

  /** A challenge accepted within its window starts five minutes later and lasts twenty. */
  lemma AcceptedWindow(c: CompetitionCard, program: RaidProgramCards.RaidProgramCard, now: int)
    requires AcceptPvpAsWritten(c, program, now).result.Ok?
    requires Stamp(now) + START_DELAY + RAID_DURATION < TWO_64
    ensures var w := AcceptPvpAsWritten(c, program, now).written;
            w.startTime == Stamp(now) + START_DELAY && w.endTime - w.startTime == RAID_DURATION
            && Stamp(now) <= c.startExpiration.UnwrapOr(0)
  {
  }

  /**
   * As written, acceptance never gets past a raid program card stored
   * with unused space after it.
   */
  lemma AcceptStoredAsWritten(program: RaidProgramCards.RaidProgramCard, tail: seq<byte>, fixed: bool, signer: Pubkey,
                              competitionData: seq<byte>, now: int)
    requires RaidProgramCards.WellFormed(program) && tail != []
    ensures AcceptPvpInstruction(Strict, fixed, signer, RaidProgramCards.Encode(program) + tail, competitionData, now)
            == Err(BorshIoError)
  {
    RaidProgramCards.ReadStored(program, tail);
  }

  /**
   * Read leniently, stored cards reach the acceptance rule, whatever space
   * follows them, when the signer owns the program.
   */
  lemma AcceptStoredFixed(c: CompetitionCard, competitionTail: seq<byte>, program: RaidProgramCards.RaidProgramCard,
                          programTail: seq<byte>, fixed: bool, now: int)
    requires WellFormed(c) && RaidProgramCards.WellFormed(program)
    ensures AcceptPvpInstruction(Lenient, fixed, program.userKey, RaidProgramCards.Encode(program) + programTail,
                                 Encode(c) + competitionTail, now)
            == Ok(if fixed then AcceptPvpFixed(c, program, now) else AcceptPvpAsWritten(c, program, now))
  {
    RaidProgramCards.ReadStored(program, programTail);
    ReadStored(c, competitionTail);
  }

  /**
   * A card opened for a PvP challenge, stored in its new account, cannot
   * be read back as written: even with the program account sized exactly
   * to its card, no acceptance gets past the competition read.
   */
  lemma FreshChallengeUnreadable(derived: Pubkey, challenger: Pubkey, program: RaidProgramCards.RaidProgramCard,
                                 openedAt: int, now: int, fixed: bool)
    requires IsKey(derived) && IsKey(challenger) && RaidProgramCards.WellFormed(program)
    ensures var c := CreateNewCompetition(derived, derived, true, PVP, Some(challenger), Some(program.raidProgramId), openedAt);
            c.Ok? && |Encode(c.value)| < ACCOUNT_SPACE
            && AcceptPvpInstruction(Strict, fixed, program.userKey, RaidProgramCards.Encode(program),
                                          FreshAccount(Encode(c.value)), now) == Err(BorshIoError)
  {
    assert PVP in COMPETITION_TYPES;
    ProgramKey(program);
    NewCompetitionStored(derived, PVP, Some(challenger), Some(program.raidProgramId), openedAt);
    RaidProgramCards.ReadStored(program, []);
    assert RaidProgramCards.Encode(program) + [] == RaidProgramCards.Encode(program);
  }

  /**
   * Read leniently, the same card can be accepted by the challenged
   * program's owner for exactly its five-minute window; with the
   * correction, a late attempt also succeeds, by recording the expiry.
   */
  lemma FreshChallengeAcceptable(derived: Pubkey, challenger: Pubkey, program: RaidProgramCards.RaidProgramCard,
                                 programTail: seq<byte>, openedAt: int, now: int, fixed: bool)
    requires 0 <= openedAt && openedAt + CHALLENGE_WINDOW < TWO_64 && 0 <= now < TWO_64
    requires IsKey(derived) && IsKey(challenger) && RaidProgramCards.WellFormed(program)
    ensures var c := CreateNewCompetition(derived, derived, true, PVP, Some(challenger), Some(program.raidProgramId), openedAt);
            c.Ok? && |Encode(c.value)| < ACCOUNT_SPACE
            && var r := AcceptPvpInstruction(Lenient, fixed, program.userKey, RaidProgramCards.Encode(program) + programTail,
                                             FreshAccount(Encode(c.value)), now);
               r.Ok? && (r.value.result.Ok? <==> now <= openedAt + CHALLENGE_WINDOW || fixed)
  {
    assert PVP in COMPETITION_TYPES;
    ProgramKey(program);
    NewCompetitionStored(derived, PVP, Some(challenger), Some(program.raidProgramId), openedAt);
    var c := CreateNewCompetition(derived, derived, true, PVP, Some(challenger), Some(program.raidProgramId), openedAt).value;
    var tail := Zeros(ACCOUNT_SPACE - |Encode(c)|);
    assert FreshAccount(Encode(c)) == Encode(c) + tail;
    AcceptStoredFixed(c, tail, program, programTail, fixed, now);
    NewChallengeWindow(derived, challenger, program.raidProgramId, openedAt, now);
  }

  /** A new challenge awaits the program it names, and expires after its window. */
  lemma NewChallengeWindow(derived: Pubkey, challenger: Pubkey, challenged: Pubkey, openedAt: int, now: int)
    requires 0 <= openedAt && openedAt + CHALLENGE_WINDOW < TWO_64 && 0 <= now < TWO_64
    ensures var c := CreateNewCompetition(derived, derived, true, PVP, Some(challenger), Some(challenged), openedAt);
            c.Ok? && c.value.status == AWAITING && c.value.challengedProgramId == Some(challenged)
            && (ChallengeExpired(c.value, now) <==> now > openedAt + CHALLENGE_WINDOW)
  {
    assert PVP in COMPETITION_TYPES;
    var c := CreateNewCompetition(derived, derived, true, PVP, Some(challenger), Some(challenged), openedAt).value;
    assert Stamp(openedAt) == openedAt && Stamp(now) == now;
    assert After(openedAt, CHALLENGE_WINDOW) == openedAt + CHALLENGE_WINDOW;
    assert c.startExpiration == Some(After(openedAt, CHALLENGE_WINDOW));
  }

  lemma ProgramKey(program: RaidProgramCards.RaidProgramCard)
    requires RaidProgramCards.WellFormed(program)
    ensures IsKey(program.raidProgramId)
  {
    assert Fields.ValueOk(RaidProgramCards.ToFields(program)[0]);
  }
}

=== FILE: fields.dfy ===
/**
 * The account records of smart-contract/src/lib.rs are all flat sequences
 * of Borsh fields written back to back and read back in the same order by
 * the `custom_deserialize` functions, which advance a cursor by each
 * field's width. This module models that shared shape once: a record is a
 * list of field values, its layout is the list of their kinds, and one
 * inductive round-trip lemma covers every record.
 */
module Fields {
  import opened Bytes
  import opened Wrappers
  import opened Borsh

  /** The field shapes the records use. */
  datatype Kind =
    | KeyKind       // 32-byte public key
    | StrKind       // u32 length + UTF-8 bytes
    | BoolKind      // strict Borsh bool
    | U64Kind       // little-endian u64
    | OptKeyKind    // flag byte, then a key when the flag is nonzero
    | OptU64Kind    // flag byte, then a u64 when the flag is nonzero

  datatype Value =
    | Key(key: Pubkey)
    | Str(str: seq<byte>)
    | Bool(flag: bool)
    | U64(num: nat)
    | OptKey(optKey: Option<Pubkey>)
    | OptU64(optNum: Option<nat>)

  function KindOf(v: Value): Kind {
    match v
    case Key(_) => KeyKind
    case Str(_) => StrKind
    case Bool(_) => BoolKind
    case U64(_) => U64Kind
    case OptKey(_) => OptKeyKind
    case OptU64(_) => OptU64Kind
  }

  function KindsOf(vs: seq<Value>): (r: seq<Kind>)
    ensures |r| == |vs|
    ensures forall i | 0 <= i < |vs| :: r[i] == KindOf(vs[i])
  {
    seq(|vs|, i requires 0 <= i < |vs| => KindOf(vs[i]))
  }

  predicate IsOptional(k: Kind) { k == OptKeyKind || k == OptU64Kind }

  /** A layout without optional fields: every byte of its encoding is fixed by the values. */
  predicate Plain(layout: seq<Kind>) {
    forall i | 0 <= i < |layout| :: !IsOptional(layout[i])
  }

  lemma PlainTail(layout: seq<Kind>)
    requires Plain(layout) && |layout| > 0
    ensures Plain(layout[1..]) && !IsOptional(layout[0])
  {
    forall i | 0 <= i < |layout[1..]| ensures !IsOptional(layout[1..][i]) {
      assert layout[1..][i] == layout[i + 1];
    }
  }

  /** A value the Rust field type can hold. */
  predicate ValueOk(v: Value) {
    match v
    case Key(k) => IsKey(k)
    case Str(s) => StrOk(s)
    case Bool(_) => true
    case U64(n) => U64Ok(n)
    case OptKey(o) => o.Some? ==> IsKey(o.value)
    case OptU64(o) => o.Some? ==> U64Ok(o.value)
  }

  predicate AllOk(vs: seq<Value>) {
    forall i | 0 <= i < |vs| :: ValueOk(vs[i])
  }

  /** Replacing one field by a value its type can hold keeps the record storable. */
  lemma AllOkUpdate(vs: seq<Value>, i: nat, v: Value)
    requires AllOk(vs) && i < |vs| && ValueOk(v)
    ensures AllOk(vs[i := v])
  {
  }

  /** `vs` has the kinds `layout` lists, position by position. */
  predicate Conforms(vs: seq<Value>, layout: seq<Kind>) {
    |vs| == |layout| && forall i | 0 <= i < |vs| :: KindOf(vs[i]) == layout[i]
  }

  /**
   * How far the decoders move the cursor past a field: 32 for a key,
   * `4 + len` for a string, 1 for a bool, 8 for a u64, and one flag byte
   * plus the payload when an option is present.
   */
  function Width(v: Value): nat {
    match v
    case Key(k) => |k|
    case Str(s) => 4 + |s|
    case Bool(_) => 1
    case U64(_) => 8
    case OptKey(o) => if o.Some? then 1 + |o.value| else 1
    case OptU64(o) => if o.Some? then 9 else 1
  }

  function TotalWidth(vs: seq<Value>): nat {
    if vs == [] then 0 else Width(vs[0]) + TotalWidth(vs[1..])
  }

  /** The widths of the first `n` fields, added up from the front. */
  function WidthSum(vs: seq<Value>, n: nat): nat
    requires n <= |vs|
  {
    if n == 0 then 0 else WidthSum(vs, n - 1) + Width(vs[n - 1])
  }

  /** A record's width is the sum of its fields' widths. */
  lemma {:induction false} TotalWidthAll(vs: seq<Value>)
    ensures TotalWidth(vs) == WidthSum(vs, |vs|)
    decreases |vs|
  {
    if vs != [] {
      TotalWidthAll(vs[1..]);
      WidthSumShift(vs, |vs|);
    }
  }

  lemma {:induction false} WidthSumShift(vs: seq<Value>, n: nat)
    requires 1 <= n <= |vs|
    ensures WidthSum(vs, n) == Width(vs[0]) + WidthSum(vs[1..], n - 1)
    decreases n
  {
    if n > 1 {
      WidthSumShift(vs, n - 1);
    }
  }

  /** The bytes the serializers write for one field; options get flag 1 or 0. */
  function EncodeField(v: Value): (r: seq<byte>)
    ensures |r| == Width(v)
  {
    match v
    case Key(k) => k
    case Str(s) => EncString(s)
    case Bool(b) => EncBool(b)
    case U64(n) => U64Bytes(n)
    case OptKey(o) => if o.Some? then [1] + o.value else [0]
    case OptU64(o) => if o.Some? then [1] + U64Bytes(o.value) else [0]
  }

  function EncodeFields(vs: seq<Value>): (r: seq<byte>)
    ensures |r| == TotalWidth(vs)
  {
    if vs == [] then [] else EncodeField(vs[0]) + EncodeFields(vs[1..])
  }

  /**
   * Reads one field of the given kind from the unread suffix. An optional
   * field is present when its flag byte is nonzero, as the competition
   * decoder tests it (`!= 0`), not only when it is 1.
   */
  function ReadField(kind: Kind, s: seq<byte>): (r: Result<Parsed<Value>, ProgramError>)
    ensures r.Err? ==> r.error == InvalidAccountData
    ensures r.Ok? ==> KindOf(r.value.value) == kind && ValueOk(r.value.value)
    ensures r.Ok? ==> |s| == Width(r.value.value) + |r.value.rest|
                      && r.value.rest == s[Width(r.value.value)..]
    ensures r.Ok? && (IsOptional(kind) ==> s[0] <= 1) ==> s == EncodeField(r.value.value) + r.value.rest
  {
    match kind
    case KeyKind =>
      var k :- ReadPubkey(s);
      Ok(Parsed(Key(k.value), k.rest))
    case StrKind =>
      var t :- ReadString(s);
      Ok(Parsed(Str(t.value), t.rest))
    case BoolKind =>
      var b :- ReadBool(s);
      Ok(Parsed(Bool(b.value), b.rest))
    case U64Kind =>
      var n :- ReadU64(s);
      Ok(Parsed(U64(n.value), n.rest))
    case OptKeyKind => ReadOptKey(s)
    case OptU64Kind => ReadOptU64(s)
  }

  /** An optional key: a flag byte, then the key when the flag is nonzero. */
  function ReadOptKey(s: seq<byte>): (r: Result<Parsed<Value>, ProgramError>)
    ensures r.Err? ==> r.error == InvalidAccountData
    ensures r.Ok? ==> r.value.value.OptKey? && ValueOk(r.value.value)
    ensures r.Ok? ==> |s| == Width(r.value.value) + |r.value.rest|
                      && r.value.rest == s[Width(r.value.value)..]
    ensures r.Ok? && s[0] <= 1 ==> s == EncodeField(r.value.value) + r.value.rest
  {
    var f :- ReadU8(s);
    if f.value != 0 then
      var k :- ReadPubkey(f.rest);
      Ok(Parsed(OptKey(Some(k.value)), k.rest))
    else
      Ok(Parsed(OptKey(None), f.rest))
  }

  /** An optional `u64`: a flag byte, then the number when the flag is nonzero. */
  function ReadOptU64(s: seq<byte>): (r: Result<Parsed<Value>, ProgramError>)
    ensures r.Err? ==> r.error == InvalidAccountData
    ensures r.Ok? ==> r.value.value.OptU64? && ValueOk(r.value.value)
    ensures r.Ok? ==> |s| == Width(r.value.value) + |r.value.rest|
                      && r.value.rest == s[Width(r.value.value)..]
    ensures r.Ok? && s[0] <= 1 ==> s == EncodeField(r.value.value) + r.value.rest
  {
    var f :- ReadU8(s);
    if f.value != 0 then
      var n :- ReadU64(f.rest);
      Ok(Parsed(OptU64(Some(n.value)), n.rest))
    else
      Ok(Parsed(OptU64(None), f.rest))
  }

  lemma ConsFields(v: Value, vs: seq<Value>)
    ensures TotalWidth([v] + vs) == Width(v) + TotalWidth(vs)
    ensures EncodeFields([v] + vs) == EncodeField(v) + EncodeFields(vs)
  {
    assert ([v] + vs)[1..] == vs;
  }

  /**
   * Reads the fields of `layout` one after another, stopping at the first
   * field that fails; every failure is `InvalidAccountData`.
   */
  function DecodeFields(layout: seq<Kind>, s: seq<byte>): (r: Result<Parsed<seq<Value>>, ProgramError>)
    decreases |layout|
    ensures r.Err? ==> r.error == InvalidAccountData
    ensures r.Ok? ==> Conforms(r.value.value, layout) && AllOk(r.value.value)
    ensures r.Ok? ==> |s| == TotalWidth(r.value.value) + |r.value.rest|
  {
    if layout == [] then Ok(Parsed([], s))
    else
      var f :- ReadField(layout[0], s);
      var more :- DecodeFields(layout[1..], f.rest);
      var vs := [f.value] + more.value;
      ConsFields(f.value, more.value);
      assert forall i | 1 <= i < |vs| :: vs[i] == more.value[i - 1];
      Ok(Parsed(vs, more.rest))
  }

  /** A successful decode is the first field followed by the decode of the rest. */
  lemma DecodeFieldsCons(layout: seq<Kind>, s: seq<byte>)
    requires layout != [] && DecodeFields(layout, s).Ok?
    ensures ReadField(layout[0], s).Ok?
    ensures var f := ReadField(layout[0], s).value;
            DecodeFields(layout[1..], f.rest).Ok?
            && DecodeFields(layout, s).value
               == Parsed([f.value] + DecodeFields(layout[1..], f.rest).value.value, DecodeFields(layout[1..], f.rest).value.rest)
  {
  }

  /**
   * For a layout without optional fields, a successful decode read
   * exactly the encoding of the fields it returns.
   */
  lemma {:induction false} DecodeFieldsExact(layout: seq<Kind>, s: seq<byte>)
    requires Plain(layout)
    requires DecodeFields(layout, s).Ok?
    ensures var p := DecodeFields(layout, s).value;
            s == EncodeFields(p.value) + p.rest
  {
    if layout != [] {
      PlainTail(layout);
      DecodeFieldsCons(layout, s);
      DecodeFieldsExact(layout[1..], ReadField(layout[0], s).value.rest);
      ExactCons(layout, s);
    }
  }

  /** What a successful decode leaves unread is the input past the fields it returns. */
  lemma {:induction false} DecodeFieldsRest(layout: seq<Kind>, s: seq<byte>)
    requires DecodeFields(layout, s).Ok?
    ensures var p := DecodeFields(layout, s).value;
            p.rest == s[TotalWidth(p.value)..]
  {
    if layout != [] {
      DecodeFieldsCons(layout, s);
      var f := ReadField(layout[0], s).value;
      var more := DecodeFields(layout[1..], f.rest).value;
      DecodeFieldsRest(layout[1..], f.rest);
      ConsFields(f.value, more.value);
      DropDrop(s, Width(f.value), TotalWidth(more.value));
    }
  }

  lemma DropDrop(s: seq<byte>, a: nat, b: nat)
    requires a + b <= |s|
    ensures s[a..][b..] == s[a + b..]
  {
  }

  /** The first field read exactly and the rest read exactly make the whole read exact. */
  lemma ExactCons(layout: seq<Kind>, s: seq<byte>)
    requires layout != [] && !IsOptional(layout[0]) && DecodeFields(layout, s).Ok?
    requires ReadField(layout[0], s).Ok?
    requires var f := ReadField(layout[0], s).value;
             DecodeFields(layout[1..], f.rest).Ok?
             && f.rest == EncodeFields(DecodeFields(layout[1..], f.rest).value.value)
                          + DecodeFields(layout[1..], f.rest).value.rest
    ensures var p := DecodeFields(layout, s).value;
            s == EncodeFields(p.value) + p.rest
  {
    DecodeFieldsCons(layout, s);
    var f := ReadField(layout[0], s).value;
    var more := DecodeFields(layout[1..], f.rest).value;
    ConsFields(f.value, more.value);
    Regroup(s, EncodeField(f.value), f.rest, EncodeFields(more.value), more.rest);
  }

  lemma Regroup(s: seq<byte>, a: seq<byte>, b: seq<byte>, c: seq<byte>, d: seq<byte>)
    requires s == a + b && b == c + d
    ensures s == (a + c) + d
  {
  }

  lemma OptKeyReadBack(o: Option<Pubkey>, rest: seq<byte>)
    requires o.Some? ==> IsKey(o.value)
    ensures ReadField(OptKeyKind, EncodeField(OptKey(o)) + rest) == Ok(Parsed(OptKey(o), rest))
  {
    var s := EncodeField(OptKey(o)) + rest;
    if o.Some? {
      assert s[0] == 1 && s[1..] == o.value + rest;
      PubkeyReadBack(o.value, rest);
    } else {
      assert s[0] == 0 && s[1..] == rest;
    }
  }

  lemma OptU64ReadBack(o: Option<nat>, rest: seq<byte>)
    requires o.Some? ==> U64Ok(o.value)
    ensures ReadField(OptU64Kind, EncodeField(OptU64(o)) + rest) == Ok(Parsed(OptU64(o), rest))
  {
    var s := EncodeField(OptU64(o)) + rest;
    if o.Some? {
      assert s[0] == 1 && s[1..] == U64Bytes(o.value) + rest;
      U64ReadBack(o.value, rest);
    } else {
      assert s[0] == 0 && s[1..] == rest;
    }
  }

  lemma ReadFieldBack(v: Value, rest: seq<byte>)
    requires ValueOk(v)
    ensures ReadField(KindOf(v), EncodeField(v) + rest) == Ok(Parsed(v, rest))
  {
    match v
    case Key(k) => PubkeyReadBack(k, rest);
    case Str(t) => StringReadBack(t, rest);
    case Bool(b) => BoolReadBack(b, rest);
    case U64(n) => U64ReadBack(n, rest);
    case OptKey(o) => OptKeyReadBack(o, rest);
    case OptU64(o) => OptU64ReadBack(o, rest);
  }

  /**
   * The competition decoder's option rule: any nonzero flag byte means the
   * payload follows, so a flag of 2 reads the same key as a flag of 1.
   */
  lemma NonzeroFlagPresent(flag: byte, k: Pubkey, rest: seq<byte>)
    requires flag != 0 && IsKey(k)
    ensures ReadField(OptKeyKind, [flag] + k + rest) == Ok(Parsed(OptKey(Some(k)), rest))
  {
    var s := [flag] + k + rest;
    assert s[0] == flag && s[1..] == k + rest;
    PubkeyReadBack(k, rest);
  }

  /**
   * Round trip for any record: reading back the fields a serializer wrote,
   * with any bytes after them, gives the same fields and leaves those bytes.
   */
  lemma {:induction false} FieldsRoundTrip(vs: seq<Value>, rest: seq<byte>)
    requires AllOk(vs)
    ensures DecodeFields(KindsOf(vs), EncodeFields(vs) + rest) == Ok(Parsed(vs, rest))
  {
    if vs != [] {
      var tail := EncodeFields(vs[1..]) + rest;
      assert EncodeFields(vs) + rest == EncodeField(vs[0]) + tail;
      assert ValueOk(vs[0]);
      ReadFieldBack(vs[0], tail);
      assert AllOk(vs[1..]) by {
        forall i | 0 <= i < |vs[1..]| ensures ValueOk(vs[1..][i]) {
          assert vs[1..][i] == vs[i + 1];
        }
      }
      FieldsRoundTrip(vs[1..], rest);
      var layout := KindsOf(vs);
      assert layout[0] == KindOf(vs[0]) && layout[1..] == KindsOf(vs[1..]);
      assert [vs[0]] + vs[1..] == vs;
      assert DecodeFields(layout[1..], tail) == Ok(Parsed(vs[1..], rest));
    } else {
      assert KindsOf(vs) == [] && EncodeFields(vs) + rest == rest;
    }
  }

  /**
   * `try_from_slice` with the derived Borsh reader. It is strict where the
   * hand-written decoders are lenient (an option's flag byte must be 0 or
   * 1), and it fails when any byte of the account is left unread, so what
   * it accepts is exactly one record's canonical encoding.
   */
  function StrictDecode(layout: seq<Kind>, data: seq<byte>): (r: Result<seq<Value>, ProgramError>)
    ensures r.Ok? ==> Conforms(r.value, layout) && AllOk(r.value) && EncodeFields(r.value) == data
    ensures r.Err? ==> r.error == BorshIoError
  {
    match DecodeFields(layout, data)
    case Ok(p) => if p.rest == [] && EncodeFields(p.value) == data then Ok(p.value) else Err(BorshIoError)
    case Err(_) => Err(BorshIoError)
  }

  /** The strict reader reads a record from its encoding and from nothing else. */
  lemma StrictDecodeExact(vs: seq<Value>, data: seq<byte>)
    requires AllOk(vs)
    ensures StrictDecode(KindsOf(vs), data) == Ok(vs) <==> data == EncodeFields(vs)
  {
    if data == EncodeFields(vs) {
      assert EncodeFields(vs) + [] == data;
      FieldsRoundTrip(vs, []);
    }
  }

  /**
   * Bytes after a record's encoding (the unused part of an account) make
   * the strict reader fail, while the hand-written decoder reads the record
   * and leaves them.
   */
  lemma TrailingBytesRejected(vs: seq<Value>, tail: seq<byte>)
    requires AllOk(vs) && tail != []
    ensures StrictDecode(KindsOf(vs), EncodeFields(vs) + tail) == Err(BorshIoError)
    ensures DecodeFields(KindsOf(vs), EncodeFields(vs) + tail) == Ok(Parsed(vs, tail))
  {
    FieldsRoundTrip(vs, tail);
  }

  lemma ConformsKinds(vs: seq<Value>, layout: seq<Kind>)
    requires Conforms(vs, layout)
    ensures KindsOf(vs) == layout
  {
  }

  /**
   * Decoding is insensitive to re-serialisation: whatever fields a decoder
   * accepted, writing them back and decoding again gives the same fields,
   * even when the original flag bytes were nonzero values other than 1.
   */
  lemma Reencode(layout: seq<Kind>, s: seq<byte>)
    requires DecodeFields(layout, s).Ok?
    ensures var p := DecodeFields(layout, s).value;
            DecodeFields(layout, EncodeFields(p.value) + p.rest) == Ok(p)
  {
    var p := DecodeFields(layout, s).value;
    ConformsKinds(p.value, layout);
    FieldsRoundTrip(p.value, p.rest);
  }
}

=== FILE: instruction.dfy ===
/**
 * The instruction wire format of the on-chain program: `process_instruction`
 * (smart-contract/src/lib.rs) reads a one-byte tag and decodes the body that
 * tag calls for, and `unpack_string` reads one length-prefixed UTF-8 string.
 * The handlers the decoded instruction is dispatched to are modelled
 * elsewhere; here the result of decoding is the instruction value.
 */
module Instructions {
  import opened Bytes
  import opened Wrappers
  import opened Borsh

  datatype Instruction =
    | InitializeProgram                                                      // tag 1
    | CreateRaidProgram(name: seq<byte>, description: seq<byte>, pfpUrl: seq<byte>) // tag 2
    | AuthorityMint(amount: nat)                                             // tag 3
    | CreateRaid(competitionType: seq<byte>)                                 // tag 4
    | AcceptPvpChallenge                                                     // tag 5
    | BurnTokens(burnAmount: nat)                                            // tag 6
    | EnrollInProgram                                                        // tag 7
    | CreateUserCard                                                         // tag 8
    | UpdateUserCard(email: seq<byte>, twitter: seq<byte>, dob: seq<byte>, userPfpUrl: seq<byte>) // tag 9

  function Tag(ins: Instruction): (t: byte)
    ensures 1 <= t <= 9
  {
    match ins
    case InitializeProgram => 1
    case CreateRaidProgram(_, _, _) => 2
    case AuthorityMint(_) => 3
    case CreateRaid(_) => 4
    case AcceptPvpChallenge => 5
    case BurnTokens(_) => 6
    case EnrollInProgram => 7
    case CreateUserCard => 8
    case UpdateUserCard(_, _, _, _) => 9
  }

  /**
   * `unpack_string`: a `u32` little-endian length, then that many bytes,
   * which must be UTF-8; returns the string and the bytes after it. Every
   * failure is `InvalidInstructionData`.
   */
  function UnpackString(input: seq<byte>): (r: Result<Parsed<seq<byte>>, ProgramError>)
    ensures r.Err? ==> r.error == InvalidInstructionData
    ensures r.Ok? ==> StrOk(r.value.value) && input == EncString(r.value.value) + r.value.rest
  {
    if |input| < 4 then Err(InvalidInstructionData)
    else
      var length := LeValue(input[..4]);
      if |input| < 4 + length then Err(InvalidInstructionData)
      else
        var bytes := input[4..4 + length];
        if !ValidUtf8(bytes) then Err(InvalidInstructionData)
        else
          LeValueBound(input[..4]);
          LeBytesOfValue(input[..4]);
          assert input == input[..4] + bytes + input[4 + length..];
          Ok(Parsed(bytes, input[4 + length..]))
  }

  /** `unpack_string` accepts exactly what the account-data string reader accepts, with the same result. */
  lemma UnpackStringAgrees(input: seq<byte>)
    ensures UnpackString(input).Ok? <==> ReadString(input).Ok?
    ensures UnpackString(input).Ok? ==> UnpackString(input).value == ReadString(input).value
  {
  }

  /** `unpack_string` reads back what a length-prefixed encoder writes. */
  lemma UnpackStringBack(v: seq<byte>, rest: seq<byte>)
    requires StrOk(v)
    ensures UnpackString(EncString(v) + rest) == Ok(Parsed(v, rest))
  {
    StringReadBack(v, rest);
    UnpackStringAgrees(EncString(v) + rest);
  }

  /** `count` consecutive `unpack_string` calls, each on the rest of the previous one. */
  function UnpackStrings(count: nat, input: seq<byte>): (r: Result<Parsed<seq<seq<byte>>>, ProgramError>)
    ensures r.Err? ==> r.error == InvalidInstructionData
    ensures r.Ok? ==> |r.value.value| == count && input == EncStrings(r.value.value) + r.value.rest
    ensures r.Ok? ==> forall i :: 0 <= i < count ==> StrOk(r.value.value[i])
  {
    if count == 0 then Ok(Parsed([], input))
    else
      match UnpackString(input)
      case Err(e) => Err(e)
      case Ok(first) =>
        match UnpackStrings(count - 1, first.rest)
        case Err(e) => Err(e)
        case Ok(others) =>
          var vs := [first.value] + others.value;
          assert vs[1..] == others.value;
          assert EncStrings(vs) == EncString(first.value) + EncStrings(others.value);
          assert forall i :: 1 <= i < count ==> vs[i] == others.value[i - 1];
          Ok(Parsed(vs, others.rest))
  }

  /** Length-prefixed strings one after another. */
  function EncStrings(vs: seq<seq<byte>>): seq<byte>
  {
    if |vs| == 0 then [] else EncString(vs[0]) + EncStrings(vs[1..])
  }

  lemma EncStrings3(a: seq<byte>, b: seq<byte>, c: seq<byte>)
    ensures EncStrings([a, b, c]) == EncString(a) + EncString(b) + EncString(c)
  {
    assert [a, b, c][1..] == [b, c];
    assert [b, c][1..] == [c];
    assert [c][1..] == [];
    assert EncStrings([c]) == EncString(c);
    assert EncStrings([b, c]) == EncString(b) + EncString(c);
  }

  lemma EncStrings4(a: seq<byte>, b: seq<byte>, c: seq<byte>, d: seq<byte>)
    ensures EncStrings([a, b, c, d]) == EncString(a) + EncString(b) + EncString(c) + EncString(d)
  {
    assert [a, b, c, d][1..] == [b, c, d];
    EncStrings3(b, c, d);
  }

  lemma {:induction false} UnpackStringsBack(vs: seq<seq<byte>>, rest: seq<byte>)
    requires forall i :: 0 <= i < |vs| ==> StrOk(vs[i])
    ensures UnpackStrings(|vs|, EncStrings(vs) + rest) == Ok(Parsed(vs, rest))
  {
    if |vs| == 0 {
      assert EncStrings(vs) + rest == rest;
    } else {
      var tail := EncStrings(vs[1..]) + rest;
      assert EncStrings(vs) + rest == EncString(vs[0]) + tail;
      UnpackStringBack(vs[0], tail);
      UnpackStringsBack(vs[1..], rest);
      UnpackStringsStep(|vs|, EncStrings(vs) + rest, vs[0], tail, vs[1..], rest);
      assert [vs[0]] + vs[1..] == vs;
    }
  }

  /** One string, then the remaining ones from where it ended. */
  lemma UnpackStringsStep(count: nat, input: seq<byte>, v: seq<byte>, mid: seq<byte>,
                          vs: seq<seq<byte>>, rest: seq<byte>)
    requires count > 0
    requires UnpackString(input) == Ok(Parsed(v, mid))
    requires UnpackStrings(count - 1, mid) == Ok(Parsed(vs, rest))
    ensures UnpackStrings(count, input) == Ok(Parsed([v] + vs, rest))
  {
  }

  /** An 8-byte body read as `u64::from_le_bytes`; any other length is rejected. */
  function U64Body(body: seq<byte>): (r: Result<nat, ProgramError>)
    ensures r.Ok? <==> |body| == 8
    ensures r.Err? ==> r.error == InvalidInstructionData
    ensures r.Ok? ==> U64Ok(r.value) && body == U64Bytes(r.value)
  {
    if |body| != 8 then Err(InvalidInstructionData)
    else
      LeValueBound(body);
      LeBytesOfValue(body);
      Ok(LeValue(body))
  }

  /** Tag 2's body: name, description and picture URL; bytes after them are ignored. */
  function CreateRaidProgramBody(body: seq<byte>): (r: Result<Instruction, ProgramError>)
    ensures r.Err? ==> r.error == InvalidInstructionData
    ensures r.Ok? ==> r.value.CreateRaidProgram?
  {
    var p :- UnpackStrings(3, body);
    Ok(CreateRaidProgram(p.value[0], p.value[1], p.value[2]))
  }

  /** Tag 9's body: email, twitter handle, date of birth and picture URL, in that order. */
  function UpdateUserCardBody(body: seq<byte>): (r: Result<Instruction, ProgramError>)
    ensures r.Err? ==> r.error == InvalidInstructionData
    ensures r.Ok? ==> r.value.UpdateUserCard?
  {
    var p :- UnpackStrings(4, body);
    Ok(UpdateUserCard(p.value[0], p.value[1], p.value[2], p.value[3]))
  }

  /** Tag 4's body: the competition type; bytes after it are ignored. */
  function CreateRaidBody(body: seq<byte>): (r: Result<Instruction, ProgramError>)
    ensures r.Err? ==> r.error == InvalidInstructionData
    ensures r.Ok? ==> r.value.CreateRaid?
  {
    var p :- UnpackString(body);
    Ok(CreateRaid(p.value))
  }

  /** The instruction a tag and body decode to. */
  function DecodeBody(tag: byte, body: seq<byte>): (r: Result<Instruction, ProgramError>)
    ensures r.Err? ==> r.error == InvalidInstructionData
    ensures !(1 <= tag <= 9) ==> r.Err?
    ensures r.Ok? ==> Tag(r.value) == tag
  {
    match tag
    case 1 => Ok(InitializeProgram)
    case 2 => CreateRaidProgramBody(body)
    case 3 =>
      var amount :- U64Body(body);
      Ok(AuthorityMint(amount))
    case 4 => CreateRaidBody(body)
    case 5 => Ok(AcceptPvpChallenge)
    case 6 =>
      var amount :- U64Body(body);
      Ok(BurnTokens(amount))
    case 7 => Ok(EnrollInProgram)
    case 8 => Ok(CreateUserCard)
    case 9 => UpdateUserCardBody(body)
    case _ => Err(InvalidInstructionData)
  }

  /** `process_instruction`'s decoding of `instruction_data`: a tag byte, then its body. */
  function Decode(data: seq<byte>): (r: Result<Instruction, ProgramError>)
    ensures r.Err? ==> r.error == InvalidInstructionData
    ensures |data| == 0 ==> r.Err?
    ensures |data| > 0 && !(1 <= data[0] <= 9) ==> r.Err?
    ensures r.Ok? ==> Tag(r.value) == data[0]
  {
    if |data| == 0 then Err(InvalidInstructionData) else DecodeBody(data[0], data[1..])
  }

  /** The strings an instruction carries, in wire order. */
  function Strings(ins: Instruction): seq<seq<byte>>
  {
    match ins
    case CreateRaidProgram(n, d, u) => [n, d, u]
    case CreateRaid(t) => [t]
    case UpdateUserCard(e, t, d, u) => [e, t, d, u]
    case _ => []
  }

  /** Values the decoder can produce: UTF-8 strings within `u32` length, `u64` amounts. */
  predicate WellFormed(ins: Instruction)
  {
    (forall i :: 0 <= i < |Strings(ins)| ==> StrOk(Strings(ins)[i]))
    && (ins.AuthorityMint? ==> U64Ok(ins.amount))
    && (ins.BurnTokens? ==> U64Ok(ins.burnAmount))
  }

  /** The canonical body: length-prefixed strings or a little-endian `u64`. */
  function Body(ins: Instruction): seq<byte>
  {
    match ins
    case AuthorityMint(a) => U64Bytes(a)
    case BurnTokens(a) => U64Bytes(a)
    case _ => EncStrings(Strings(ins))
  }

  /** The canonical encoding: the tag, then the body. */
  function Encode(ins: Instruction): (r: seq<byte>)
    ensures |r| >= 1 && r[0] == Tag(ins)
  {
    [Tag(ins)] + Body(ins)
  }

  /** Decoding data that starts with a tag reads the rest as that tag's body. */
  lemma DecodeSplit(ins: Instruction, trailing: seq<byte>)
    ensures Decode(Encode(ins) + trailing) == DecodeBody(Tag(ins), Body(ins) + trailing)
  {
    assert (Encode(ins) + trailing)[1..] == Body(ins) + trailing;
  }

  /** Instructions whose body has an exact length; the others ignore trailing bytes. */
  predicate FixedLength(ins: Instruction) { ins.AuthorityMint? || ins.BurnTokens? }

  lemma U64BodyBack(a: nat)
    requires U64Ok(a)
    ensures U64Body(U64Bytes(a)) == Ok(a)
  {
    U64RoundTrip(a);
  }

  lemma RoundTripAmount(ins: Instruction)
    requires WellFormed(ins) && FixedLength(ins)
    ensures Decode(Encode(ins)) == Ok(ins)
  {
    var a := if ins.AuthorityMint? then ins.amount else ins.burnAmount;
    DecodeSplit(ins, []);
    assert Body(ins) + [] == U64Bytes(a);
    U64BodyBack(a);
  }

  lemma RoundTripCreateRaid(t: seq<byte>, trailing: seq<byte>)
    requires StrOk(t)
    ensures Decode(Encode(CreateRaid(t)) + trailing) == Ok(CreateRaid(t))
  {
    DecodeSplit(CreateRaid(t), trailing);
    assert [t][1..] == [];
    assert Body(CreateRaid(t)) == EncStrings([t]) == EncString(t);
    assert Body(CreateRaid(t)) + trailing == EncString(t) + trailing;
    UnpackStringBack(t, trailing);
    assert DecodeBody(4, EncString(t) + trailing) == CreateRaidBody(EncString(t) + trailing) == Ok(CreateRaid(t));
  }

  lemma RoundTripCreateRaidProgram(n: seq<byte>, d: seq<byte>, u: seq<byte>, trailing: seq<byte>)
    requires StrOk(n) && StrOk(d) && StrOk(u)
    ensures Decode(Encode(CreateRaidProgram(n, d, u)) + trailing) == Ok(CreateRaidProgram(n, d, u))
  {
    DecodeSplit(CreateRaidProgram(n, d, u), trailing);
    var body := EncStrings([n, d, u]) + trailing;
    UnpackStringsBack([n, d, u], trailing);
    assert DecodeBody(2, body) == CreateRaidProgramBody(body);
    assert [n, d, u][0] == n && [n, d, u][1] == d && [n, d, u][2] == u;
  }

  lemma RoundTripUpdateUserCard(e: seq<byte>, t: seq<byte>, d: seq<byte>, u: seq<byte>, trailing: seq<byte>)
    requires StrOk(e) && StrOk(t) && StrOk(d) && StrOk(u)
    ensures Decode(Encode(UpdateUserCard(e, t, d, u)) + trailing) == Ok(UpdateUserCard(e, t, d, u))
  {
    DecodeSplit(UpdateUserCard(e, t, d, u), trailing);
    var vs := [e, t, d, u];
    var body := EncStrings(vs) + trailing;
    assert Body(UpdateUserCard(e, t, d, u)) == EncStrings(vs);
    UnpackStringsBack(vs, trailing);
    assert UnpackStrings(4, body) == Ok(Parsed(vs, trailing));
    assert UpdateUserCardBody(body) == Ok(UpdateUserCard(vs[0], vs[1], vs[2], vs[3]));
    assert DecodeBody(9, body) == UpdateUserCardBody(body);
  }

  /**
   * Decoding an encoded instruction gives it back; for every instruction
   * without a fixed-length body, bytes after the encoding are ignored.
   */
  lemma RoundTrip(ins: Instruction, trailing: seq<byte>)
    requires WellFormed(ins)
    requires FixedLength(ins) ==> trailing == []
    ensures Decode(Encode(ins) + trailing) == Ok(ins)
  {
    if FixedLength(ins) {
      assert Encode(ins) + trailing == Encode(ins);
      RoundTripAmount(ins);
    } else if ins.CreateRaid? {
      assert StrOk(Strings(ins)[0]);
      RoundTripCreateRaid(ins.competitionType, trailing);
    } else if ins.CreateRaidProgram? {
      var vs := Strings(ins);
      assert StrOk(vs[0]) && StrOk(vs[1]) && StrOk(vs[2]);
      RoundTripCreateRaidProgram(ins.name, ins.description, ins.pfpUrl, trailing);
    } else if ins.UpdateUserCard? {
      var vs := Strings(ins);
      assert StrOk(vs[0]) && StrOk(vs[1]) && StrOk(vs[2]) && StrOk(vs[3]);
      RoundTripUpdateUserCard(ins.email, ins.twitter, ins.dob, ins.userPfpUrl, trailing);
    } else {
      assert (Encode(ins) + trailing)[0] == Tag(ins);
    }
  }

  /** A fixed-length body with trailing bytes, or cut short, is rejected. */
  lemma FixedLengthExact(ins: Instruction, trailing: seq<byte>)
    requires FixedLength(ins) && trailing != []
    ensures Decode(Encode(ins) + trailing).Err?
  {
    var data := Encode(ins) + trailing;
    assert |data[1..]| == 8 + |trailing|;
  }

  lemma DecodeExactCreateRaid(data: seq<byte>)
    requires Decode(data).Ok? && data[0] == 4
    ensures var ins := Decode(data).value;
            WellFormed(ins) && exists rest :: data == Encode(ins) + rest
  {
    var body := data[1..];
    var p := UnpackString(body).value;
    var ins := CreateRaid(p.value);
    assert Decode(data) == CreateRaidBody(body) == Ok(ins);
    assert Body(ins) == EncStrings([p.value]) == EncString(p.value) + EncStrings([]);
    assert data == [4] + body == Encode(ins) + p.rest;
  }

  lemma DecodeExactCreateRaidProgram(data: seq<byte>)
    requires Decode(data).Ok? && data[0] == 2
    ensures var ins := Decode(data).value;
            WellFormed(ins) && exists rest :: data == Encode(ins) + rest
  {
    var body := data[1..];
    assert Decode(data) == DecodeBody(2, body) == CreateRaidProgramBody(body);
    var p := UnpackStrings(3, body).value;
    var ins := CreateRaidProgram(p.value[0], p.value[1], p.value[2]);
    assert Decode(data) == Ok(ins);
    assert Strings(ins) == p.value;
    StringsExact(data, ins, p.rest);
  }

  /** Data that is a string-carrying instruction's tag and strings, then more bytes. */
  lemma StringsExact(data: seq<byte>, ins: Instruction, rest: seq<byte>)
    requires !FixedLength(ins) && |data| > 0 && data[0] == Tag(ins)
    requires data[1..] == EncStrings(Strings(ins)) + rest
    ensures data == Encode(ins) + rest
  {
    assert data == [data[0]] + data[1..];
  }

  lemma DecodeExactUpdateUserCard(data: seq<byte>)
    requires Decode(data).Ok? && data[0] == 9
    ensures var ins := Decode(data).value;
            WellFormed(ins) && exists rest :: data == Encode(ins) + rest
  {
    var body := data[1..];
    assert Decode(data) == DecodeBody(9, body) == UpdateUserCardBody(body);
    var p := UnpackStrings(4, body).value;
    var ins := UpdateUserCard(p.value[0], p.value[1], p.value[2], p.value[3]);
    assert Decode(data) == Ok(ins);
    assert Strings(ins) == p.value;
    StringsExact(data, ins, p.rest);
  }

  lemma DecodeExactAmount(data: seq<byte>)
    requires Decode(data).Ok? && (data[0] == 3 || data[0] == 6)
    ensures var ins := Decode(data).value;
            WellFormed(ins) && data == Encode(ins)
  {
    var ins := Decode(data).value;
    assert Body(ins) == data[1..];
    assert data == [data[0]] + data[1..];
  }

  /**
   * The converse of the round trip: whatever decodes is well formed and the
   * data starts with its canonical encoding, which is the whole data for a
   * fixed-length instruction.
   */
  lemma DecodeExact(data: seq<byte>)
    requires Decode(data).Ok?
    ensures var ins := Decode(data).value;
            WellFormed(ins) && |Encode(ins)| <= |data| && data[..|Encode(ins)|] == Encode(ins)
            && (FixedLength(ins) ==> data == Encode(ins))
  {
    var ins := Decode(data).value;
    if data[0] == 4 {
      DecodeExactCreateRaid(data);
    } else if data[0] == 2 {
      DecodeExactCreateRaidProgram(data);
    } else if data[0] == 9 {
      DecodeExactUpdateUserCard(data);
    } else if data[0] == 3 || data[0] == 6 {
      DecodeExactAmount(data);
    } else {
      assert Encode(ins) == [data[0]];
    }
  }
}

=== FILE: list_card.dfy ===
/**
 * The program-wide index accounts that hold one comma-terminated key list:
 * `ProgramRaidProgramsStateCard` (all raid programs) and
 * `ProgramRaidsStateCard` (all raids), each with a hand-written codec in
 * smart-contract/src/lib.rs that reads and writes one length-prefixed
 * string and reports `4 + len` bytes, and `ProgramCompetitionsStateCard`
 * (all competitions), which has the same bytes and is read only by the
 * derived Borsh reader.
 */
module ListCards {
  import opened Bytes
  import opened Wrappers
  import opened Borsh
  import opened Fields

  datatype ListCard = ListCard(keys: seq<byte>)

  const LAYOUT: seq<Kind> := [StrKind]

  lemma LayoutPlain()
    ensures Plain(LAYOUT)
  {
  }

  function ToFields(c: ListCard): (r: seq<Value>)
    ensures Conforms(r, LAYOUT)
  {
    [Str(c.keys)]
  }

  function FromFields(vs: seq<Value>): (c: ListCard)
    requires Conforms(vs, LAYOUT)
    ensures ToFields(c) == vs
  {
    ListCard(vs[0].str)
  }

  predicate WellFormed(c: ListCard) { AllOk(ToFields(c)) }

  function Encode(c: ListCard): (r: seq<byte>)
    ensures r == EncString(c.keys)
  {
    var vs := ToFields(c);
    assert vs[1..] == [];
    EncodeFields(vs)
  }

  /** `custom_serialize`: write at the front of the account or fail with `AccountDataTooSmall`. */
  function Serialize(c: ListCard, buf: seq<byte>): (r: Result<(seq<byte>, nat), ProgramError>)
    ensures r.Ok? <==> 4 + |c.keys| <= |buf|
    ensures r.Err? ==> r.error == AccountDataTooSmall
    ensures r.Ok? ==> r.value.1 == 4 + |c.keys|
    ensures r.Ok? ==> |r.value.0| == |buf| && r.value.0[..r.value.1] == Encode(c)
                      && r.value.0[r.value.1..] == buf[r.value.1..]
  {
    var enc := Encode(c);
    var out :- WriteInto(enc, buf);
    Ok((out, |enc|))
  }

  /** `custom_deserialize`: one string; the reported position is `4 + len`. */
  function Decode(data: seq<byte>): (r: Result<Decoded<ListCard>, ProgramError>)
    ensures r.Err? ==> r.error == InvalidAccountData
    ensures r.Ok? ==> WellFormed(r.value.value) && r.value.consumed == 4 + |r.value.value.keys| <= |data|
    ensures r.Ok? <==> |data| >= 4 && 4 + LeValue(data[..4]) <= |data|
                       && ValidUtf8(data[4..4 + LeValue(data[..4])])
  {
    var p :- DecodeFields(LAYOUT, data);
    var vs := p.value;
    assert vs[1..] == [];
    Ok(Decoded(FromFields(vs), TotalWidth(vs)))
  }

  /** Decoding what the serializer wrote gives the list back; bytes read equal bytes written. */
  lemma RoundTrip(c: ListCard, rest: seq<byte>)
    requires WellFormed(c)
    ensures Decode(Encode(c) + rest) == Ok(Decoded(c, |Encode(c)|))
  {
    ConformsKinds(ToFields(c), LAYOUT);
    FieldsRoundTrip(ToFields(c), rest);
  }

  /**
   * `ProgramCompetitionsStateCard::try_from_slice`: the derived reader over the whole account,
   * which accepts exactly the encoding of a storable card.
   */
  function TryFromSlice(data: seq<byte>): (r: Result<ListCard, ProgramError>)
    ensures r.Ok? ==> WellFormed(r.value) && Encode(r.value) == data
    ensures r.Err? ==> r.error == BorshIoError
  {
    var vs :- StrictDecode(LAYOUT, data);
    Ok(FromFields(vs))
  }

  /** `try_from_slice` reads a card from its encoding and from nothing else. */
  lemma TryFromSliceExact(c: ListCard, data: seq<byte>)
    requires WellFormed(c)
    ensures TryFromSlice(data) == Ok(c) <==> data == Encode(c)
  {
    ConformsKinds(ToFields(c), LAYOUT);
    StrictDecodeExact(ToFields(c), data);
  }

  /**
   * A card followed by unused account space: `try_from_slice` fails, while
   * the hand-written decoder reads the card back.
   */
  lemma TrailingSpaceRejected(c: ListCard, tail: seq<byte>)
    requires WellFormed(c) && tail != []
    ensures TryFromSlice(Encode(c) + tail) == Err(BorshIoError)
    ensures Decode(Encode(c) + tail) == Ok(Decoded(c, |Encode(c)|))
  {
    ConformsKinds(ToFields(c), LAYOUT);
    TrailingBytesRejected(ToFields(c), tail);
    RoundTrip(c, tail);
  }

  /** A handler's read of the account, in either mode. */
  function ReadAccount(mode: ReadMode, data: seq<byte>): (r: Result<ListCard, ProgramError>)
    ensures r.Ok? ==> WellFormed(r.value)
    ensures r.Err? ==> r.error == (if mode == Strict then BorshIoError else InvalidAccountData)
    ensures mode == Strict && r.Ok? ==> data == Encode(r.value)
  {
    if mode == Strict then TryFromSlice(data)
    else
      var d :- Decode(data);
      Ok(d.value)
  }

  /**
   * An account holding a card followed by `tail`: the lenient read gives
   * the card back whatever the tail, the strict read only when there is no
   * tail at all.
   */
  lemma ReadStored(c: ListCard, tail: seq<byte>)
    requires WellFormed(c)
    ensures ReadAccount(Lenient, Encode(c) + tail) == Ok(c)
    ensures ReadAccount(Strict, Encode(c) + tail) == if tail == [] then Ok(c) else Err(BorshIoError)
  {
    RoundTrip(c, tail);
    if tail == [] {
      assert Encode(c) + tail == Encode(c);
      TryFromSliceExact(c, Encode(c));
    } else {
      TrailingSpaceRejected(c, tail);
    }
  }
}

=== FILE: program_state.dfy ===
/**
 * `ProgramStateCard`, the program-wide singleton account, and its
 * hand-written codec (smart-contract/src/lib.rs). It holds the JSON text of
 * the last competition seen per type and two `u64` counters.
 *
 * The decoder recovers all three fields, but it never moves its cursor past
 * the last counter, so the position it reports is 8 bytes short of what it
 * read. `DecodeAsWritten` models that; `Decode` reports the full width and
 * is the decoder the rest of the model uses.
 */
module ProgramStates {
  import opened Bytes
  import opened Wrappers
  import opened Borsh
  import opened Fields

  datatype ProgramStateCard = ProgramStateCard(
    lastSeenRaids: seq<byte>,   // JSON: competition type -> { sequence, competition_id }
    registeredProgramsCount: nat,
    registeredUsersCount: nat)

  const LAYOUT: seq<Kind> := [StrKind, U64Kind, U64Kind]

  lemma LayoutPlain()
    ensures Plain(LAYOUT)
  {
  }

  function ToFields(c: ProgramStateCard): (r: seq<Value>)
    ensures Conforms(r, LAYOUT)
  {
    [Str(c.lastSeenRaids), U64(c.registeredProgramsCount), U64(c.registeredUsersCount)]
  }

  function FromFields(vs: seq<Value>): (c: ProgramStateCard)
    requires Conforms(vs, LAYOUT)
    ensures ToFields(c) == vs
  {
    ProgramStateCard(vs[0].str, vs[1].num, vs[2].num)
  }

  predicate WellFormed(c: ProgramStateCard) { AllOk(ToFields(c)) }

  /** The serializer writes the length as `len as u32`, then the bytes, then both counters. */
  function Encode(c: ProgramStateCard): (r: seq<byte>)
    ensures r == U32Bytes(|c.lastSeenRaids|) + c.lastSeenRaids
                 + U64Bytes(c.registeredProgramsCount) + U64Bytes(c.registeredUsersCount)
  {
    var vs := ToFields(c);
    assert vs[1..][1..][1..] == [];
    assert EncodeFields(vs[1..][1..]) == U64Bytes(c.registeredUsersCount);
    assert EncodeFields(vs[1..]) == U64Bytes(c.registeredProgramsCount) + U64Bytes(c.registeredUsersCount);
    EncodeFields(vs)
  }

  /** `custom_serialize`: write at the front of the account or fail with `AccountDataTooSmall`. */
  function Serialize(c: ProgramStateCard, buf: seq<byte>): (r: Result<(seq<byte>, nat), ProgramError>)
    ensures r.Ok? <==> 4 + |c.lastSeenRaids| + 16 <= |buf|
    ensures r.Err? ==> r.error == AccountDataTooSmall
    ensures r.Ok? ==> r.value.1 == 4 + |c.lastSeenRaids| + 16
    ensures r.Ok? ==> |r.value.0| == |buf| && r.value.0[..r.value.1] == Encode(c)
                      && r.value.0[r.value.1..] == buf[r.value.1..]
  {
    var enc := Encode(c);
    var out :- WriteInto(enc, buf);
    Ok((out, |enc|))
  }

  /**
   * `custom_deserialize` as written: the cursor is moved past the length
   * field, the string and the first counter, but not past the second
   * counter, so the reported position is `4 + len + 8`.
   */
  function DecodeAsWritten(data: seq<byte>): (r: Result<Decoded<ProgramStateCard>, ProgramError>)
    ensures r.Err? ==> r.error == InvalidAccountData
    ensures r.Ok? ==> WellFormed(r.value.value)
                      && r.value.consumed + 8 <= |data|
                      && r.value.consumed == 4 + |r.value.value.lastSeenRaids| + 8
  {
    var p :- DecodeFields(LAYOUT, data);
    var c := FromFields(p.value);
    Ok(Decoded(c, 4 + |c.lastSeenRaids| + 8))
  }

  /** The decoder with the cursor advanced past every field it read. */
  function Decode(data: seq<byte>): (r: Result<Decoded<ProgramStateCard>, ProgramError>)
    ensures r.Err? ==> r.error == InvalidAccountData
    ensures r.Ok? ==> WellFormed(r.value.value) && r.value.consumed <= |data|
  {
    var p :- DecodeFields(LAYOUT, data);
    Ok(Decoded(FromFields(p.value), TotalWidth(p.value)))
  }

  /** Decoding what the serializer wrote gives the card back; bytes read equal bytes written. */
  lemma RoundTrip(c: ProgramStateCard, rest: seq<byte>)
    requires WellFormed(c)
    ensures Decode(Encode(c) + rest) == Ok(Decoded(c, |Encode(c)|))
  {
    ConformsKinds(ToFields(c), LAYOUT);
    FieldsRoundTrip(ToFields(c), rest);
  }

  /**
   * The decoder as written recovers every field of what the serializer
   * wrote, but reports 8 bytes fewer than the serializer wrote.
   */
  lemma ConsumedShortOfWritten(c: ProgramStateCard, rest: seq<byte>)
    requires WellFormed(c)
    ensures DecodeAsWritten(Encode(c) + rest) == Ok(Decoded(c, |Encode(c)| - 8))
  {
    RoundTrip(c, rest);
    DecodersAgreeOnValue(Encode(c) + rest);
  }

  /** Both decoders accept the same accounts and return the same card. */
  lemma DecodersAgreeOnValue(data: seq<byte>)
    ensures DecodeAsWritten(data).Ok? <==> Decode(data).Ok?
    ensures Decode(data).Ok? ==>
              DecodeAsWritten(data).value.value == Decode(data).value.value
              && DecodeAsWritten(data).value.consumed + 8 == Decode(data).value.consumed
  {
    if Decode(data).Ok? {
      LayoutWidth(DecodeFields(LAYOUT, data).value.value);
    }
  }

  /** A field list of this layout spans the string, its length prefix and two counters. */
  lemma LayoutWidth(vs: seq<Value>)
    requires Conforms(vs, LAYOUT)
    ensures TotalWidth(vs) == 4 + |vs[0].str| + 16
  {
    assert KindOf(vs[0]) == StrKind && KindOf(vs[1]) == U64Kind && KindOf(vs[2]) == U64Kind;
    assert vs[1..][1..][1..] == [];
    assert TotalWidth(vs[1..][1..]) == 8;
  }
}

=== FILE: raid_program_card.dfy ===
/**
 * `RaidProgramCard`, the account record of one raid program, and its
 * hand-written codec (`RaidProgramCard::custom_serialize` /
 * `custom_deserialize` in smart-contract/src/lib.rs). Field order: program
 * key, name, description, owner key, picture URL, PvP requests, raids, raid
 * flag, active raid key, five `u64` counters.
 */
module RaidProgramCards {
  import opened Bytes
  import opened Wrappers
  import opened Borsh
  import opened Fields

  datatype RaidProgramCard = RaidProgramCard(
    raidProgramId: Pubkey,
    name: seq<byte>,
    description: seq<byte>,
    userKey: Pubkey,
    profilePictureUrl: seq<byte>,
    pvpRequests: seq<byte>,       // comma-terminated list
    raids: seq<byte>,             // comma-terminated list of raid keys
    isConductingRaid: bool,
    activeRaidId: Pubkey,
    size: nat,
    totalRewardsDistributed: nat,
    totalRaidWins: nat,
    totalRaidsPartaken: nat,
    programRank: nat)

  const LAYOUT: seq<Kind> := [KeyKind, StrKind, StrKind, KeyKind, StrKind, StrKind, StrKind,
                              BoolKind, KeyKind, U64Kind, U64Kind, U64Kind, U64Kind, U64Kind]

  /** The card as the field list the serializer walks. */
  function ToFields(c: RaidProgramCard): (r: seq<Value>)
    ensures Conforms(r, LAYOUT)
  {
    [Key(c.raidProgramId), Str(c.name), Str(c.description), Key(c.userKey),
     Str(c.profilePictureUrl), Str(c.pvpRequests), Str(c.raids), Bool(c.isConductingRaid),
     Key(c.activeRaidId), U64(c.size), U64(c.totalRewardsDistributed), U64(c.totalRaidWins),
     U64(c.totalRaidsPartaken), U64(c.programRank)]
  }

  function FromFields(vs: seq<Value>): (c: RaidProgramCard)
    requires Conforms(vs, LAYOUT)
    ensures ToFields(c) == vs
  {
    RaidProgramCard(vs[0].key, vs[1].str, vs[2].str, vs[3].key, vs[4].str, vs[5].str, vs[6].str,
                    vs[7].flag, vs[8].key, vs[9].num, vs[10].num, vs[11].num, vs[12].num,
                    vs[13].num)
  }

  lemma LayoutPlain()
    ensures Plain(LAYOUT)
  {
  }

  predicate WellFormed(c: RaidProgramCard) { AllOk(ToFields(c)) }

  /** A card is well formed exactly when each field fits its Rust type. */
  lemma WellFormedFields(c: RaidProgramCard)
    ensures WellFormed(c) <==>
              IsKey(c.raidProgramId) && StrOk(c.name) && StrOk(c.description) && IsKey(c.userKey)
              && StrOk(c.profilePictureUrl) && StrOk(c.pvpRequests) && StrOk(c.raids) && IsKey(c.activeRaidId)
              && U64Ok(c.size) && U64Ok(c.totalRewardsDistributed) && U64Ok(c.totalRaidWins)
              && U64Ok(c.totalRaidsPartaken) && U64Ok(c.programRank)
  {
    var vs := ToFields(c);
    assert ValueOk(vs[0]) && ValueOk(vs[1]) && ValueOk(vs[2]) && ValueOk(vs[3]) && ValueOk(vs[4])
           && ValueOk(vs[5]) && ValueOk(vs[6]) && ValueOk(vs[7]) && ValueOk(vs[8]) && ValueOk(vs[9])
           && ValueOk(vs[10]) && ValueOk(vs[11]) && ValueOk(vs[12]) && ValueOk(vs[13])
       <==> AllOk(vs);
  }

  function Encode(c: RaidProgramCard): seq<byte> { EncodeFields(ToFields(c)) }

  /** `custom_serialize`: as for every record, write at the front or fail with `AccountDataTooSmall`. */
  function Serialize(c: RaidProgramCard, buf: seq<byte>): (r: Result<(seq<byte>, nat), ProgramError>)
    ensures r.Ok? <==> |Encode(c)| <= |buf|
    ensures r.Err? ==> r.error == AccountDataTooSmall
    ensures r.Ok? ==> r.value.1 == |Encode(c)|
    ensures r.Ok? ==> |r.value.0| == |buf| && r.value.0[..r.value.1] == Encode(c)
                      && r.value.0[r.value.1..] == buf[r.value.1..]
  {
    var enc := Encode(c);
    var out :- WriteInto(enc, buf);
    Ok((out, |enc|))
  }

  /**
   * `custom_deserialize`: the bool is read with the strict Borsh rule, so a
   * raid-flag byte other than 0 or 1 makes the whole decode fail.
   */
  function Decode(data: seq<byte>): (r: Result<Decoded<RaidProgramCard>, ProgramError>)
    ensures r.Err? ==> r.error == InvalidAccountData
    ensures r.Ok? ==> WellFormed(r.value.value) && r.value.consumed <= |data|
  {
    var p :- DecodeFields(LAYOUT, data);
    Ok(Decoded(FromFields(p.value), TotalWidth(p.value)))
  }

  /** Decoding what the serializer wrote gives the card back; bytes read equal bytes written. */
  lemma RoundTrip(c: RaidProgramCard, rest: seq<byte>)
    requires WellFormed(c)
    ensures Decode(Encode(c) + rest) == Ok(Decoded(c, |Encode(c)|))
  {
    ConformsKinds(ToFields(c), LAYOUT);
    FieldsRoundTrip(ToFields(c), rest);
  }

  /** A successful decode read exactly the encoding of the card it returns. */
  lemma DecodeExact(data: seq<byte>)
    requires Decode(data).Ok?
    ensures var d := Decode(data).value;
            d.consumed == |Encode(d.value)| && data[..d.consumed] == Encode(d.value)
  {
    LayoutPlain();
    var p := DecodeFields(LAYOUT, data).value;
    DecodeFieldsExact(LAYOUT, data);
    assert ToFields(FromFields(p.value)) == p.value;
  }

  /** Serializing into an account and decoding the account gives the card back. */
  lemma SerializeThenDecode(c: RaidProgramCard, buf: seq<byte>)
    requires WellFormed(c) && Serialize(c, buf).Ok?
    ensures var (out, n) := Serialize(c, buf).value;
            Decode(out) == Ok(Decoded(c, n))
  {
    var (out, n) := Serialize(c, buf).value;
    assert out == Encode(c) + buf[n..];
    RoundTrip(c, buf[n..]);
  }

  /**
   * `RaidProgramCard::try_from_slice`: the derived reader over the whole account,
   * which accepts exactly the encoding of a storable card.
   */
  function TryFromSlice(data: seq<byte>): (r: Result<RaidProgramCard, ProgramError>)
    ensures r.Ok? ==> WellFormed(r.value) && Encode(r.value) == data
    ensures r.Err? ==> r.error == BorshIoError
  {
    var vs :- StrictDecode(LAYOUT, data);
    Ok(FromFields(vs))
  }

  /** `try_from_slice` reads a card from its encoding and from nothing else. */
  lemma TryFromSliceExact(c: RaidProgramCard, data: seq<byte>)
    requires WellFormed(c)
    ensures TryFromSlice(data) == Ok(c) <==> data == Encode(c)
  {
    ConformsKinds(ToFields(c), LAYOUT);
    StrictDecodeExact(ToFields(c), data);
  }

  /**
   * A card followed by unused account space: `try_from_slice` fails, while
   * the hand-written decoder reads the card back.
   */
  lemma TrailingSpaceRejected(c: RaidProgramCard, tail: seq<byte>)
    requires WellFormed(c) && tail != []
    ensures TryFromSlice(Encode(c) + tail) == Err(BorshIoError)
    ensures Decode(Encode(c) + tail) == Ok(Decoded(c, |Encode(c)|))
  {
    ConformsKinds(ToFields(c), LAYOUT);
    TrailingBytesRejected(ToFields(c), tail);
    RoundTrip(c, tail);
  }

  /** A handler's read of the account, in either mode. */
  function ReadAccount(mode: ReadMode, data: seq<byte>): (r: Result<RaidProgramCard, ProgramError>)
    ensures r.Ok? ==> WellFormed(r.value)
    ensures r.Err? ==> r.error == (if mode == Strict then BorshIoError else InvalidAccountData)
    ensures mode == Strict && r.Ok? ==> data == Encode(r.value)
  {
    if mode == Strict then TryFromSlice(data)
    else
      var d :- Decode(data);
      Ok(d.value)
  }

  /**
   * An account holding a card followed by `tail`: the lenient read gives
   * the card back whatever the tail, the strict read only when there is no
   * tail at all.
   */
  lemma ReadStored(c: RaidProgramCard, tail: seq<byte>)
    requires WellFormed(c)
    ensures ReadAccount(Lenient, Encode(c) + tail) == Ok(c)
    ensures ReadAccount(Strict, Encode(c) + tail) == if tail == [] then Ok(c) else Err(BorshIoError)
  {
    RoundTrip(c, tail);
    if tail == [] {
      assert Encode(c) + tail == Encode(c);
      TryFromSliceExact(c, Encode(c));
    } else {
      TrailingSpaceRejected(c, tail);
    }
  }

  /** The bytes a card takes: 61 fixed bytes besides the two keys and the five strings. */
  lemma EncodeLength(c: RaidProgramCard)
    ensures |Encode(c)| == |c.raidProgramId| + |c.userKey| + |c.activeRaidId| + 61 + |c.name| + |c.description|
                           + |c.profilePictureUrl| + |c.pvpRequests| + |c.raids|
  {
    var vs := ToFields(c);
    TotalWidthAll(vs);
    assert WidthSum(vs, 1) == WidthSum(vs, 0) + Width(vs[0]);
    assert WidthSum(vs, 2) == WidthSum(vs, 1) + Width(vs[1]);
    assert WidthSum(vs, 3) == WidthSum(vs, 2) + Width(vs[2]);
    assert WidthSum(vs, 4) == WidthSum(vs, 3) + Width(vs[3]);
    assert WidthSum(vs, 5) == WidthSum(vs, 4) + Width(vs[4]);
    assert WidthSum(vs, 6) == WidthSum(vs, 5) + Width(vs[5]);
    assert WidthSum(vs, 7) == WidthSum(vs, 6) + Width(vs[6]);
    assert WidthSum(vs, 8) == WidthSum(vs, 7) + Width(vs[7]);
    assert WidthSum(vs, 9) == WidthSum(vs, 8) + Width(vs[8]);
    assert WidthSum(vs, 10) == WidthSum(vs, 9) + Width(vs[9]);
    assert WidthSum(vs, 11) == WidthSum(vs, 10) + Width(vs[10]);
    assert WidthSum(vs, 12) == WidthSum(vs, 11) + Width(vs[11]);
    assert WidthSum(vs, 13) == WidthSum(vs, 12) + Width(vs[12]);
    assert WidthSum(vs, 14) == WidthSum(vs, 13) + Width(vs[13]);
  }
}

=== FILE: rewrite.dfy ===
/**
 * The in-place update every instruction applies to a card account
 * (smart-contract/src/lib.rs): decode the card and note how many bytes the
 * decoder read, change it, serialize it back at the front of the account,
 * and, when the new encoding is shorter than what was read, clear the
 * bytes between the two with zeros.
 */
module Rewrites {
  import opened Bytes
  import opened Wrappers
  import opened Borsh
  import Fields
  import ProgramStates
  import UserCards
  import CompetitionCards

  /**
   * The account after the rewrite: the new encoding at the front, zeros up
   * to the number of bytes the decoder read, and the old bytes after that.
   */
  function Rewritten(account: seq<byte>, enc: seq<byte>, bytesRead: nat): (r: seq<byte>)
    requires |enc| <= |account| && bytesRead <= |account|
    ensures |r| == |account|
  {
    seq(|account|, i requires 0 <= i < |account| =>
      if i < |enc| then enc[i] else if i < bytesRead then 0 else account[i])
  }

  /**
   * The rewrite as a result: `AccountDataTooSmall` when the new encoding
   * does not fit the account; otherwise the encoding at the front, zeros
   * up to the bytes the decoder read, and the old bytes after that.
   */
  function Store(account: seq<byte>, enc: seq<byte>, bytesRead: nat): (r: Result<seq<byte>, ProgramError>)
    requires bytesRead <= |account|
    ensures r.Ok? <==> |enc| <= |account|
    ensures r.Err? ==> r.error == AccountDataTooSmall
    ensures r.Ok? ==> |r.value| == |account| && r.value[..|enc|] == enc
    ensures r.Ok? ==> forall i | |enc| <= i < |account| :: r.value[i] == if i < bytesRead then 0 else account[i]
  {
    if |enc| > |account| then Err(AccountDataTooSmall) else Ok(Rewritten(account, enc, bytesRead))
  }

  /** A stored account is the new encoding followed by the rest of the account. */
  lemma StoredSplit(account: seq<byte>, enc: seq<byte>, bytesRead: nat)
    requires bytesRead <= |account| && Store(account, enc, bytesRead).Ok?
    ensures var out := Store(account, enc, bytesRead).value;
            out == enc + out[|enc|..]
  {
    var out := Store(account, enc, bytesRead).value;
    assert out[..|enc|] == enc;
  }

  /**
   * The rewrite as the instructions perform it: serialize (which fails
   * with `AccountDataTooSmall` when the account is too short), then clear
   * `[written, bytes_read)` one byte at a time.
   */
  method Rewrite(account: seq<byte>, enc: seq<byte>, bytesRead: nat) returns (r: Result<seq<byte>, ProgramError>)
    requires bytesRead <= |account|
    ensures r.Ok? <==> |enc| <= |account|
    ensures r.Err? ==> r.error == AccountDataTooSmall
    ensures r.Ok? ==> r.value == Rewritten(account, enc, bytesRead)
    ensures r == Store(account, enc, bytesRead)
  {
    if |enc| > |account| {
      return Err(AccountDataTooSmall);
    }
    var out := enc + account[|enc|..];
    var i := |enc|;
    while i < bytesRead
      invariant |enc| <= i && (i <= bytesRead || i == |enc|)
      invariant |out| == |account|
      invariant forall j :: 0 <= j < |out| ==>
                  out[j] == (if j < |enc| then enc[j] else if j < i then 0 else account[j])
    {
      out := out[i := 0];
      i := i + 1;
    }
    return Ok(out);
  }

  /**
   * When the old card was read in full from a clean account, the rewritten
   * account is the new encoding followed by zeros, whatever the two lengths.
   */
  lemma CleanRewrite(account: seq<byte>, enc: seq<byte>, bytesRead: nat)
    requires |enc| <= |account| && bytesRead <= |account| && ZeroFrom(account, bytesRead)
    ensures Rewritten(account, enc, bytesRead) == enc + Zeros(|account| - |enc|)
  {
    var r := Rewritten(account, enc, bytesRead);
    var z := enc + Zeros(|account| - |enc|);
    assert forall i :: 0 <= i < |account| ==> r[i] == z[i];
  }

  /** A user card rewritten in a clean account decodes to the new card and stays clean. */
  lemma UserCardRewrite(before: UserCards.UserCard, after: UserCards.UserCard, account: seq<byte>)
    requires UserCards.WellFormed(before) && UserCards.WellFormed(after)
    requires |UserCards.Encode(before)| <= |account| && account[..|UserCards.Encode(before)|] == UserCards.Encode(before)
    requires ZeroFrom(account, |UserCards.Encode(before)|)
    requires |UserCards.Encode(after)| <= |account|
    ensures UserCards.Decode(account) == Ok(Decoded(before, |UserCards.Encode(before)|))
    ensures var r := Rewritten(account, UserCards.Encode(after), |UserCards.Encode(before)|);
            UserCards.Decode(r) == Ok(Decoded(after, |UserCards.Encode(after)|))
            && ZeroFrom(r, |UserCards.Encode(after)|)
  {
    var n := |UserCards.Encode(before)|;
    assert account == UserCards.Encode(before) + account[n..];
    UserCards.RoundTrip(before, account[n..]);
    var enc := UserCards.Encode(after);
    CleanRewrite(account, enc, n);
    UserCards.RoundTrip(after, Zeros(|account| - |enc|));
  }

  /** The same for a competition card, which `create_raid` rewrites when a program joins. */
  lemma CompetitionCardRewrite(before: CompetitionCards.CompetitionCard, after: CompetitionCards.CompetitionCard, account: seq<byte>)
    requires CompetitionCards.WellFormed(before) && CompetitionCards.WellFormed(after)
    requires |CompetitionCards.Encode(before)| <= |account|
    requires account[..|CompetitionCards.Encode(before)|] == CompetitionCards.Encode(before)
    requires ZeroFrom(account, |CompetitionCards.Encode(before)|)
    requires |CompetitionCards.Encode(after)| <= |account|
    ensures CompetitionCards.Decode(account) == Ok(Decoded(before, |CompetitionCards.Encode(before)|))
    ensures var r := Rewritten(account, CompetitionCards.Encode(after), |CompetitionCards.Encode(before)|);
            CompetitionCards.Decode(r) == Ok(Decoded(after, |CompetitionCards.Encode(after)|))
            && ZeroFrom(r, |CompetitionCards.Encode(after)|)
  {
    var n := |CompetitionCards.Encode(before)|;
    assert account == CompetitionCards.Encode(before) + account[n..];
    CompetitionCards.RoundTrip(before, account[n..]);
    var enc := CompetitionCards.Encode(after);
    CleanRewrite(account, enc, n);
    CompetitionCards.RoundTrip(after, Zeros(|account| - |enc|));
  }

  /** With the corrected decoder the program state account is rewritten cleanly too. */
  lemma ProgramStateRewrite(before: ProgramStates.ProgramStateCard, after: ProgramStates.ProgramStateCard, account: seq<byte>)
    requires ProgramStates.WellFormed(before) && ProgramStates.WellFormed(after)
    requires |ProgramStates.Encode(before)| <= |account|
    requires account[..|ProgramStates.Encode(before)|] == ProgramStates.Encode(before)
    requires ZeroFrom(account, |ProgramStates.Encode(before)|)
    requires |ProgramStates.Encode(after)| <= |account|
    ensures ProgramStates.Decode(account) == Ok(Decoded(before, |ProgramStates.Encode(before)|))
    ensures var r := Rewritten(account, ProgramStates.Encode(after), |ProgramStates.Encode(before)|);
            ProgramStates.Decode(r) == Ok(Decoded(after, |ProgramStates.Encode(after)|))
            && ZeroFrom(r, |ProgramStates.Encode(after)|)
  {
    var n := |ProgramStates.Encode(before)|;
    assert account == ProgramStates.Encode(before) + account[n..];
    ProgramStates.RoundTrip(before, account[n..]);
    var enc := ProgramStates.Encode(after);
    CleanRewrite(account, enc, n);
    ProgramStates.RoundTrip(after, Zeros(|account| - |enc|));
  }

  lemma {:induction false} LeValueOfZeros(s: seq<byte>)
    requires ZeroFrom(s, 0)
    ensures LeValue(s) == 0
  {
    if |s| > 0 {
      assert ZeroFrom(s[1..], 0);
      LeValueOfZeros(s[1..]);
    }
  }

  /**
   * With the decoder as written, the position it reports stops 8 bytes
   * short, so when the state shrinks by 8 bytes or more (the last-seen JSON
   * is re-printed, and the competition ids in it vary in printed width) the
   * old user counter is left behind in the unused space.
   */
  lemma ProgramStateRewriteLeavesStaleBytes(before: ProgramStates.ProgramStateCard,
                                            after: ProgramStates.ProgramStateCard, account: seq<byte>)
    requires ProgramStates.WellFormed(before) && ProgramStates.WellFormed(after)
    requires |ProgramStates.Encode(before)| <= |account|
    requires account[..|ProgramStates.Encode(before)|] == ProgramStates.Encode(before)
    requires |ProgramStates.Encode(after)| + 8 <= |ProgramStates.Encode(before)|
    ensures ProgramStates.DecodeAsWritten(account) == Ok(Decoded(before, |ProgramStates.Encode(before)| - 8))
    ensures var n := |ProgramStates.Encode(before)|;
            var r := Rewritten(account, ProgramStates.Encode(after), n - 8);
            r[n - 8..n] == U64Bytes(before.registeredUsersCount)
            && (before.registeredUsersCount != 0 ==> !ZeroFrom(r, |ProgramStates.Encode(after)|))
  {
    var n := |ProgramStates.Encode(before)|;
    assert account == ProgramStates.Encode(before) + account[n..];
    ProgramStates.ConsumedShortOfWritten(before, account[n..]);
    StaleTail(before, after, account);
  }

  /** The last 8 bytes of a program state encoding are its user counter. */
  lemma StateEndsWithUsers(c: ProgramStates.ProgramStateCard)
    ensures var e := ProgramStates.Encode(c);
            |e| >= 8 && e[|e| - 8..] == U64Bytes(c.registeredUsersCount)
  {
  }

  lemma StaleTail(before: ProgramStates.ProgramStateCard, after: ProgramStates.ProgramStateCard, account: seq<byte>)
    requires ProgramStates.WellFormed(before)
    requires |ProgramStates.Encode(before)| <= |account|
    requires account[..|ProgramStates.Encode(before)|] == ProgramStates.Encode(before)
    requires |ProgramStates.Encode(after)| + 8 <= |ProgramStates.Encode(before)|
    ensures var n := |ProgramStates.Encode(before)|;
            var r := Rewritten(account, ProgramStates.Encode(after), n - 8);
            r[n - 8..n] == U64Bytes(before.registeredUsersCount)
            && (before.registeredUsersCount != 0 ==> !ZeroFrom(r, |ProgramStates.Encode(after)|))
  {
    var n := |ProgramStates.Encode(before)|;
    var enc := ProgramStates.Encode(after);
    var tail := U64Bytes(before.registeredUsersCount);
    StateEndsWithUsers(before);
    assert account[n - 8..n] == ProgramStates.Encode(before)[n - 8..] == tail;
    RewrittenKeepsBeyond(account, enc, n - 8, n - 8, n);
    var r := Rewritten(account, enc, n - 8);
    if before.registeredUsersCount != 0 {
      assert ProgramStates.ToFields(before)[2] == Fields.U64(before.registeredUsersCount);
      U64BytesNonzero(before.registeredUsersCount);
      var k :| 0 <= k < 8 && tail[k] != 0;
      assert r[n - 8 + k] == r[n - 8..n][k];
    }
  }

  /** The rewrite leaves every byte at or beyond both the new encoding and the cleared range as it was. */
  lemma RewrittenKeepsBeyond(account: seq<byte>, enc: seq<byte>, bytesRead: nat, from: nat, to: nat)
    requires |enc| <= |account| && bytesRead <= |account|
    requires |enc| <= from && bytesRead <= from && from <= to <= |account|
    ensures Rewritten(account, enc, bytesRead)[from..to] == account[from..to]
  {
  }

  /** A nonzero counter has a nonzero byte. */
  lemma U64BytesNonzero(n: nat)
    requires 0 < n < TWO_64
    ensures !ZeroFrom(U64Bytes(n), 0)
  {
    U64RoundTrip(n);
    if ZeroFrom(U64Bytes(n), 0) {
      LeValueOfZeros(U64Bytes(n));
    }
  }
}

=== FILE: rules.dfy ===
/**
 * The state rules of `process_instruction`'s handlers
 * (smart-contract/src/lib.rs): input limits and the new raid program,
 * the new user card, registering a program or a raid in the comma lists,
 * enrolment, profile updates and the checks before a burn. The rules are
 * stated on decoded cards, and the handlers that read card accounts are
 * stated on the account bytes, read in either `ReadMode`. Signatures,
 * token movement and account creation are outside the model.
 */
module ProgramRules {
  import opened Bytes
  import opened Wrappers
  import opened Borsh
  import opened Text
  import opened CommaLists
  import UserCards
  import RaidProgramCards
  import CompetitionCards
  import ProgramStates
  import ListCards
  import opened CompetitionRules
  import opened Seeds
  import Rewrites
  import ClientEncoders
  import Fields

  /** Byte limits on a new raid program's name, description and picture URL. */
  const MAX_NAME: nat := 32
  const MAX_DESCRIPTION: nat := 256
  const MAX_URL: nat := 128

  /** The all-zero key, `Pubkey::default()`. */
  function DefaultKey(): Pubkey { seq(32, i => 0) }

  const DEFAULT_KEY: Pubkey := DefaultKey()

  /** `u64 += 1`, wrapping as a build without overflow checks does. */
  function Bump(n: nat): (r: nat)
    ensures n + 1 < TWO_64 ==> r == n + 1
    ensures r < TWO_64
  {
    AsU64(n + 1)
  }

  /** The length check `initialize_raid_program` makes before anything else. */
  function CheckInputLimits(name: seq<byte>, description: seq<byte>, url: seq<byte>): (r: Result<(), ProgramError>)
    ensures r.Ok? <==> |name| <= MAX_NAME && |description| <= MAX_DESCRIPTION && |url| <= MAX_URL
    ensures r.Err? ==> r.error == InvalidArgument
  {
    if |name| > MAX_NAME || |description| > MAX_DESCRIPTION || |url| > MAX_URL then Err(InvalidArgument) else Ok(())
  }

  /**
   * The web client's picture URL always passes the URL limit, so the
   * limits reject a client request only for its name or description.
   */
  lemma ClientRequestWithinLimits(name: seq<byte>, description: seq<byte>, account: seq<byte>)
    requires IsBase58(account) && |account| <= 44
    ensures CheckInputLimits(name, description, ClientEncoders.PfpUrl(account)).Ok?
            <==> |name| <= MAX_NAME && |description| <= MAX_DESCRIPTION
  {
  }

  /** An account key a handler was given, and the address it derives for that account. */
  datatype Address = Address(given: Pubkey, derived: Pubkey)

  /** Every given account is at its derived address. */
  predicate AtDerived(addresses: seq<Address>)
  {
    forall i | 0 <= i < |addresses| :: addresses[i].given == addresses[i].derived
  }

  /**
   * `initialize_raid_program`'s card: after the limits, the program state,
   * the program index and the signer's user card (`addresses`) must be at
   * their derived addresses, and the data account must be the derived
   * address and still empty. The card starts with empty lists, no raid and
   * zero counters.
   */
  function NewRaidProgram(addresses: seq<Address>, derived: Pubkey, account: Pubkey, accountEmpty: bool, owner: Pubkey,
                          name: seq<byte>, description: seq<byte>, url: seq<byte>): (r: Result<RaidProgramCards.RaidProgramCard, ProgramError>)
    ensures CheckInputLimits(name, description, url).Err? ==> r == Err(InvalidArgument)
    ensures r.Ok? <==> CheckInputLimits(name, description, url).Ok? && AtDerived(addresses) && account == derived && accountEmpty
    ensures r.Err? && CheckInputLimits(name, description, url).Ok? ==> r.error == InvalidAccountData
    ensures r.Ok? ==>
              var c := r.value;
              c.raidProgramId == account && c.userKey == owner && c.name == name
              && c.description == description && c.profilePictureUrl == url
              && c.pvpRequests == [] && c.raids == [] && !c.isConductingRaid && c.activeRaidId == DEFAULT_KEY
              && c.size == 0 && c.totalRewardsDistributed == 0 && c.totalRaidWins == 0
              && c.totalRaidsPartaken == 0 && c.programRank == 0
  {
    var _ :- CheckInputLimits(name, description, url);
    if !AtDerived(addresses) || account != derived || !accountEmpty then Err(InvalidAccountData)
    else Ok(RaidProgramCards.RaidProgramCard(account, name, description, owner, url, [], [], false, DEFAULT_KEY, 0, 0, 0, 0, 0))
  }

  /**
   * A new raid program's card is one the codec can write and read back,
   * and the input limits keep it well inside its `ACCOUNT_SPACE`-byte
   * account.
   */
  lemma NewRaidProgramStored(addresses: seq<Address>, derived: Pubkey, owner: Pubkey, name: seq<byte>, description: seq<byte>,
                             url: seq<byte>, rest: seq<byte>)
    requires IsKey(derived) && IsKey(owner) && ValidUtf8(name) && ValidUtf8(description) && ValidUtf8(url)
    requires NewRaidProgram(addresses, derived, derived, true, owner, name, description, url).Ok?
    ensures var c := NewRaidProgram(addresses, derived, derived, true, owner, name, description, url).value;
            RaidProgramCards.WellFormed(c) && |RaidProgramCards.Encode(c)| < ACCOUNT_SPACE
            && RaidProgramCards.Decode(RaidProgramCards.Encode(c) + rest) == Ok(Decoded(c, |RaidProgramCards.Encode(c)|))
  {
    var c := NewRaidProgram(addresses, derived, derived, true, owner, name, description, url).value;
    assert ValidUtf8([]) by { AsciiIsUtf8([]); }
    assert RaidProgramCards.WellFormed(c);
    RaidProgramCards.EncodeLength(c);
    RaidProgramCards.RoundTrip(c, rest);
  }

  /**
   * The bookkeeping after a raid program is created: the program count goes
   * up by one, and the program's key is appended to the program index and
   * to its owner's list of owned programs.
   */
  function RegisterRaidProgram(state: ProgramStates.ProgramStateCard, index: ListCards.ListCard, owner: UserCards.UserCard, programText: seq<byte>)
    : (r: (ProgramStates.ProgramStateCard, ListCards.ListCard, UserCards.UserCard))
    ensures r.0 == state.(registeredProgramsCount := Bump(state.registeredProgramsCount))
    ensures r.1.keys == Append(index.keys, programText)
    ensures r.2 == owner.(ownedPrograms := Append(owner.ownedPrograms, programText))
  {
    (state.(registeredProgramsCount := Bump(state.registeredProgramsCount)),
     ListCards.ListCard(Append(index.keys, programText)),
     owner.(ownedPrograms := Append(owner.ownedPrograms, programText)))
  }

  /** Registration adds the program as the last member of both lists. */
  lemma RegisterRaidProgramMembers(state: ProgramStates.ProgramStateCard, index: ListCards.ListCard, owner: UserCards.UserCard, programText: seq<byte>)
    requires Terminated(index.keys) && Terminated(owner.ownedPrograms) && Free(programText, COMMA)
    ensures var (_, index', owner') := RegisterRaidProgram(state, index, owner, programText);
            Members(index'.keys) == Members(index.keys) + [programText]
            && Members(owner'.ownedPrograms) == Members(owner.ownedPrograms) + [programText]
            && Terminated(index'.keys) && Terminated(owner'.ownedPrograms)
  {
    MembersAppend(index.keys, programText);
    MembersAppend(owner.ownedPrograms, programText);
  }

  // ----- the program state counters -----

  /** Which counter of the program state a creation handler bumps. */
  datatype Counter = ProgramsCounter | UsersCounter

  function Counted(state: ProgramStates.ProgramStateCard, counter: Counter): ProgramStates.ProgramStateCard
  {
    match counter
    case ProgramsCounter => state.(registeredProgramsCount := Bump(state.registeredProgramsCount))
    case UsersCounter => state.(registeredUsersCount := Bump(state.registeredUsersCount))
  }

  /**
   * The program-state update of `initialize_raid_program` and
   * `create_user_card`: the state is read with its decoder as written
   * (`InvalidAccountData` when it cannot be), one counter goes up, and the
   * state is rewritten over the bytes the decoder reported, failing with
   * `AccountDataTooSmall` when it does not fit.
   */
  function CountStored(stateData: seq<byte>, counter: Counter): (r: Result<seq<byte>, ProgramError>)
    ensures ProgramStates.DecodeAsWritten(stateData).Err? ==> r == Err(InvalidAccountData)
    ensures r.Err? ==> r.error == InvalidAccountData || r.error == AccountDataTooSmall
    ensures r.Ok? ==>
              ProgramStates.DecodeAsWritten(stateData).Ok? && |r.value| == |stateData|
              && var s := Counted(ProgramStates.DecodeAsWritten(stateData).value.value, counter);
                 r.value[..|ProgramStates.Encode(s)|] == ProgramStates.Encode(s)
  {
    var d :- ProgramStates.DecodeAsWritten(stateData);
    Rewrites.Store(stateData, ProgramStates.Encode(Counted(d.value, counter)), d.consumed)
  }

  /**
   * A counter update never runs out of room, since the state keeps its
   * length, and the account then reads back as the state with that
   * counter bumped and every other field as it was.
   */
  lemma CountStoredReadsBack(stateData: seq<byte>, counter: Counter)
    requires ProgramStates.DecodeAsWritten(stateData).Ok?
    ensures var before := ProgramStates.DecodeAsWritten(stateData).value.value;
            var s := Counted(before, counter);
            CountStored(stateData, counter).Ok?
            && ProgramStates.Decode(CountStored(stateData, counter).value) == Ok(Decoded(s, |ProgramStates.Encode(s)|))
            && s.lastSeenRaids == before.lastSeenRaids
            && (counter == ProgramsCounter ==> s.registeredUsersCount == before.registeredUsersCount
                                               && s.registeredProgramsCount == Bump(before.registeredProgramsCount))
            && (counter == UsersCounter ==> s.registeredProgramsCount == before.registeredProgramsCount
                                            && s.registeredUsersCount == Bump(before.registeredUsersCount))
  {
    var d := ProgramStates.DecodeAsWritten(stateData).value;
    var s := Counted(d.value, counter);
    CountedWellFormed(d.value, counter);
    var enc := ProgramStates.Encode(s);
    var out := CountStored(stateData, counter).value;
    Rewrites.StoredSplit(stateData, enc, d.consumed);
    ProgramStates.RoundTrip(s, out[|enc|..]);
  }

  /** Bumping a counter keeps a storable state storable. */
  lemma CountedWellFormed(state: ProgramStates.ProgramStateCard, counter: Counter)
    requires ProgramStates.WellFormed(state)
    ensures ProgramStates.WellFormed(Counted(state, counter))
  {
    var vs := ProgramStates.ToFields(state);
    assert Fields.ValueOk(vs[0]);
    match counter
    case ProgramsCounter =>
      Fields.AllOkUpdate(vs, 1, Fields.U64(Bump(state.registeredProgramsCount)));
      assert ProgramStates.ToFields(Counted(state, counter)) == vs[1 := Fields.U64(Bump(state.registeredProgramsCount))];
    case UsersCounter =>
      Fields.AllOkUpdate(vs, 2, Fields.U64(Bump(state.registeredUsersCount)));
      assert ProgramStates.ToFields(Counted(state, counter)) == vs[2 := Fields.U64(Bump(state.registeredUsersCount))];
  }

  /**
   * `initialize_raid_program`'s writes after the card: the program state's
   * program count, then the program index, then the owner's user card,
   * each read with its own decoder (`InvalidAccountData` when it cannot be)
   * and rewritten in place (`AccountDataTooSmall` when it outgrows its
   * account). The result is the three accounts' new bytes.
   */
  function RegisterRaidProgramStored(stateData: seq<byte>, indexData: seq<byte>, ownerData: seq<byte>, programText: seq<byte>)
    : (r: Result<(seq<byte>, seq<byte>, seq<byte>), ProgramError>)
    ensures ProgramStates.DecodeAsWritten(stateData).Err? ==> r == Err(InvalidAccountData)
    ensures ProgramStates.DecodeAsWritten(stateData).Ok? && ListCards.Decode(indexData).Err? ==> r == Err(InvalidAccountData)
    ensures r.Err? ==> r.error == InvalidAccountData || r.error == AccountDataTooSmall
    ensures ProgramStates.DecodeAsWritten(stateData).Ok? && ListCards.Decode(indexData).Ok? ==>
              var index' := ListCards.ListCard(Append(ListCards.Decode(indexData).value.value.keys, programText));
              (|ListCards.Encode(index')| > |indexData| ==> r == Err(AccountDataTooSmall))
              && (|ListCards.Encode(index')| <= |indexData| && UserCards.Decode(ownerData).Err? ==> r == Err(InvalidAccountData))
    ensures ProgramStates.DecodeAsWritten(stateData).Ok? && ListCards.Decode(indexData).Ok? && UserCards.Decode(ownerData).Ok? ==>
              var (state', index', owner') := RegisterRaidProgram(ProgramStates.DecodeAsWritten(stateData).value.value,
                                                                  ListCards.Decode(indexData).value.value,
                                                                  UserCards.Decode(ownerData).value.value, programText);
              (r.Ok? <==> |ListCards.Encode(index')| <= |indexData| && |UserCards.Encode(owner')| <= |ownerData|)
              && (r.Ok? ==> |r.value.0| == |stateData| && r.value.0[..|ProgramStates.Encode(state')|] == ProgramStates.Encode(state')
                            && |r.value.1| == |indexData| && r.value.1[..|ListCards.Encode(index')|] == ListCards.Encode(index')
                            && |r.value.2| == |ownerData| && r.value.2[..|UserCards.Encode(owner')|] == UserCards.Encode(owner'))
  {
    var _ :- ProgramStates.DecodeAsWritten(stateData);
    CountStoredReadsBack(stateData, ProgramsCounter);
    var state := CountStored(stateData, ProgramsCounter).value;
    var ix :- ListCards.Decode(indexData);
    var index :- Rewrites.Store(indexData, ListCards.Encode(ListCards.ListCard(Append(ix.value.keys, programText))), ix.consumed);
    var o :- UserCards.Decode(ownerData);
    var owner :- Rewrites.Store(ownerData, UserCards.Encode(o.value.(ownedPrograms := Append(o.value.ownedPrograms, programText))), o.consumed);
    Ok((state, index, owner))
  }

  /** A list card grown by one Base58 key is rewritten whenever it fits, and then reads back. */
  lemma ListGrowsInPlace(index: ListCards.ListCard, tail: seq<byte>, keyText: seq<byte>)
    requires ListCards.WellFormed(index) && IsBase58(keyText) && |ListCards.Encode(index) + tail| < TWO_32
    ensures var data := ListCards.Encode(index) + tail;
            var grown := ListCards.ListCard(Append(index.keys, keyText));
            ListCards.Decode(data) == Ok(Decoded(index, |ListCards.Encode(index)|))
            && var r := Rewrites.Store(data, ListCards.Encode(grown), |ListCards.Encode(index)|);
               (r.Ok? <==> |ListCards.Encode(grown)| <= |data|)
               && (r.Ok? ==> ListCards.ReadAccount(Lenient, r.value) == Ok(grown))
  {
    var data := ListCards.Encode(index) + tail;
    var grown := ListCards.ListCard(Append(index.keys, keyText));
    ListCards.RoundTrip(index, tail);
    var r := Rewrites.Store(data, ListCards.Encode(grown), |ListCards.Encode(index)|);
    if r.Ok? {
      GrownListWellFormed(index, keyText);
      Rewrites.StoredSplit(data, ListCards.Encode(grown), |ListCards.Encode(index)|);
      ListCards.ReadStored(grown, r.value[|ListCards.Encode(grown)|..]);
    }
  }

  /** A user card whose owned programs grow by one Base58 key is rewritten whenever it fits, and then reads back. */
  lemma OwnedGrowsInPlace(owner: UserCards.UserCard, tail: seq<byte>, keyText: seq<byte>)
    requires UserCards.WellFormed(owner) && IsBase58(keyText) && |UserCards.Encode(owner) + tail| < TWO_32
    ensures var data := UserCards.Encode(owner) + tail;
            var grown := owner.(ownedPrograms := Append(owner.ownedPrograms, keyText));
            UserCards.Decode(data) == Ok(Decoded(owner, |UserCards.Encode(owner)|))
            && var r := Rewrites.Store(data, UserCards.Encode(grown), |UserCards.Encode(owner)|);
               (r.Ok? <==> |UserCards.Encode(grown)| <= |data|)
               && (r.Ok? ==> UserCards.ReadAccount(Lenient, r.value) == Ok(grown))
  {
    var data := UserCards.Encode(owner) + tail;
    var grown := owner.(ownedPrograms := Append(owner.ownedPrograms, keyText));
    UserCards.RoundTrip(owner, tail);
    var r := Rewrites.Store(data, UserCards.Encode(grown), |UserCards.Encode(owner)|);
    if r.Ok? {
      GrownOwnerWellFormed(owner, keyText, |data|);
      Rewrites.StoredSplit(data, UserCards.Encode(grown), |UserCards.Encode(owner)|);
      UserCards.ReadStored(grown, r.value[|UserCards.Encode(grown)|..]);
    }
  }

  /** A user card whose owned programs grow by one Base58 key stays well formed while its encoding fits a 32-bit length. */
  lemma GrownOwnerWellFormed(owner: UserCards.UserCard, keyText: seq<byte>, room: nat)
    requires UserCards.WellFormed(owner) && IsBase58(keyText) && room < TWO_32
    requires |UserCards.Encode(owner.(ownedPrograms := Append(owner.ownedPrograms, keyText)))| <= room
    ensures UserCards.WellFormed(owner.(ownedPrograms := Append(owner.ownedPrograms, keyText)))
  {
    var grown := owner.(ownedPrograms := Append(owner.ownedPrograms, keyText));
    UserCards.WellFormedFields(owner);
    UserCards.WellFormedFields(grown);
    Base58Free(keyText);
    AppendUtf8(owner.ownedPrograms, keyText);
    assert |grown.ownedPrograms| < TWO_32 by { UserCards.EncodeLength(grown); }
  }

  /**
   * On stored cards, the registration writes succeed exactly when the grown
   * index and the grown user card fit their accounts, and the three
   * accounts then read back as `RegisterRaidProgram`'s cards.
   */
  lemma RegisterRaidProgramReadsBack(state: ProgramStates.ProgramStateCard, stateTail: seq<byte>,
                                     index: ListCards.ListCard, indexTail: seq<byte>,
                                     owner: UserCards.UserCard, ownerTail: seq<byte>, programText: seq<byte>)
    requires ProgramStates.WellFormed(state) && ListCards.WellFormed(index) && UserCards.WellFormed(owner)
    requires IsBase58(programText)
    requires |ListCards.Encode(index) + indexTail| < TWO_32 && |UserCards.Encode(owner) + ownerTail| < TWO_32
    ensures var r := RegisterRaidProgramStored(ProgramStates.Encode(state) + stateTail, ListCards.Encode(index) + indexTail,
                                               UserCards.Encode(owner) + ownerTail, programText);
            var (state', index', owner') := RegisterRaidProgram(state, index, owner, programText);
            (r.Ok? <==> |ListCards.Encode(index')| <= |ListCards.Encode(index) + indexTail|
                        && |UserCards.Encode(owner')| <= |UserCards.Encode(owner) + ownerTail|)
            && (r.Err? ==> r.error == AccountDataTooSmall)
            && (r.Ok? ==> ProgramStates.Decode(r.value.0) == Ok(Decoded(state', |ProgramStates.Encode(state')|))
                          && ListCards.ReadAccount(Lenient, r.value.1) == Ok(index')
                          && UserCards.ReadAccount(Lenient, r.value.2) == Ok(owner'))
  {
    var stateData := ProgramStates.Encode(state) + stateTail;
    ProgramStates.ConsumedShortOfWritten(state, stateTail);
    CountStoredReadsBack(stateData, ProgramsCounter);
    ListGrowsInPlace(index, indexTail, programText);
    OwnedGrowsInPlace(owner, ownerTail, programText);
  }

  // ----- user cards -----

  /** The card `create_user_card` writes: the signer's, holding nothing else. */
  function NewUserCard(user: Pubkey): (c: UserCards.UserCard)
    ensures c.userPubkey == user && c.ownedPrograms == [] && c.enrolledPrograms == []
            && !c.isConductingRaid && c.userEmail == [] && c.userDob == [] && c.userTwitterHandle == []
            && c.totalRewards == 0 && c.participatedRaids == 0 && c.raidRanking == 0
            && c.engagementScore == 0 && c.streaks == 0 && c.profilePictureUrl == []
  {
    UserCards.UserCard(user, [], [], false, [], [], [], 0, 0, 0, 0, 0, [])
  }

  /**
   * `create_user_card`: the card account must be the derived address
   * (`InvalidAccountData`) and still empty (`AccountAlreadyInitialized`),
   * and the program state must be at its derived address
   * (`InvalidAccountData`). The new card is written into a fresh
   * `ACCOUNT_SPACE`-byte account, then the user count goes up by one. The
   * result is the card account's and the state account's new bytes.
   */
  function CreateUserCard(derived: Pubkey, account: Pubkey, accountEmpty: bool, user: Pubkey,
                          state: Address, stateData: seq<byte>): (r: Result<(seq<byte>, seq<byte>), ProgramError>)
    ensures account != derived ==> r == Err(InvalidAccountData)
    ensures account == derived && !accountEmpty ==> r == Err(AccountAlreadyInitialized)
    ensures account == derived && accountEmpty && state.given != state.derived ==> r == Err(InvalidAccountData)
    ensures r.Ok? <==> account == derived && accountEmpty && state.given == state.derived
                       && |UserCards.Encode(NewUserCard(user))| <= ACCOUNT_SPACE
                       && ProgramStates.DecodeAsWritten(stateData).Ok?
    ensures r.Ok? ==> Ok(r.value.0) == WriteInto(UserCards.Encode(NewUserCard(user)), Zeros(ACCOUNT_SPACE))
                      && Ok(r.value.1) == CountStored(stateData, UsersCounter)
  {
    if account != derived then Err(InvalidAccountData)
    else if !accountEmpty then Err(AccountAlreadyInitialized)
    else if state.given != state.derived then Err(InvalidAccountData)
    else
      var card :- SerializeInto(UserCards.Encode(NewUserCard(user)), Zeros(ACCOUNT_SPACE));
      var _ :- ProgramStates.DecodeAsWritten(stateData);
      CountStoredReadsBack(stateData, UsersCounter);
      var state' := CountStored(stateData, UsersCounter).value;
      Ok((card, state'))
  }

  /** A new user card is one the codec can write and read back, and it is enrolled in nothing. */
  lemma NewUserCardStored(user: Pubkey, rest: seq<byte>)
    requires IsKey(user)
    ensures var card := NewUserCard(user);
            UserCards.WellFormed(card) && Members(card.enrolledPrograms) == []
            && UserCards.Decode(UserCards.Encode(card) + rest) == Ok(Decoded(card, |UserCards.Encode(card)|))
  {
    var card := NewUserCard(user);
    assert ValidUtf8([]) by { AsciiIsUtf8([]); }
    assert UserCards.WellFormed(card);
    assert Split([], COMMA) == [[]];
    UserCards.RoundTrip(card, rest);
  }

  /**
   * At the derived, empty card address and the state's address,
   * `create_user_card` succeeds exactly when the program state can be
   * read. The new card's 97 bytes leave unused space in its
   * `ACCOUNT_SPACE`-byte account, so `try_from_slice` cannot read the
   * account the handler created, while the card's own decoder can; the
   * state reads back with one more user.
   */
  lemma NewUserCardAccount(derived: Pubkey, user: Pubkey, state: Address, stateData: seq<byte>)
    requires IsKey(user) && state.given == state.derived
    ensures var r := CreateUserCard(derived, derived, true, user, state, stateData);
            var card := NewUserCard(user);
            (r.Ok? <==> ProgramStates.DecodeAsWritten(stateData).Ok?)
            && |UserCards.Encode(card)| == 97
            && (r.Ok? ==> r.value.0 == FreshAccount(UserCards.Encode(card))
                          && UserCards.ReadAccount(Strict, r.value.0) == Err(BorshIoError)
                          && UserCards.ReadAccount(Lenient, r.value.0) == Ok(card)
                          && var before := ProgramStates.DecodeAsWritten(stateData).value.value;
                             ProgramStates.Decode(r.value.1).Ok?
                             && ProgramStates.Decode(r.value.1).value.value
                                == before.(registeredUsersCount := Bump(before.registeredUsersCount)))
  {
    var card := NewUserCard(user);
    NewUserCardStored(user, []);
    UserCards.EncodeLength(card);
    var enc := UserCards.Encode(card);
    UserCards.ReadStored(card, Zeros(ACCOUNT_SPACE - |enc|));
    assert FreshAccount(enc) == enc + Zeros(ACCOUNT_SPACE - |enc|);
    if ProgramStates.DecodeAsWritten(stateData).Ok? {
      CountStoredReadsBack(stateData, UsersCounter);
    }
  }

  // ----- raids -----

  /**
   * What `create_raid` records about the new raid: the program is
   * conducting it, it is the program's active raid, and its key is
   * appended to the program's raids and to the raid index.
   */
  function RecordRaid(program: RaidProgramCards.RaidProgramCard, index: ListCards.ListCard, raidKey: Pubkey, raidText: seq<byte>)
    : (r: (RaidProgramCards.RaidProgramCard, ListCards.ListCard))
    ensures r.0.isConductingRaid && r.0.activeRaidId == raidKey
    ensures r.0.raids == Append(program.raids, raidText) && r.1.keys == Append(index.keys, raidText)
    ensures r.0.(isConductingRaid := program.isConductingRaid, activeRaidId := program.activeRaidId,
                 raids := program.raids) == program
  {
    (ProgramRaided(program, raidKey, raidText), ListCards.ListCard(Append(index.keys, raidText)))
  }

  function ProgramRaided(program: RaidProgramCards.RaidProgramCard, raidKey: Pubkey, raidText: seq<byte>): RaidProgramCards.RaidProgramCard
  {
    program.(isConductingRaid := true, activeRaidId := raidKey, raids := Append(program.raids, raidText))
  }

  /** Recording a raid adds it as the last member of the program's raids and of the raid index. */
  lemma RecordRaidMembers(program: RaidProgramCards.RaidProgramCard, index: ListCards.ListCard, raidKey: Pubkey, raidText: seq<byte>)
    requires Terminated(program.raids) && Terminated(index.keys) && Free(raidText, COMMA)
    ensures var (program', index') := RecordRaid(program, index, raidKey, raidText);
            Members(program'.raids) == Members(program.raids) + [raidText]
            && Members(index'.keys) == Members(index.keys) + [raidText]
            && Terminated(program'.raids) && Terminated(index'.keys)
            && program'.isConductingRaid && program'.activeRaidId == raidKey
  {
    MembersAppend(program.raids, raidText);
    MembersAppend(index.keys, raidText);
  }

  /**
   * `create_raid`'s last two writes: the raid program card is read with
   * its own decoder, records the raid and is rewritten in place; then the
   * raid index is read, gets the raid's key and is rewritten. A card that
   * cannot be read is `InvalidAccountData`, one that outgrows its account
   * `AccountDataTooSmall`. The result is the two accounts' new bytes.
   */
  function RecordRaidStored(programData: seq<byte>, indexData: seq<byte>, raidKey: Pubkey, raidText: seq<byte>)
    : (r: Result<(seq<byte>, seq<byte>), ProgramError>)
    ensures RaidProgramCards.Decode(programData).Err? ==> r == Err(InvalidAccountData)
    ensures r.Err? ==> r.error == InvalidAccountData || r.error == AccountDataTooSmall
    ensures RaidProgramCards.Decode(programData).Ok? ==>
              var program' := ProgramRaided(RaidProgramCards.Decode(programData).value.value, raidKey, raidText);
              (|RaidProgramCards.Encode(program')| > |programData| ==> r == Err(AccountDataTooSmall))
              && (|RaidProgramCards.Encode(program')| <= |programData| && ListCards.Decode(indexData).Err? ==> r == Err(InvalidAccountData))
    ensures RaidProgramCards.Decode(programData).Ok? && ListCards.Decode(indexData).Ok? ==>
              var (program', index') := RecordRaid(RaidProgramCards.Decode(programData).value.value,
                                                   ListCards.Decode(indexData).value.value, raidKey, raidText);
              (r.Ok? <==> |RaidProgramCards.Encode(program')| <= |programData| && |ListCards.Encode(index')| <= |indexData|)
              && (r.Ok? ==> |r.value.0| == |programData| && r.value.0[..|RaidProgramCards.Encode(program')|] == RaidProgramCards.Encode(program')
                            && |r.value.1| == |indexData| && r.value.1[..|ListCards.Encode(index')|] == ListCards.Encode(index'))
  {
    var p :- RaidProgramCards.Decode(programData);
    var program :- Rewrites.Store(programData, RaidProgramCards.Encode(ProgramRaided(p.value, raidKey, raidText)), p.consumed);
    var ix :- ListCards.Decode(indexData);
    var index :- Rewrites.Store(indexData, ListCards.Encode(ListCards.ListCard(Append(ix.value.keys, raidText))), ix.consumed);
    Ok((program, index))
  }

  /**
   * On stored cards, the raid is recorded exactly when the grown program
   * card and the grown index fit their accounts, and the two accounts then
   * read back as `RecordRaid`'s cards.
   */
  lemma RecordRaidReadsBack(program: RaidProgramCards.RaidProgramCard, programTail: seq<byte>,
                            index: ListCards.ListCard, indexTail: seq<byte>, raidKey: Pubkey, raidText: seq<byte>)
    requires RaidProgramCards.WellFormed(program) && ListCards.WellFormed(index) && IsKey(raidKey) && IsBase58(raidText)
    requires |RaidProgramCards.Encode(program) + programTail| < TWO_32 && |ListCards.Encode(index) + indexTail| < TWO_32
    ensures var r := RecordRaidStored(RaidProgramCards.Encode(program) + programTail, ListCards.Encode(index) + indexTail,
                                      raidKey, raidText);
            var (program', index') := RecordRaid(program, index, raidKey, raidText);
            (r.Ok? <==> |RaidProgramCards.Encode(program')| <= |RaidProgramCards.Encode(program) + programTail|
                        && |ListCards.Encode(index')| <= |ListCards.Encode(index) + indexTail|)
            && (r.Err? ==> r.error == AccountDataTooSmall)
            && (r.Ok? ==> RaidProgramCards.ReadAccount(Lenient, r.value.0) == Ok(program')
                          && ListCards.ReadAccount(Lenient, r.value.1) == Ok(index'))
  {
    RaidedGrowsInPlace(program, programTail, raidKey, raidText);
    ListGrowsInPlace(index, indexTail, raidText);
  }

  /** A raid program card that records a raid with a Base58 key is rewritten whenever it fits, and then reads back. */
  lemma RaidedGrowsInPlace(program: RaidProgramCards.RaidProgramCard, tail: seq<byte>, raidKey: Pubkey, raidText: seq<byte>)
    requires RaidProgramCards.WellFormed(program) && IsKey(raidKey) && IsBase58(raidText)
    requires |RaidProgramCards.Encode(program) + tail| < TWO_32
    ensures var data := RaidProgramCards.Encode(program) + tail;
            var grown := ProgramRaided(program, raidKey, raidText);
            RaidProgramCards.Decode(data) == Ok(Decoded(program, |RaidProgramCards.Encode(program)|))
            && var r := Rewrites.Store(data, RaidProgramCards.Encode(grown), |RaidProgramCards.Encode(program)|);
               (r.Ok? <==> |RaidProgramCards.Encode(grown)| <= |data|)
               && (r.Ok? ==> RaidProgramCards.ReadAccount(Lenient, r.value) == Ok(grown))
  {
    var data := RaidProgramCards.Encode(program) + tail;
    var grown := ProgramRaided(program, raidKey, raidText);
    RaidProgramCards.RoundTrip(program, tail);
    var enc := RaidProgramCards.Encode(grown);
    if |enc| <= |data| {
      RaidedWellFormed(program, raidKey, raidText, |data|);
      var out := Rewrites.Store(data, enc, |RaidProgramCards.Encode(program)|).value;
      Rewrites.StoredSplit(data, enc, |RaidProgramCards.Encode(program)|);
      RaidProgramCards.ReadStored(grown, out[|enc|..]);
    }
  }

  /** Recording a raid with a Base58 key keeps a card storable while its raids stay under 2^32 bytes. */
  lemma RaidedWellFormed(program: RaidProgramCards.RaidProgramCard, raidKey: Pubkey, raidText: seq<byte>, room: nat)
    requires RaidProgramCards.WellFormed(program) && IsKey(raidKey) && IsBase58(raidText)
    requires |RaidProgramCards.Encode(ProgramRaided(program, raidKey, raidText))| <= room < TWO_32
    ensures RaidProgramCards.WellFormed(ProgramRaided(program, raidKey, raidText))
  {
    var grown := ProgramRaided(program, raidKey, raidText);
    RaidProgramCards.WellFormedFields(program);
    RaidProgramCards.WellFormedFields(grown);
    Base58Free(raidText);
    AppendUtf8(program.raids, raidText);
    assert |grown.raids| < TWO_32 by { RaidProgramCards.EncodeLength(grown); }
  }

  // ----- the size of the index accounts -----

  /**
   * The program-wide indexes live in `ACCOUNT_SPACE`-byte accounts that
   * never grow. Once an index lists 22 key texts of 43 characters or more,
   * the next key does not fit: registering a competition fails with
   * `BorshIoError`, and the in-place rewrite that registers a raid program
   * or a raid fails with `AccountDataTooSmall`.
   */
  lemma IndexFullAfter22(index: ListCards.ListCard, tail: seq<byte>, keys: seq<seq<byte>>, keyText: seq<byte>)
    requires ListCards.WellFormed(index) && index.keys == AppendAll([], keys) && |keys| >= 22
    requires forall i | 0 <= i < |keys| :: IsBase58(keys[i]) && |keys[i]| >= MIN_KEY_TEXT
    requires IsBase58(keyText) && |keyText| >= MIN_KEY_TEXT
    requires |ListCards.Encode(index) + tail| == ACCOUNT_SPACE
    ensures var data := ListCards.Encode(index) + tail;
            var grown := ListCards.ListCard(Append(index.keys, keyText));
            |ListCards.Encode(grown)| > ACCOUNT_SPACE
            && RegisterCompetition(Lenient, data, keyText) == Err(BorshIoError)
            && Rewrites.Store(data, ListCards.Encode(grown), |ListCards.Encode(index)|) == Err(AccountDataTooSmall)
  {
    AppendAllAtLeast(keys, MIN_KEY_TEXT);
    ListCards.ReadStored(index, tail);
  }

  /**
   * The corrected index write: when the grown list does not fit, the
   * account is first enlarged with zero bytes to the new encoding's
   * length (a `realloc`), and the rewrite then always succeeds.
   */
  function GrowingStore(data: seq<byte>, enc: seq<byte>, bytesRead: nat): (r: seq<byte>)
    requires bytesRead <= |data|
    ensures |r| == if |enc| <= |data| then |data| else |enc|
    ensures r[..|enc|] == enc
    ensures |enc| <= |data| ==> Ok(r) == Rewrites.Store(data, enc, bytesRead)
  {
    var room := if |enc| <= |data| then data else data + Zeros(|enc| - |data|);
    Rewrites.Store(room, enc, bytesRead).value
  }

  /**
   * With the growing write, an index takes every key: whatever its size,
   * the written account reads back as the list with the new key as its
   * last member.
   */
  lemma GrowingIndexTakesEveryKey(index: ListCards.ListCard, tail: seq<byte>, keyText: seq<byte>)
    requires ListCards.WellFormed(index) && Terminated(index.keys) && IsBase58(keyText)
    requires |index.keys| + |keyText| + 1 < TWO_32
    ensures var data := ListCards.Encode(index) + tail;
            var grown := ListCards.ListCard(Append(index.keys, keyText));
            var out := GrowingStore(data, ListCards.Encode(grown), |ListCards.Encode(index)|);
            ListCards.ReadAccount(Lenient, out) == Ok(grown)
            && Members(grown.keys) == Members(index.keys) + [keyText]
  {
    var data := ListCards.Encode(index) + tail;
    var grown := ListCards.ListCard(Append(index.keys, keyText));
    var enc := ListCards.Encode(grown);
    var out := GrowingStore(data, enc, |ListCards.Encode(index)|);
    GrownListWellFormed(index, keyText);
    Base58Free(keyText);
    MembersAppend(index.keys, keyText);
    assert out == enc + out[|enc|..];
    ListCards.ReadStored(grown, out[|enc|..]);
  }

  /** A list grown by one Base58 key text is storable while it stays under 2^32 bytes. */
  lemma GrownListWellFormed(index: ListCards.ListCard, keyText: seq<byte>)
    requires ListCards.WellFormed(index) && IsBase58(keyText) && |index.keys| + |keyText| + 1 < TWO_32
    ensures ListCards.WellFormed(ListCards.ListCard(Append(index.keys, keyText)))
  {
    var grown := ListCards.ListCard(Append(index.keys, keyText));
    assert StrOk(index.keys) by { assert Fields.ValueOk(ListCards.ToFields(index)[0]); }
    Base58Free(keyText);
    AppendUtf8(index.keys, keyText);
    assert Fields.ValueOk(ListCards.ToFields(grown)[0]);
  }

  /**
   * The accounts `create_raid` is given: the program state, raid index and
   * competition index with their derived addresses (`addresses`), the
   * account data of the state, the raid program, the current competition,
   * the competition index and the raid index, the key of the new
   * competition with the address derived for it, and the current and new
   * raid card keys with the addresses derived for them.
   */
  datatype RaidAccounts = RaidAccounts(
    addresses: seq<Address>,
    stateData: seq<byte>,
    programKey: Pubkey, programData: seq<byte>,
    challengedKey: Pubkey,
    currentKey: Pubkey, currentData: seq<byte>,
    newCompetition: Address, newCompetitionEmpty: bool, competitionsIndexData: seq<byte>,
    currentRaid: Address, currentRaidEmpty: bool,
    newRaid: Address, newRaidEmpty: bool,
    raidsIndexData: seq<byte>)

  /**
   * The new bytes of the accounts `create_raid` writes. The competition
   * index and the program state are written only when the raid opens a
   * competition.
   */
  datatype RaidWrites = RaidWrites(competition: seq<byte>, competitionsIndex: Option<seq<byte>>, state: Option<seq<byte>>,
                                   program: seq<byte>, raidsIndex: seq<byte>)

  /**
   * Whether `create_raid` still holds the shared borrow of the program
   * state's data when it writes the state back. As written it does
   * (`HeldBorrow`): the slice taken to measure the cursor keeps the borrow
   * alive to the end of the handler, so the later mutable borrow panics.
   * `ReleasedBorrow` takes only the length and drops the borrow.
   */
  datatype StateBorrow = HeldBorrow | ReleasedBorrow

  /**
   * `create_raid`'s program-state write when it opens a competition: the
   * state is read with its decoder as written (`InvalidAccountData` when it
   * cannot be), its `last_seen_raids` is replaced by `seenText`, the JSON
   * text of the updated sequence map, and it is rewritten over the bytes
   * the decoder reported (`AccountDataTooSmall` when it does not fit).
   */
  function SeenStored(stateData: seq<byte>, seenText: seq<byte>): (r: Result<seq<byte>, ProgramError>)
    ensures ProgramStates.DecodeAsWritten(stateData).Err? ==> r == Err(InvalidAccountData)
    ensures ProgramStates.DecodeAsWritten(stateData).Ok? ==>
              var s := ProgramStates.DecodeAsWritten(stateData).value.value.(lastSeenRaids := seenText);
              (r.Ok? <==> |ProgramStates.Encode(s)| <= |stateData|)
              && (r.Err? ==> r.error == AccountDataTooSmall)
              && (r.Ok? ==> |r.value| == |stateData| && r.value[..|ProgramStates.Encode(s)|] == ProgramStates.Encode(s))
  {
    var d :- ProgramStates.DecodeAsWritten(stateData);
    Rewrites.Store(stateData, ProgramStates.Encode(d.value.(lastSeenRaids := seenText)), d.consumed)
  }

  /**
   * A written sequence map reads back: with valid JSON text, the state
   * account then holds the state with the new text and both counters as
   * they were.
   */
  lemma SeenStoredReadsBack(stateData: seq<byte>, seenText: seq<byte>)
    requires ProgramStates.DecodeAsWritten(stateData).Ok? && StrOk(seenText)
    requires SeenStored(stateData, seenText).Ok?
    ensures var before := ProgramStates.DecodeAsWritten(stateData).value.value;
            var s := before.(lastSeenRaids := seenText);
            ProgramStates.Decode(SeenStored(stateData, seenText).value) == Ok(Decoded(s, |ProgramStates.Encode(s)|))
            && s.registeredProgramsCount == before.registeredProgramsCount
            && s.registeredUsersCount == before.registeredUsersCount
  {
    var d := ProgramStates.DecodeAsWritten(stateData).value;
    var s := d.value.(lastSeenRaids := seenText);
    var vs := ProgramStates.ToFields(d.value);
    assert ProgramStates.WellFormed(s) by {
      assert Fields.ValueOk(vs[1]) && Fields.ValueOk(vs[2]);
      Fields.AllOkUpdate(vs, 0, Fields.Str(seenText));
      assert ProgramStates.ToFields(s) == vs[0 := Fields.Str(seenText)];
    }
    var enc := ProgramStates.Encode(s);
    var out := SeenStored(stateData, seenText).value;
    Rewrites.StoredSplit(stateData, enc, d.consumed);
    ProgramStates.RoundTrip(s, out[|enc|..]);
  }

  /**
   * Opening a competition for a raid (`create_new_competition`): the card
   * is written into a fresh `ACCOUNT_SPACE`-byte account and its key text
   * is registered in the competition index. A PvP competition names the
   * raiding program as challenger and the other program as challenged.
   */
  function OpenCompetition(mode: ReadMode, a: RaidAccounts, competitionType: seq<byte>, now: int,
                           keyText: Pubkey -> seq<byte>): (r: Result<(seq<byte>, seq<byte>), ProgramError>)
    ensures var c := CreateNewCompetition(a.newCompetition.derived, a.newCompetition.given, a.newCompetitionEmpty, competitionType,
                                          if competitionType == PVP then Some(a.programKey) else None,
                                          if competitionType == PVP then Some(a.challengedKey) else None, now);
            (c.Err? ==> r == Err(c.error))
            && (r.Ok? ==> c.Ok? && Ok(r.value.0) == SerializeInto(CompetitionCards.Encode(c.value), Zeros(ACCOUNT_SPACE))
                          && Ok(r.value.1) == RegisterCompetition(mode, a.competitionsIndexData, keyText(a.newCompetition.given)))
            && (c.Ok? && |CompetitionCards.Encode(c.value)| <= ACCOUNT_SPACE ==>
                  (r.Ok? <==> RegisterCompetition(mode, a.competitionsIndexData, keyText(a.newCompetition.given)).Ok?)
                  && (r.Ok? ==> r.value.0 == FreshAccount(CompetitionCards.Encode(c.value))))
  {
    var c :- CreateNewCompetition(a.newCompetition.derived, a.newCompetition.given, a.newCompetitionEmpty, competitionType,
                                  if competitionType == PVP then Some(a.programKey) else None,
                                  if competitionType == PVP then Some(a.challengedKey) else None, now);
    var account :- SerializeInto(CompetitionCards.Encode(c), Zeros(ACCOUNT_SPACE));
    var index :- RegisterCompetition(mode, a.competitionsIndexData, keyText(a.newCompetition.given));
    Ok((account, index))
  }

  /**
   * `create_raid` on the account bytes. The three program-wide accounts
   * must be at their derived addresses; the program state must be
   * readable; the raid program card is read and must belong to the
   * signer, all before the competition is chosen. Then the raid opens a
   * competition or joins the current one. Opening one also writes the
   * program state with the new sequence map `seenText`, which panics while
   * the handler still holds the state's borrow. Then the raid card account
   * is checked (derived from the chosen competition, still empty), and the
   * raid is recorded in the program card and the raid index.
   */
  function CreateRaidInstruction(mode: ReadMode, borrow: StateBorrow, a: RaidAccounts, signer: Pubkey, competitionType: seq<byte>,
                                 lastSeen: LastSeen, now: int, keyText: Pubkey -> seq<byte>, seenText: seq<byte>)
    : (r: Result<RaidWrites, ProgramError>)
    ensures !AtDerived(a.addresses) ==> r == Err(InvalidAccountData)
    ensures AtDerived(a.addresses) && ProgramStates.DecodeAsWritten(a.stateData).Err? ==> r == Err(InvalidAccountData)
    ensures AtDerived(a.addresses) && ProgramStates.DecodeAsWritten(a.stateData).Ok? ==>
              var program := RaidProgramCards.Decode(a.programData);
              (program.Err? || program.value.value.userKey != signer ==> r == Err(InvalidAccountData))
              && (program.Ok? && program.value.value.userKey == signer ==>
                    var step := CreateRaidStep(mode, competitionType, lastSeen, a.currentData, a.programKey, a.challengedKey);
                    (step.Err? ==> r == Err(step.error))
                    && (step == Ok(JoinCurrent) ==> JoinStored(a.currentData, keyText(a.programKey), now).Err? ==>
                          r == Err(JoinStored(a.currentData, keyText(a.programKey), now).error))
                    && (step.Ok? && step.value.OpenNew? ==>
                          var made := OpenCompetition(mode, a, competitionType, now, keyText);
                          (made.Err? ==> r == Err(made.error))
                          && (made.Ok? && borrow == HeldBorrow ==> r == Err(Aborted))
                          && (made.Ok? && borrow == ReleasedBorrow && SeenStored(a.stateData, seenText).Err? ==>
                                r == Err(SeenStored(a.stateData, seenText).error))))
    ensures r.Ok? ==>
              var step := CreateRaidStep(mode, competitionType, lastSeen, a.currentData, a.programKey, a.challengedKey);
              AtDerived(a.addresses) && ProgramStates.DecodeAsWritten(a.stateData).Ok?
              && RaidProgramCards.Decode(a.programData).Ok? && RaidProgramCards.Decode(a.programData).value.value.userKey == signer
              && step.Ok?
              && OpenOrJoin(mode, borrow, a, step.value, competitionType, now, keyText, seenText)
                 == Ok((r.value.competition, r.value.competitionsIndex, r.value.state))
              && RaidRecorded(a, step.value, keyText) == Ok((r.value.program, r.value.raidsIndex))
  {
    if !AtDerived(a.addresses) then Err(InvalidAccountData)
    else
      var _ :- ProgramStates.DecodeAsWritten(a.stateData);
      var p :- RaidProgramCards.Decode(a.programData);
      if p.value.userKey != signer then Err(InvalidAccountData)
      else
        var step :- CreateRaidStep(mode, competitionType, lastSeen, a.currentData, a.programKey, a.challengedKey);
        var competition :- OpenOrJoin(mode, borrow, a, step, competitionType, now, keyText, seenText);
        var recorded :- RaidRecorded(a, step, keyText);
        Ok(RaidWrites(competition.0, competition.1, competition.2, recorded.0, recorded.1))
  }

  /**
   * What a successful `create_raid` writes: joining writes only the
   * current competition; opening writes the new competition, the
   * competition index and the program state with the new sequence map,
   * which is only possible once the state's borrow is released; either
   * way the raid card account was the derived, empty one and the raid is
   * recorded in the program card and the raid index.
   */
  lemma CreateRaidWrites(mode: ReadMode, borrow: StateBorrow, a: RaidAccounts, signer: Pubkey, competitionType: seq<byte>,
                         lastSeen: LastSeen, now: int, keyText: Pubkey -> seq<byte>, seenText: seq<byte>)
    requires CreateRaidInstruction(mode, borrow, a, signer, competitionType, lastSeen, now, keyText, seenText).Ok?
    ensures var r := CreateRaidInstruction(mode, borrow, a, signer, competitionType, lastSeen, now, keyText, seenText);
            var step := CreateRaidStep(mode, competitionType, lastSeen, a.currentData, a.programKey, a.challengedKey);
            var raid := if step.value.OpenNew? then a.newRaid else a.currentRaid;
            RaidProgramCards.Decode(a.programData).Ok? && RaidProgramCards.Decode(a.programData).value.value.userKey == signer
            && step.Ok?
            && (step.value == JoinCurrent ==>
                  r.value.competitionsIndex.None? && r.value.state.None?
                  && Ok(r.value.competition) == JoinStored(a.currentData, keyText(a.programKey), now))
            && (step.value.OpenNew? ==>
                  r.value.competitionsIndex.Some? && r.value.state.Some? && borrow == ReleasedBorrow
                  && OpenCompetition(mode, a, competitionType, now, keyText) == Ok((r.value.competition, r.value.competitionsIndex.value))
                  && SeenStored(a.stateData, seenText) == Ok(r.value.state.value))
            && raid.given == raid.derived && (if step.value.OpenNew? then a.newRaidEmpty else a.currentRaidEmpty)
            && RecordRaidStored(a.programData, a.raidsIndexData, raid.given, keyText(raid.given))
               == Ok((r.value.program, r.value.raidsIndex))
  {
  }

  /**
   * The competition stage of `create_raid`: joining writes the current
   * competition; opening creates the competition and registers it, then
   * writes the program state with the new sequence map, which panics while
   * the state's borrow is held. The result is the competition's, the
   * competition index's and the state's new bytes.
   */
  function OpenOrJoin(mode: ReadMode, borrow: StateBorrow, a: RaidAccounts, step: CompetitionStep, competitionType: seq<byte>,
                      now: int, keyText: Pubkey -> seq<byte>, seenText: seq<byte>)
    : (r: Result<(seq<byte>, Option<seq<byte>>, Option<seq<byte>>), ProgramError>)
    ensures step == JoinCurrent ==>
              var joined := JoinStored(a.currentData, keyText(a.programKey), now);
              (joined.Err? ==> r == Err(joined.error))
              && (joined.Ok? ==> r == Ok((joined.value, None, None)))
    ensures step.OpenNew? ==>
              var made := OpenCompetition(mode, a, competitionType, now, keyText);
              var stored := SeenStored(a.stateData, seenText);
              (made.Err? ==> r == Err(made.error))
              && (made.Ok? && borrow == HeldBorrow ==> r == Err(Aborted))
              && (made.Ok? && borrow == ReleasedBorrow && stored.Err? ==> r == Err(stored.error))
              && (made.Ok? && borrow == ReleasedBorrow && stored.Ok? ==>
                    r == Ok((made.value.0, Some(made.value.1), Some(stored.value))))
  {
    if step.OpenNew? then
      var made :- OpenCompetition(mode, a, competitionType, now, keyText);
      if borrow == HeldBorrow then Err(Aborted)
      else
        var written :- SeenStored(a.stateData, seenText);
        Ok((made.0, Some(made.1), Some(written)))
    else
      var joined :- JoinStored(a.currentData, keyText(a.programKey), now);
      Ok((joined, None, None))
  }

  /**
   * The raid stage of `create_raid`: the raid card account must be the
   * address derived from the chosen competition (`InvalidAccountData`) and
   * still empty (`AccountAlreadyInitialized`); then the raid is recorded in
   * the program card and the raid index.
   */
  function RaidRecorded(a: RaidAccounts, step: CompetitionStep, keyText: Pubkey -> seq<byte>)
    : (r: Result<(seq<byte>, seq<byte>), ProgramError>)
    ensures var raid := if step.OpenNew? then a.newRaid else a.currentRaid;
            var empty := if step.OpenNew? then a.newRaidEmpty else a.currentRaidEmpty;
            (raid.given != raid.derived ==> r == Err(InvalidAccountData))
            && (raid.given == raid.derived && !empty ==> r == Err(AccountAlreadyInitialized))
            && (raid.given == raid.derived && empty ==>
                  r == RecordRaidStored(a.programData, a.raidsIndexData, raid.given, keyText(raid.given)))
  {
    var raid := if step.OpenNew? then a.newRaid else a.currentRaid;
    if raid.given != raid.derived then Err(InvalidAccountData)
    else if !(if step.OpenNew? then a.newRaidEmpty else a.currentRaidEmpty) then Err(AccountAlreadyInitialized)
    else RecordRaidStored(a.programData, a.raidsIndexData, raid.given, keyText(raid.given))
  }

  /**
   * The ownership check comes first: a raid by a signer who does not own
   * the stored raid program fails with `InvalidAccountData`, whatever the
   * competition accounts hold and however they are read.
   */
  lemma CreateRaidChecksOwnerFirst(mode: ReadMode, borrow: StateBorrow, a: RaidAccounts, program: RaidProgramCards.RaidProgramCard,
                                   tail: seq<byte>, signer: Pubkey, competitionType: seq<byte>, lastSeen: LastSeen, now: int,
                                   keyText: Pubkey -> seq<byte>, seenText: seq<byte>)
    requires RaidProgramCards.WellFormed(program) && a.programData == RaidProgramCards.Encode(program) + tail
    requires AtDerived(a.addresses) && ProgramStates.DecodeAsWritten(a.stateData).Ok?
    requires program.userKey != signer
    ensures CreateRaidInstruction(mode, borrow, a, signer, competitionType, lastSeen, now, keyText, seenText) == Err(InvalidAccountData)
  {
    RaidProgramCards.RoundTrip(program, tail);
  }

  /**
   * As written, no raid that opens a competition succeeds, however the
   * cards are read: a successful `create_raid` always joined the current
   * competition, so no PvP raid and no first raid of a type ever goes
   * through.
   */
  lemma OpeningRaidAbortsAsWritten(mode: ReadMode, a: RaidAccounts, signer: Pubkey, competitionType: seq<byte>,
                                   lastSeen: LastSeen, now: int, keyText: Pubkey -> seq<byte>, seenText: seq<byte>)
    ensures var r := CreateRaidInstruction(mode, HeldBorrow, a, signer, competitionType, lastSeen, now, keyText, seenText);
            r.Ok? ==> CreateRaidStep(mode, competitionType, lastSeen, a.currentData, a.programKey, a.challengedKey) == Ok(JoinCurrent)
    ensures competitionType == PVP ==>
              CreateRaidInstruction(mode, HeldBorrow, a, signer, competitionType, lastSeen, now, keyText, seenText).Err?
  {
  }

  /**
   * With the borrow released, a raid that passes the checks before it and
   * opens a competition goes on to write the program state: it succeeds
   * exactly when the state with the new sequence map fits its account and
   * the raid account and raid writes succeed, and the state account then
   * reads back with the new map and its counters unchanged.
   */
  lemma OpeningRaidStoresState(mode: ReadMode, a: RaidAccounts, signer: Pubkey, competitionType: seq<byte>,
                               lastSeen: LastSeen, now: int, keyText: Pubkey -> seq<byte>, seenText: seq<byte>)
    requires AtDerived(a.addresses) && ProgramStates.DecodeAsWritten(a.stateData).Ok? && StrOk(seenText)
    requires RaidProgramCards.Decode(a.programData).Ok? && RaidProgramCards.Decode(a.programData).value.value.userKey == signer
    requires CreateRaidStep(mode, competitionType, lastSeen, a.currentData, a.programKey, a.challengedKey).Ok?
    requires CreateRaidStep(mode, competitionType, lastSeen, a.currentData, a.programKey, a.challengedKey).value.OpenNew?
    requires OpenCompetition(mode, a, competitionType, now, keyText).Ok?
    ensures var r := CreateRaidInstruction(mode, ReleasedBorrow, a, signer, competitionType, lastSeen, now, keyText, seenText);
            var before := ProgramStates.DecodeAsWritten(a.stateData).value.value;
            var s := before.(lastSeenRaids := seenText);
            (r.Ok? <==> |ProgramStates.Encode(s)| <= |a.stateData| && a.newRaid.given == a.newRaid.derived && a.newRaidEmpty
                        && RecordRaidStored(a.programData, a.raidsIndexData, a.newRaid.given, keyText(a.newRaid.given)).Ok?)
            && (r.Ok? ==> r.value.state.Some?
                          && ProgramStates.Decode(r.value.state.value) == Ok(Decoded(s, |ProgramStates.Encode(s)|)))
  {
    var step := CreateRaidStep(mode, competitionType, lastSeen, a.currentData, a.programKey, a.challengedKey).value;
    var r := CreateRaidInstruction(mode, ReleasedBorrow, a, signer, competitionType, lastSeen, now, keyText, seenText);
    var stage := OpenOrJoin(mode, ReleasedBorrow, a, step, competitionType, now, keyText, seenText);
    var stored := SeenStored(a.stateData, seenText);
    if stored.Ok? {
      SeenStoredReadsBack(a.stateData, seenText);
      assert stage.Ok? && stage.value.2 == Some(stored.value);
      var recorded := RaidRecorded(a, step, keyText);
      assert r.Ok? <==> recorded.Ok?;
      assert r.Ok? ==> r.value.state == stage.value.2;
    } else {
      assert stage.Err?;
      assert r.Err?;
    }
  }

  // ----- enrolment -----

  /**
   * `enroll_in_program`: the card must belong to the signer, and a program
   * whose key occurs anywhere in the enrolled list (a substring test) is
   * refused; otherwise its key and a comma are appended.
   */
  function Enroll(user: UserCards.UserCard, signer: Pubkey, programText: seq<byte>): (r: Result<UserCards.UserCard, ProgramError>)
    ensures user.userPubkey != signer ==> r == Err(InvalidAccountData)
    ensures user.userPubkey == signer ==> (r.Err? <==> Contains(user.enrolledPrograms, programText))
    ensures r.Err? && user.userPubkey == signer ==> r.error == AccountAlreadyInitialized
    ensures r.Ok? ==> r.value.enrolledPrograms == Append(user.enrolledPrograms, programText)
                      && r.value.(enrolledPrograms := user.enrolledPrograms) == user
  {
    if user.userPubkey != signer then Err(InvalidAccountData)
    else if Contains(user.enrolledPrograms, programText) then Err(AccountAlreadyInitialized)
    else Ok(user.(enrolledPrograms := Append(user.enrolledPrograms, programText)))
  }

  /**
   * Enrolment never lists a program twice: a program that is already a
   * member is refused, and a successful enrolment adds exactly that program
   * as the last member.
   */
  lemma EnrollMembers(user: UserCards.UserCard, signer: Pubkey, programText: seq<byte>)
    requires user.userPubkey == signer && Terminated(user.enrolledPrograms) && Free(programText, COMMA)
    ensures programText in Members(user.enrolledPrograms) ==> Enroll(user, signer, programText) == Err(AccountAlreadyInitialized)
    ensures Enroll(user, signer, programText).Ok? ==>
              Members(Enroll(user, signer, programText).value.enrolledPrograms) == Members(user.enrolledPrograms) + [programText]
              && Terminated(Enroll(user, signer, programText).value.enrolledPrograms)
  {
    if programText in Members(user.enrolledPrograms) {
      MemberIsContained(user.enrolledPrograms, programText);
    }
    MembersAppend(user.enrolledPrograms, programText);
  }

  /** Enrolling in the same program twice fails the second time. */
  lemma EnrollTwiceRefused(user: UserCards.UserCard, signer: Pubkey, programText: seq<byte>)
    requires Enroll(user, signer, programText).Ok?
    ensures Enroll(Enroll(user, signer, programText).value, signer, programText) == Err(AccountAlreadyInitialized)
  {
    var after := Enroll(user, signer, programText).value.enrolledPrograms;
    assert OccursAt(after, programText, |user.enrolledPrograms|);
  }

  /**
   * Because the test is on substrings, a user enrolled only in a program
   * whose key ends with another key is refused enrolment in that other
   * program, which is not a member.
   */
  lemma EnrollRefusesNonMember(user: UserCards.UserCard, signer: Pubkey, c: byte, programText: seq<byte>)
    requires user.userPubkey == signer && c != COMMA && Free(programText, COMMA)
    requires user.enrolledPrograms == Append([], [c] + programText)
    ensures programText !in Members(user.enrolledPrograms)
    ensures Enroll(user, signer, programText) == Err(AccountAlreadyInitialized)
  {
    ContainedButNotMember(c, programText);
  }

  /**
   * `enroll_in_program` on the account bytes: the user card is read and
   * must be the signer's, then the raid program card is read, the
   * program's key as `to_string` spells it (`keyText`) is enrolled, and
   * the card is written back with the derived serializer, which fails with
   * `BorshIoError` when the grown card does not fit the account. The
   * result is the user card account's new bytes.
   */
  function EnrollInstruction(mode: ReadMode, userData: seq<byte>, programData: seq<byte>, signer: Pubkey,
                             keyText: Pubkey -> seq<byte>): (r: Result<seq<byte>, ProgramError>)
    ensures UserCards.ReadAccount(mode, userData).Err? ==> r == Err(UserCards.ReadAccount(mode, userData).error)
    ensures UserCards.ReadAccount(mode, userData).Ok? && UserCards.ReadAccount(mode, userData).value.userPubkey != signer
            ==> r == Err(InvalidAccountData)
    ensures UserCards.ReadAccount(mode, userData).Ok? && UserCards.ReadAccount(mode, userData).value.userPubkey == signer ==>
              var program := RaidProgramCards.ReadAccount(mode, programData);
              (program.Err? ==> r == Err(program.error))
              && (program.Ok? ==>
                    var enrolled := Enroll(UserCards.ReadAccount(mode, userData).value, signer, keyText(program.value.raidProgramId));
                    (enrolled.Err? ==> r == Err(enrolled.error))
                    && (enrolled.Ok? ==>
                          (r.Ok? <==> |UserCards.Encode(enrolled.value)| <= |userData|)
                          && (r.Err? ==> r.error == BorshIoError)))
    ensures r.Ok? ==>
              var user := UserCards.ReadAccount(mode, userData);
              var program := RaidProgramCards.ReadAccount(mode, programData);
              user.Ok? && program.Ok? && user.value.userPubkey == signer
              && var enrolled := Enroll(user.value, signer, keyText(program.value.raidProgramId));
                 enrolled.Ok?
                 && enrolled.value.enrolledPrograms == Append(user.value.enrolledPrograms, keyText(program.value.raidProgramId))
                 && |r.value| == |userData|
                 && r.value[..|UserCards.Encode(enrolled.value)|] == UserCards.Encode(enrolled.value)
                 && r.value[|UserCards.Encode(enrolled.value)|..] == userData[|UserCards.Encode(enrolled.value)|..]
  {
    var user :- UserCards.ReadAccount(mode, userData);
    if user.userPubkey != signer then Err(InvalidAccountData)
    else
      var program :- RaidProgramCards.ReadAccount(mode, programData);
      var enrolled :- Enroll(user, signer, keyText(program.raidProgramId));
      SerializeInto(UserCards.Encode(enrolled), userData)
  }

  /**
   * As written, enrolment fails for every user card stored with unused
   * space after it, whatever the program account holds.
   */
  lemma EnrollStoredAsWritten(user: UserCards.UserCard, tail: seq<byte>, programData: seq<byte>, signer: Pubkey,
                              keyText: Pubkey -> seq<byte>)
    requires UserCards.WellFormed(user) && tail != []
    ensures EnrollInstruction(Strict, UserCards.Encode(user) + tail, programData, signer, keyText) == Err(BorshIoError)
  {
    UserCards.ReadStored(user, tail);
  }

  /**
   * As written, no enrolment ever succeeds: `try_from_slice` accepts only
   * an account that is exactly the card's encoding, and the enrolled card
   * is longer than that account.
   */
  lemma EnrollNeverSucceedsAsWritten(userData: seq<byte>, programData: seq<byte>, signer: Pubkey, keyText: Pubkey -> seq<byte>)
    ensures EnrollInstruction(Strict, userData, programData, signer, keyText).Err?
  {
    var user := UserCards.ReadAccount(Strict, userData);
    var program := RaidProgramCards.ReadAccount(Strict, programData);
    if user.Ok? && user.value.userPubkey == signer && program.Ok? {
      var enrolled := Enroll(user.value, signer, keyText(program.value.raidProgramId));
      if enrolled.Ok? {
        UserCards.EncodeLength(user.value);
        UserCards.EncodeLength(enrolled.value);
      }
    }
  }

  /**
   * Read leniently, stored cards go through the enrolment rule, whatever
   * space follows them, and the enrolled card is written back exactly when
   * it fits the user card's account.
   */
  lemma EnrollStoredFixed(user: UserCards.UserCard, userTail: seq<byte>, program: RaidProgramCards.RaidProgramCard,
                          programTail: seq<byte>, signer: Pubkey, keyText: Pubkey -> seq<byte>)
    requires UserCards.WellFormed(user) && RaidProgramCards.WellFormed(program)
    ensures var r := EnrollInstruction(Lenient, UserCards.Encode(user) + userTail, RaidProgramCards.Encode(program) + programTail,
                                       signer, keyText);
            var enrolled := Enroll(user, signer, keyText(program.raidProgramId));
            (enrolled.Err? ==> r == Err(enrolled.error))
            && (enrolled.Ok? ==> (r.Ok? <==> |UserCards.Encode(enrolled.value)| <= |UserCards.Encode(user) + userTail|)
                                 && (r.Err? ==> r.error == BorshIoError))
  {
    UserCards.ReadStored(user, userTail);
    RaidProgramCards.ReadStored(program, programTail);
  }

  /**
   * Read leniently, a successful enrolment with a Base58 key text leaves
   * an account that reads back as the enrolled card.
   */
  lemma EnrolledAccountReadsBack(user: UserCards.UserCard, userTail: seq<byte>, program: RaidProgramCards.RaidProgramCard,
                                 programTail: seq<byte>, signer: Pubkey, keyText: Pubkey -> seq<byte>)
    requires UserCards.WellFormed(user) && RaidProgramCards.WellFormed(program) && IsBase58(keyText(program.raidProgramId))
    requires |UserCards.Encode(user) + userTail| < TWO_32
    ensures var r := EnrollInstruction(Lenient, UserCards.Encode(user) + userTail, RaidProgramCards.Encode(program) + programTail,
                                       signer, keyText);
            r.Ok? ==> Enroll(user, signer, keyText(program.raidProgramId)).Ok?
                      && UserCards.ReadAccount(Lenient, r.value) == Ok(Enroll(user, signer, keyText(program.raidProgramId)).value)
  {
    var data := UserCards.Encode(user) + userTail;
    var programData := RaidProgramCards.Encode(program) + programTail;
    UserCards.ReadStored(user, userTail);
    RaidProgramCards.ReadStored(program, programTail);
    var text := keyText(program.raidProgramId);
    var r := EnrollInstruction(Lenient, data, programData, signer, keyText);
    if r.Ok? {
      assert UserCards.ReadAccount(Lenient, data) == Ok(user);
      assert RaidProgramCards.ReadAccount(Lenient, programData) == Ok(program);
      var e := Enroll(user, signer, text);
      assert user.userPubkey == signer && e.Ok?;
      assert r == SerializeInto(UserCards.Encode(e.value), data);
      UserCards.EncodeLength(e.value);
      EnrolledWellFormed(user, signer, text);
      UserWrittenReadsBack(e.value, data);
    }
  }

  /** Enrolling in a program with a Base58 key text keeps a card storable while its list stays under 2^32 bytes. */
  lemma EnrolledWellFormed(user: UserCards.UserCard, signer: Pubkey, text: seq<byte>)
    requires UserCards.WellFormed(user) && IsBase58(text) && Enroll(user, signer, text).Ok?
    requires |Append(user.enrolledPrograms, text)| < TWO_32
    ensures UserCards.WellFormed(Enroll(user, signer, text).value)
  {
    var enrolled := Enroll(user, signer, text).value;
    var vs := UserCards.ToFields(user);
    assert StrOk(user.enrolledPrograms) by { assert Fields.ValueOk(vs[2]); }
    Base58Free(text);
    AppendUtf8(user.enrolledPrograms, text);
    assert UserCards.ToFields(enrolled) == vs[2 := Fields.Str(enrolled.enrolledPrograms)];
  }

  /** A storable user card written over the front of an account reads back as that card. */
  lemma UserWrittenReadsBack(c: UserCards.UserCard, data: seq<byte>)
    requires UserCards.WellFormed(c) && |UserCards.Encode(c)| <= |data|
    ensures UserCards.ReadAccount(Lenient, WriteInto(UserCards.Encode(c), data).value) == Ok(c)
  {
    var enc := UserCards.Encode(c);
    assert WriteInto(enc, data).value == enc + data[|enc|..];
    UserCards.ReadStored(c, data[|enc|..]);
  }

  // ----- profile updates -----

  /** `update_user_card`: the four profile fields are replaced and nothing else changes. */
  function UpdateProfile(card: UserCards.UserCard, email: seq<byte>, twitter: seq<byte>, dob: seq<byte>, url: seq<byte>): (r: UserCards.UserCard)
    ensures r.userEmail == email && r.userTwitterHandle == twitter && r.userDob == dob && r.profilePictureUrl == url
    ensures r.(userEmail := card.userEmail, userTwitterHandle := card.userTwitterHandle,
               userDob := card.userDob, profilePictureUrl := card.profilePictureUrl) == card
  {
    card.(userEmail := email, userTwitterHandle := twitter, userDob := dob, profilePictureUrl := url)
  }

  /** The latest update wins, and an update keeps a storable card storable. */
  lemma UpdateProfileLaws(card: UserCards.UserCard, e1: seq<byte>, t1: seq<byte>, d1: seq<byte>, u1: seq<byte>,
                          e2: seq<byte>, t2: seq<byte>, d2: seq<byte>, u2: seq<byte>)
    ensures UpdateProfile(UpdateProfile(card, e1, t1, d1, u1), e2, t2, d2, u2) == UpdateProfile(card, e2, t2, d2, u2)
    ensures UserCards.WellFormed(card) && StrOk(e1) && StrOk(t1) && StrOk(d1) && StrOk(u1) ==>
              UserCards.WellFormed(UpdateProfile(card, e1, t1, d1, u1))
  {
    if UserCards.WellFormed(card) && StrOk(e1) && StrOk(t1) && StrOk(d1) && StrOk(u1) {
      var r := UpdateProfile(card, e1, t1, d1, u1);
      var vs := UserCards.ToFields(card);
      var ws := UserCards.ToFields(r);
      assert ws == vs[4 := Fields.Str(e1)][5 := Fields.Str(d1)][6 := Fields.Str(t1)][12 := Fields.Str(u1)];
    }
  }

  /**
   * `update_user_card` on the account bytes: the card account must be the
   * address derived for the signer (`derived`), the card read from it gets
   * the four new profile fields, and it is written back with the derived
   * serializer, which fails with `BorshIoError` when the updated card does
   * not fit the account. The result is the account's new bytes.
   */
  function UpdateUserCardInstruction(mode: ReadMode, derived: Pubkey, account: Pubkey, userData: seq<byte>,
                                     email: seq<byte>, twitter: seq<byte>, dob: seq<byte>, url: seq<byte>)
    : (r: Result<seq<byte>, ProgramError>)
    ensures account != derived ==> r == Err(InvalidAccountData)
    ensures account == derived && UserCards.ReadAccount(mode, userData).Err? ==> r == Err(UserCards.ReadAccount(mode, userData).error)
    ensures account == derived && UserCards.ReadAccount(mode, userData).Ok? ==>
              var updated := UpdateProfile(UserCards.ReadAccount(mode, userData).value, email, twitter, dob, url);
              (r.Ok? <==> |UserCards.Encode(updated)| <= |userData|)
              && (r.Err? ==> r.error == BorshIoError)
              && (r.Ok? ==> |r.value| == |userData| && r.value[..|UserCards.Encode(updated)|] == UserCards.Encode(updated)
                            && r.value[|UserCards.Encode(updated)|..] == userData[|UserCards.Encode(updated)|..])
  {
    if account != derived then Err(InvalidAccountData)
    else
      var card :- UserCards.ReadAccount(mode, userData);
      SerializeInto(UserCards.Encode(UpdateProfile(card, email, twitter, dob, url)), userData)
  }

  /** As written, a profile update fails for every user card stored with unused space after it. */
  lemma UpdateStoredAsWritten(card: UserCards.UserCard, tail: seq<byte>, derived: Pubkey,
                              email: seq<byte>, twitter: seq<byte>, dob: seq<byte>, url: seq<byte>)
    requires UserCards.WellFormed(card) && tail != []
    ensures UpdateUserCardInstruction(Strict, derived, derived, UserCards.Encode(card) + tail, email, twitter, dob, url)
            == Err(BorshIoError)
  {
    UserCards.ReadStored(card, tail);
  }

  /**
   * Read leniently, a stored card at the right address gets exactly the
   * update rule: the write succeeds exactly when the updated card fits
   * the account, and with valid strings the account then reads back as
   * the updated card.
   */
  lemma UpdateStoredFixed(card: UserCards.UserCard, tail: seq<byte>, derived: Pubkey,
                          email: seq<byte>, twitter: seq<byte>, dob: seq<byte>, url: seq<byte>)
    requires UserCards.WellFormed(card)
    ensures var r := UpdateUserCardInstruction(Lenient, derived, derived, UserCards.Encode(card) + tail, email, twitter, dob, url);
            var updated := UpdateProfile(card, email, twitter, dob, url);
            (r.Ok? <==> |UserCards.Encode(updated)| <= |UserCards.Encode(card) + tail|)
            && (r.Err? ==> r.error == BorshIoError)
            && (r.Ok? && StrOk(email) && StrOk(twitter) && StrOk(dob) && StrOk(url) ==>
                  UserCards.ReadAccount(Lenient, r.value) == Ok(updated))
  {
    UserCards.ReadStored(card, tail);
    var r := UpdateUserCardInstruction(Lenient, derived, derived, UserCards.Encode(card) + tail, email, twitter, dob, url);
    var updated := UpdateProfile(card, email, twitter, dob, url);
    if r.Ok? && StrOk(email) && StrOk(twitter) && StrOk(dob) && StrOk(url) {
      UpdateProfileLaws(card, email, twitter, dob, url, email, twitter, dob, url);
      var enc := UserCards.Encode(updated);
      assert r.value == enc + r.value[|enc|..];
      UserCards.ReadStored(updated, r.value[|enc|..]);
    }
  }

  // ----- burning for a raid -----

  /** The competition checks of a burn: the program is listed, and the competition is active and not over. */
  predicate CompetitionOpen(competition: CompetitionCards.CompetitionCard, programText: seq<byte>, now: int)
  {
    programText in Split(competition.enrolledPrograms, COMMA) && competition.status == ACTIVE
    && Stamp(now) < competition.endTime
  }

  /**
   * The checks `burn_tokens_for_raid` makes, in order: the program is a
   * `split(',')` piece of the competition's list, the competition is active
   * and not over, the user card is the signer's and mentions the program,
   * and the burn record does not exist yet.
   */
  function BurnCheck(competition: CompetitionCards.CompetitionCard, programText: seq<byte>, now: int,
                     user: UserCards.UserCard, signer: Pubkey, burnAccountEmpty: bool): (r: Result<(), ProgramError>)
    ensures r.Ok? <==> programText in Split(competition.enrolledPrograms, COMMA) && competition.status == ACTIVE
                       && Stamp(now) < competition.endTime && user.userPubkey == signer
                       && Contains(user.enrolledPrograms, programText) && burnAccountEmpty
    ensures r.Err? ==> r.error == InvalidAccountData || r.error == AccountAlreadyInitialized
    ensures r == Err(AccountAlreadyInitialized) <==>
              programText in Split(competition.enrolledPrograms, COMMA) && competition.status == ACTIVE
              && Stamp(now) < competition.endTime && user.userPubkey == signer
              && Contains(user.enrolledPrograms, programText) && !burnAccountEmpty
  {
    if programText !in Split(competition.enrolledPrograms, COMMA) then Err(InvalidAccountData)
    else if competition.status != ACTIVE then Err(InvalidAccountData)
    else if Stamp(now) >= competition.endTime then Err(InvalidAccountData)
    else if user.userPubkey != signer then Err(InvalidAccountData)
    else if !Contains(user.enrolledPrograms, programText) then Err(InvalidAccountData)
    else if !burnAccountEmpty then Err(AccountAlreadyInitialized)
    else Ok(())
  }

  /**
   * On decoded cards, the checks let a burn through for a program that
   * joined an active competition, by a user enrolled in that program,
   * before the end time.
   */
  lemma BurnChecksPassAfterJoinAndEnroll(competition: CompetitionCards.CompetitionCard, programText: seq<byte>, joinedAt: int,
                                      user: UserCards.UserCard, signer: Pubkey, now: int)
    requires Terminated(competition.enrolledPrograms) && Free(programText, COMMA)
    requires Join(competition, programText, joinedAt).status == ACTIVE
    requires Enroll(user, signer, programText).Ok?
    requires Stamp(now) < Join(competition, programText, joinedAt).endTime
    ensures BurnCheck(Join(competition, programText, joinedAt), programText, now,
                      Enroll(user, signer, programText).value, signer, true).Ok?
  {
    var joined := Join(competition, programText, joinedAt);
    JoinMembers(competition, programText, joinedAt);
    var ps := Split(joined.enrolledPrograms, COMMA);
    assert Members(joined.enrolledPrograms) == ps[..|ps| - 1];
    assert programText == Members(joined.enrolledPrograms)[|Members(joined.enrolledPrograms)| - 1];
    assert programText in ps;
    var enrolled := Enroll(user, signer, programText).value.enrolledPrograms;
    assert OccursAt(enrolled, programText, |user.enrolledPrograms|);
  }

  /**
   * `burn_tokens_for_raid` up to the burn itself, on the account bytes:
   * the raid program and the competition are read, the competition checks
   * run, then the user card is read and the remaining checks run. Each
   * read's error and each refusal ends the instruction at its turn.
   */
  function BurnInstruction(mode: ReadMode, programData: seq<byte>, competitionData: seq<byte>, userData: seq<byte>,
                           signer: Pubkey, now: int, burnAccountEmpty: bool, keyText: Pubkey -> seq<byte>)
    : (r: Result<(), ProgramError>)
    ensures RaidProgramCards.ReadAccount(mode, programData).Err? ==> r == Err(RaidProgramCards.ReadAccount(mode, programData).error)
    ensures RaidProgramCards.ReadAccount(mode, programData).Ok? ==>
              var programText := keyText(RaidProgramCards.ReadAccount(mode, programData).value.raidProgramId);
              var competition := CompetitionCards.ReadAccount(mode, competitionData);
              (competition.Err? ==> r == Err(competition.error))
              && (competition.Ok? && !CompetitionOpen(competition.value, programText, now) ==> r == Err(InvalidAccountData))
              && (competition.Ok? && CompetitionOpen(competition.value, programText, now) ==>
                    var user := UserCards.ReadAccount(mode, userData);
                    (user.Err? ==> r == Err(user.error))
                    && (user.Ok? ==>
                          (r.Ok? <==> user.value.userPubkey == signer && Contains(user.value.enrolledPrograms, programText)
                                      && burnAccountEmpty)
                          && (r.Err? && user.value.userPubkey == signer && Contains(user.value.enrolledPrograms, programText)
                              ==> r.error == AccountAlreadyInitialized)
                          && (r.Err? && !(user.value.userPubkey == signer && Contains(user.value.enrolledPrograms, programText))
                              ==> r.error == InvalidAccountData)))
    ensures r.Ok? <==>
              var program := RaidProgramCards.ReadAccount(mode, programData);
              var competition := CompetitionCards.ReadAccount(mode, competitionData);
              var user := UserCards.ReadAccount(mode, userData);
              program.Ok? && competition.Ok? && user.Ok?
              && BurnCheck(competition.value, keyText(program.value.raidProgramId), now, user.value, signer, burnAccountEmpty).Ok?
  {
    var program :- RaidProgramCards.ReadAccount(mode, programData);
    var competition :- CompetitionCards.ReadAccount(mode, competitionData);
    var programText := keyText(program.raidProgramId);
    if !CompetitionOpen(competition, programText, now) then Err(InvalidAccountData)
    else
      var user :- UserCards.ReadAccount(mode, userData);
      BurnCheck(competition, programText, now, user, signer, burnAccountEmpty)
  }

  /** As written, no burn gets past reading a raid program card stored with unused space after it. */
  lemma BurnStoredAsWritten(program: RaidProgramCards.RaidProgramCard, tail: seq<byte>, competitionData: seq<byte>,
                            userData: seq<byte>, signer: Pubkey, now: int, burnAccountEmpty: bool, keyText: Pubkey -> seq<byte>)
    requires RaidProgramCards.WellFormed(program) && tail != []
    ensures BurnInstruction(Strict, RaidProgramCards.Encode(program) + tail, competitionData, userData,
                            signer, now, burnAccountEmpty, keyText) == Err(BorshIoError)
  {
    RaidProgramCards.ReadStored(program, tail);
  }

  /**
   * Reading leniently, a burn goes through for a program that joined an
   * active competition, by a user enrolled in that program, before the end
   * time, with the three cards stored with any unused space after them.
   */
  lemma BurnAllowedAfterJoinAndEnroll(program: RaidProgramCards.RaidProgramCard, competition: CompetitionCards.CompetitionCard,
                                      joinedAt: int, user: UserCards.UserCard, signer: Pubkey, now: int,
                                      keyText: Pubkey -> seq<byte>, t1: seq<byte>, t2: seq<byte>, t3: seq<byte>)
    requires Terminated(competition.enrolledPrograms) && Free(keyText(program.raidProgramId), COMMA)
    requires Join(competition, keyText(program.raidProgramId), joinedAt).status == ACTIVE
    requires Enroll(user, signer, keyText(program.raidProgramId)).Ok?
    requires Stamp(now) < Join(competition, keyText(program.raidProgramId), joinedAt).endTime
    requires RaidProgramCards.WellFormed(program)
    requires CompetitionCards.WellFormed(Join(competition, keyText(program.raidProgramId), joinedAt))
    requires UserCards.WellFormed(Enroll(user, signer, keyText(program.raidProgramId)).value)
    ensures var joined := Join(competition, keyText(program.raidProgramId), joinedAt);
            var enrolled := Enroll(user, signer, keyText(program.raidProgramId)).value;
            BurnInstruction(Lenient, RaidProgramCards.Encode(program) + t1, CompetitionCards.Encode(joined) + t2,
                            UserCards.Encode(enrolled) + t3, signer, now, true, keyText).Ok?
  {
    var text := keyText(program.raidProgramId);
    var joined := Join(competition, text, joinedAt);
    var enrolled := Enroll(user, signer, text).value;
    RaidProgramCards.ReadStored(program, t1);
    CompetitionCards.ReadStored(joined, t2);
    UserCards.ReadStored(enrolled, t3);
    BurnChecksPassAfterJoinAndEnroll(competition, text, joinedAt, user, signer, now);
  }
}

=== FILE: seeds.dfy ===
/**
 * The seed strings from which account addresses are derived, as the
 * program (smart-contract/src/lib.rs) and the web client
 * (frontend/src/utils/solanaUtils.js) assemble them. A key appears as its
 * Base58 text; SHA-256 and `find_program_address` are parameters, since
 * only the seed assembly is modelled.
 */
module Seeds {
  import opened Bytes
  import opened Wrappers
  import opened Borsh
  import opened Text

  const US: seq<byte> := [UNDERSCORE]
  const USER_CARD_PREFIX: seq<byte> := Ascii("user_card_")
  const RAID_PROGRAM_PREFIX: seq<byte> := Ascii("raid_program_")
  const TOKEN_ACCOUNT_PREFIX: seq<byte> := Ascii("raid_program_token_account_")
  const RAID_PREFIX: seq<byte> := Ascii("raid_")
  const BURN_PREFIX: seq<byte> := Ascii("burn_")
  const PVP: seq<byte> := Ascii("PvP")
  const USER_CARD: seq<byte> := Ascii("user_card")

  /** The largest seed `find_program_address` accepts, and the most seeds it takes. */
  const MAX_SEED_LEN: nat := 32
  const MAX_SEEDS: nat := 16

  /** `user_card_<key>`. */
  function UserCardSeed(keyText: seq<byte>): seq<byte> { USER_CARD_PREFIX + keyText }

  /** `raid_program_<owner key>_<program name>`. */
  function RaidProgramSeed(keyText: seq<byte>, name: seq<byte>): seq<byte> { RAID_PROGRAM_PREFIX + keyText + US + name }

  /** `raid_program_token_account_<data account>`. */
  function TokenAccountSeed(accountText: seq<byte>): seq<byte> { TOKEN_ACCOUNT_PREFIX + accountText }

  /** `<type>_<sequence>`, the seed of a competition other than PvP. */
  function CompetitionSeed(competitionType: seq<byte>, sequence: nat): seq<byte>
  {
    competitionType + US + Decimal(sequence)
  }

  /** `<challenger>_PvP_<sequence>_<challenged>`. */
  function PvpSeed(challenger: seq<byte>, sequence: nat, challenged: seq<byte>): seq<byte>
  {
    challenger + US + PVP + US + Decimal(sequence) + US + challenged
  }

  /** `raid_<competition>_<raid program>`. */
  function RaidSeed(competitionText: seq<byte>, programText: seq<byte>): seq<byte>
  {
    RAID_PREFIX + competitionText + US + programText
  }

  /** `burn_<user>_<raid program>_<unix time>`. */
  function BurnSeed(userText: seq<byte>, programText: seq<byte>, now: nat): seq<byte>
  {
    BURN_PREFIX + userText + US + programText + US + Decimal(now)
  }

  /** Seeds `find_program_address` can derive from; longer seeds make it fail. */
  predicate SeedListOk(seeds: seq<seq<byte>>)
  {
    |seeds| <= MAX_SEEDS && forall i :: 0 <= i < |seeds| ==> |seeds[i]| <= MAX_SEED_LEN
  }

  /** Two strings joined by a separator that the first does not contain split back uniquely. */
  lemma SplitAtFirst(a: seq<byte>, b: seq<byte>, c: seq<byte>, d: seq<byte>, sep: byte)
    requires Free(a, sep) && Free(c, sep)
    requires a + [sep] + b == c + [sep] + d
    ensures a == c && b == d
  {
    var s := a + [sep] + b;
    assert s == c + [sep] + d;
    assert s[|a|] == sep && s[|c|] == sep;
    assert forall i :: 0 <= i < |a| ==> s[i] == a[i];
    assert forall i :: 0 <= i < |c| ==> s[i] == c[i];
    assert |a| == |c|;
    assert a == s[..|a|];
    assert c == (c + [sep] + d)[..|c|];
    assert b == s[|a| + 1..];
    assert d == (c + [sep] + d)[|c| + 1..];
  }

  lemma DecimalFree(n: nat)
    ensures Free(Decimal(n), UNDERSCORE) && Free(Decimal(n), COMMA)
  {
  }

  /** Distinct owners, or distinct names, give distinct raid-program seeds. */
  lemma RaidProgramSeedInjective(k1: seq<byte>, n1: seq<byte>, k2: seq<byte>, n2: seq<byte>)
    requires IsBase58(k1) && IsBase58(k2)
    ensures RaidProgramSeed(k1, n1) == RaidProgramSeed(k2, n2) <==> k1 == k2 && n1 == n2
  {
    if RaidProgramSeed(k1, n1) == RaidProgramSeed(k2, n2) {
      var p := |RAID_PROGRAM_PREFIX|;
      assert RaidProgramSeed(k1, n1)[p..] == k1 + [UNDERSCORE] + n1;
      assert RaidProgramSeed(k2, n2)[p..] == k2 + [UNDERSCORE] + n2;
      Base58Free(k1);
      Base58Free(k2);
      SplitAtFirst(k1, n1, k2, n2, UNDERSCORE);
    }
  }

  /** A competition seed determines its type and sequence number. */
  lemma CompetitionSeedInjective(t1: seq<byte>, s1: nat, t2: seq<byte>, s2: nat)
    requires Free(t1, UNDERSCORE) && Free(t2, UNDERSCORE)
    ensures CompetitionSeed(t1, s1) == CompetitionSeed(t2, s2) <==> t1 == t2 && s1 == s2
  {
    if CompetitionSeed(t1, s1) == CompetitionSeed(t2, s2) {
      SplitAtFirst(t1, Decimal(s1), t2, Decimal(s2), UNDERSCORE);
      DecimalInjective(s1, s2);
    }
  }

  /** A PvP seed determines both programs and the sequence number. */
  lemma PvpSeedInjective(c1: seq<byte>, s1: nat, d1: seq<byte>, c2: seq<byte>, s2: nat, d2: seq<byte>)
    requires IsBase58(c1) && IsBase58(c2)
    ensures PvpSeed(c1, s1, d1) == PvpSeed(c2, s2, d2) <==> c1 == c2 && s1 == s2 && d1 == d2
  {
    if PvpSeed(c1, s1, d1) == PvpSeed(c2, s2, d2) {
      Base58Free(c1);
      Base58Free(c2);
      PvpSeedShape(c1, s1, d1);
      PvpSeedShape(c2, s2, d2);
      SplitAtFirst(c1, PVP + US + Decimal(s1) + US + d1, c2, PVP + US + Decimal(s2) + US + d2, UNDERSCORE);
      PvpTailInjective(s1, d1, s2, d2);
    }
  }

  /** A PvP seed is the challenger key, `_`, and the rest of the seed. */
  lemma PvpSeedShape(c: seq<byte>, s: nat, d: seq<byte>)
    ensures PvpSeed(c, s, d) == c + [UNDERSCORE] + (PVP + US + Decimal(s) + US + d)
  {
  }

  /** After the challenger key, the rest of a PvP seed determines the sequence and the challenged key. */
  lemma PvpTailInjective(s1: nat, d1: seq<byte>, s2: nat, d2: seq<byte>)
    requires PVP + US + Decimal(s1) + US + d1 == PVP + US + Decimal(s2) + US + d2
    ensures s1 == s2 && d1 == d2
  {
    var p := PVP + US;
    var t1 := Decimal(s1) + [UNDERSCORE] + d1;
    var t2 := Decimal(s2) + [UNDERSCORE] + d2;
    assert PVP + US + Decimal(s1) + US + d1 == p + t1;
    assert PVP + US + Decimal(s2) + US + d2 == p + t2;
    assert t1 == (p + t1)[|p|..];
    assert t2 == (p + t2)[|p|..];
    DecimalFree(s1);
    DecimalFree(s2);
    SplitAtFirst(Decimal(s1), d1, Decimal(s2), d2, UNDERSCORE);
    DecimalInjective(s1, s2);
  }

  /**
   * Competition seeds of the two shapes never coincide when the type is
   * not Base58 text (every non-PvP type contains '-').
   */
  lemma CompetitionSeedShapesDisjoint(t: seq<byte>, s: nat, c: seq<byte>, s2: nat, d: seq<byte>)
    requires Free(t, UNDERSCORE) && !IsBase58(t) && IsBase58(c)
    ensures CompetitionSeed(t, s) != PvpSeed(c, s2, d)
  {
    if CompetitionSeed(t, s) == PvpSeed(c, s2, d) {
      Base58Free(c);
      var r := PVP + US + Decimal(s2) + US + d;
      assert PvpSeed(c, s2, d) == c + [UNDERSCORE] + r;
      SplitAtFirst(t, Decimal(s), c, r, UNDERSCORE);
      assert false;
    }
  }

  // ----- the user card address: create versus update -----

  /** `create_user_card`'s seed list: the 32-byte SHA-256 of `user_card_<key>`. */
  function CreateUserCardSeeds(sha256: seq<byte> -> seq<byte>, keyText: seq<byte>): seq<seq<byte>>
    requires |sha256(UserCardSeed(keyText))| >= 32
  {
    [sha256(UserCardSeed(keyText))[..32]]
  }

  /** `update_user_card`'s seed list: `"user_card"` and the key's 32 bytes. */
  function UpdateUserCardSeeds(key: Pubkey): seq<seq<byte>>
  {
    [USER_CARD, key]
  }

  /**
   * `update_user_card`'s address check as written: the card account must
   * be the address derived from the two-seed list.
   */
  function UpdateAddressCheck(derive: seq<seq<byte>> -> Pubkey, cardAddress: Pubkey, key: Pubkey): (r: Result<(), ProgramError>)
    ensures r.Err? ==> r.error == InvalidAccountData
    ensures r.Ok? <==> cardAddress == derive(UpdateUserCardSeeds(key))
  {
    if cardAddress != derive(UpdateUserCardSeeds(key)) then Err(InvalidAccountData) else Ok(())
  }

  /**
   * The two seed lists always differ (one seed against two), so the card
   * `create_user_card` made passes the update check only if address
   * derivation maps two different seed lists to the same address.
   */
  lemma UpdateCheckMissesCreatedCard(derive: seq<seq<byte>> -> Pubkey, sha256: seq<byte> -> seq<byte>,
                                     keyText: seq<byte>, key: Pubkey)
    requires |sha256(UserCardSeed(keyText))| >= 32
    ensures CreateUserCardSeeds(sha256, keyText) != UpdateUserCardSeeds(key)
    ensures UpdateAddressCheck(derive, derive(CreateUserCardSeeds(sha256, keyText)), key).Ok?
            <==> derive(CreateUserCardSeeds(sha256, keyText)) == derive(UpdateUserCardSeeds(key))
  {
    assert |CreateUserCardSeeds(sha256, keyText)| != |UpdateUserCardSeeds(key)|;
  }

  /** The corrected check: the same derivation as `create_user_card`. */
  function UpdateAddressCheckFixed(derive: seq<seq<byte>> -> Pubkey, sha256: seq<byte> -> seq<byte>,
                                   cardAddress: Pubkey, keyText: seq<byte>): (r: Result<(), ProgramError>)
    requires |sha256(UserCardSeed(keyText))| >= 32
    ensures r.Err? ==> r.error == InvalidAccountData
  {
    if cardAddress != derive(CreateUserCardSeeds(sha256, keyText)) then Err(InvalidAccountData) else Ok(())
  }

  /** With the corrected check, an update is accepted exactly for the card the user created. */
  lemma FixedCheckAcceptsCreatedCard(derive: seq<seq<byte>> -> Pubkey, sha256: seq<byte> -> seq<byte>,
                                     cardAddress: Pubkey, keyText: seq<byte>)
    requires |sha256(UserCardSeed(keyText))| >= 32
    ensures UpdateAddressCheckFixed(derive, sha256, cardAddress, keyText).Ok?
            <==> cardAddress == derive(CreateUserCardSeeds(sha256, keyText))
  {
  }

  // ----- the burn record address -----

  /** `burn_tokens_for_raid` derives the burn record from the unhashed seed string. */
  function BurnSeedsAsWritten(userText: seq<byte>, programText: seq<byte>, now: nat): seq<seq<byte>>
  {
    [BurnSeed(userText, programText, now)]
  }

  /**
   * That seed is longer than a seed may be whenever the two keys' texts
   * together have 25 characters or more (Base58 keys have 32 to 44), so
   * the derivation, and with it every burn, fails.
   */
  lemma BurnSeedTooLong(userText: seq<byte>, programText: seq<byte>, now: nat)
    requires |userText| + |programText| >= 25
    ensures !SeedListOk(BurnSeedsAsWritten(userText, programText, now))
  {
    var seeds := BurnSeedsAsWritten(userText, programText, now);
    assert |seeds[0]| > MAX_SEED_LEN;
  }

  /** The corrected derivation hashes the burn seed to 32 bytes, as every other record's does. */
  function BurnSeedsFixed(sha256: seq<byte> -> seq<byte>, userText: seq<byte>, programText: seq<byte>, now: nat): seq<seq<byte>>
    requires |sha256(BurnSeed(userText, programText, now))| >= 32
  {
    [sha256(BurnSeed(userText, programText, now))[..32]]
  }

  lemma BurnSeedsFixedOk(sha256: seq<byte> -> seq<byte>, userText: seq<byte>, programText: seq<byte>, now: nat)
    requires |sha256(BurnSeed(userText, programText, now))| >= 32
    ensures SeedListOk(BurnSeedsFixed(sha256, userText, programText, now))
  {
  }

  /** Every seed list the other derivations use is within the limits. */
  lemma HashedSeedsOk(sha256: seq<byte> -> seq<byte>, text: seq<byte>, key: Pubkey)
    requires |sha256(text)| >= 32 && IsKey(key)
    ensures SeedListOk([sha256(text)[..32]])
    ensures SeedListOk(UpdateUserCardSeeds(key))
  {
  }

  // ----- competition sequence numbers -----

  /** `last_seen_raids` abstracted to competition type -> stored sequence number. */
  type LastSeen = map<seq<byte>, nat>

  /** `last_seen_raids[type]["sequence"].as_u64().unwrap_or(0)`. */
  function ChainCurrentSequence(lastSeen: LastSeen, competitionType: seq<byte>): nat
  {
    if competitionType in lastSeen then lastSeen[competitionType] else 0
  }

  /** The sequence number of the competition `create_raid` would open (`current + 1`, wrapping as a release build does). */
  function ChainNewSequence(lastSeen: LastSeen, competitionType: seq<byte>): (r: nat)
    ensures ChainCurrentSequence(lastSeen, competitionType) + 1 < TWO_64 ==>
              r == ChainCurrentSequence(lastSeen, competitionType) + 1
  {
    AsU64(ChainCurrentSequence(lastSeen, competitionType) + 1)
  }

  /** The seed of the competition `create_raid` opens. */
  function ChainNewCompetitionSeed(lastSeen: LastSeen, competitionType: seq<byte>,
                                   programText: seq<byte>, challengedText: seq<byte>): seq<byte>
  {
    var s := ChainNewSequence(lastSeen, competitionType);
    if competitionType == PVP then PvpSeed(programText, s, challengedText) else CompetitionSeed(competitionType, s)
  }

  /**
   * The client's sequence number: the stored one when it is present and
   * nonzero (read back with `parseInt`), else 1.
   */
  function ClientSequence(lastSeen: LastSeen, competitionType: seq<byte>): (r: nat)
    ensures r >= 1
    ensures competitionType in lastSeen && lastSeen[competitionType] != 0 ==>
              ParseIntJs(Decimal(lastSeen[competitionType])) == Some(r)
  {
    if competitionType in lastSeen && lastSeen[competitionType] != 0 then
      ParseIntJsDecimal(lastSeen[competitionType]);
      lastSeen[competitionType]
    else 1
  }

  /** The competition seeds for a sequence number and the next one. */
  function SeedsFrom(s: nat, competitionType: seq<byte>, programText: seq<byte>, opponentText: seq<byte>)
    : (seq<byte>, seq<byte>)
  {
    if competitionType == PVP then (PvpSeed(programText, s, opponentText), PvpSeed(programText, s + 1, opponentText))
    else (CompetitionSeed(competitionType, s), CompetitionSeed(competitionType, s + 1))
  }

  /** `createInitiateRaidTransaction`'s current and new competition ids. */
  function ClientCompetitionIds(lastSeen: LastSeen, competitionType: seq<byte>,
                                programText: seq<byte>, opponentText: seq<byte>): (seq<byte>, seq<byte>)
  {
    SeedsFrom(ClientSequence(lastSeen, competitionType), competitionType, programText, opponentText)
  }

  /**
   * Once a sequence number is recorded for the type, the client's new id
   * is the seed the program derives for the new competition, and its
   * current id is the seed of the competition last opened.
   */
  lemma ClientIdsMatchOnceSeen(lastSeen: LastSeen, competitionType: seq<byte>,
                               programText: seq<byte>, opponentText: seq<byte>)
    requires competitionType in lastSeen && 1 <= lastSeen[competitionType] && lastSeen[competitionType] + 1 < TWO_64
    ensures var ids := ClientCompetitionIds(lastSeen, competitionType, programText, opponentText);
            ids.1 == ChainNewCompetitionSeed(lastSeen, competitionType, programText, opponentText)
            && ids.0 == SeedsFrom(ChainCurrentSequence(lastSeen, competitionType), competitionType, programText, opponentText).0
  {
  }

  /** Competition types and keys as they occur: non-PvP types have no '_', keys are Base58. */
  predicate SeedPartsOk(competitionType: seq<byte>, programText: seq<byte>, opponentText: seq<byte>)
  {
    (competitionType == PVP ==> IsBase58(programText))
    && (competitionType != PVP ==> Free(competitionType, UNDERSCORE))
  }

  /**
   * For a type with no recorded sequence the client asks for competition
   * 2 while the program opens competition 1, so the new-competition
   * account the client passes never matches the derived address.
   */
  lemma ClientIdsMissFirstCompetition(lastSeen: LastSeen, competitionType: seq<byte>,
                                      programText: seq<byte>, opponentText: seq<byte>)
    requires competitionType !in lastSeen && SeedPartsOk(competitionType, programText, opponentText)
    ensures ClientCompetitionIds(lastSeen, competitionType, programText, opponentText).1
            != ChainNewCompetitionSeed(lastSeen, competitionType, programText, opponentText)
  {
    assert ChainNewSequence(lastSeen, competitionType) == 1;
    if competitionType == PVP {
      PvpSeedInjective(programText, 2, opponentText, programText, 1, opponentText);
    } else {
      CompetitionSeedInjective(competitionType, 2, competitionType, 1);
    }
  }

  /** The corrected client reads a missing sequence as 0, as the program does. */
  function ClientCompetitionIdsFixed(lastSeen: LastSeen, competitionType: seq<byte>,
                                     programText: seq<byte>, opponentText: seq<byte>): (seq<byte>, seq<byte>)
  {
    SeedsFrom(ChainCurrentSequence(lastSeen, competitionType), competitionType, programText, opponentText)
  }

  lemma ClientIdsFixedMatch(lastSeen: LastSeen, competitionType: seq<byte>,
                            programText: seq<byte>, opponentText: seq<byte>)
    requires ChainCurrentSequence(lastSeen, competitionType) + 1 < TWO_64
    ensures ClientCompetitionIdsFixed(lastSeen, competitionType, programText, opponentText).1
            == ChainNewCompetitionSeed(lastSeen, competitionType, programText, opponentText)
  {
  }

  /** Every competition id contains '_'. */
  lemma CompetitionIdsHaveSeparator(competitionType: seq<byte>, s: nat, programText: seq<byte>, opponentText: seq<byte>)
    ensures !Free(SeedsFrom(s, competitionType, programText, opponentText).0, UNDERSCORE)
    ensures !Free(SeedsFrom(s, competitionType, programText, opponentText).1, UNDERSCORE)
  {
    var ids := SeedsFrom(s, competitionType, programText, opponentText);
    if competitionType == PVP {
      assert ids.0[|programText|] == UNDERSCORE;
      assert ids.1[|programText|] == UNDERSCORE;
    } else {
      assert ids.0[|competitionType|] == UNDERSCORE;
      assert ids.1[|competitionType|] == UNDERSCORE;
    }
  }

  /**
   * The raid seed differs between the two sides: the program builds it
   * from the competition account's Base58 address, the client from the
   * competition's seed string, which contains '_' where Base58 never does.
   */
  lemma ClientRaidSeedNeverMatches(competitionAddressText: seq<byte>, competitionId: seq<byte>, programText: seq<byte>)
    requires IsBase58(competitionAddressText) && IsBase58(programText) && !Free(competitionId, UNDERSCORE)
    ensures RaidSeed(competitionId, programText) != RaidSeed(competitionAddressText, programText)
  {
    var j :| 0 <= j < |competitionId| && competitionId[j] == UNDERSCORE;
    var x := RaidSeed(competitionId, programText);
    var y := RaidSeed(competitionAddressText, programText);
    if |competitionId| == |competitionAddressText| {
      var p := |RAID_PREFIX|;
      assert x[p + j] == UNDERSCORE;
      Base58Free(competitionAddressText);
      assert y[p + j] == competitionAddressText[j] != UNDERSCORE;
    } else {
      assert |x| != |y|;
    }
  }

  /**
   * The raid seed `create_raid` builds: from the addresses of the
   * competition account and the raid program account, as `to_string`
   * spells them (`keyText`).
   */
  function ChainRaidSeed(keyText: Pubkey -> seq<byte>, competitionAccount: Pubkey, programAccount: Pubkey): seq<byte>
  {
    RaidSeed(keyText(competitionAccount), keyText(programAccount))
  }

  /** A raid seed names one competition text and one program text, when both are Base58. */
  lemma RaidSeedInjective(c1: seq<byte>, p1: seq<byte>, c2: seq<byte>, p2: seq<byte>)
    requires IsBase58(c1) && IsBase58(c2)
    requires RaidSeed(c1, p1) == RaidSeed(c2, p2)
    ensures c1 == c2 && p1 == p2
  {
    Base58Free(c1);
    Base58Free(c2);
    var n := |RAID_PREFIX|;
    var x := RaidSeed(c1, p1);
    assert x[n..] == c1 + [UNDERSCORE] + p1;
    assert RaidSeed(c2, p2)[n..] == c2 + [UNDERSCORE] + p2;
    SplitAtFirst(c1, p1, c2, p2, UNDERSCORE);
  }

  /**
   * The corrected client derives the competition's address from its id
   * (SHA-256, then `find_program_address`: `addressOf`) and builds the raid
   * seed from that address's text.
   */
  function ClientRaidSeedFixed(addressOf: seq<byte> -> Pubkey, keyText: Pubkey -> seq<byte>,
                               competitionId: seq<byte>, programAccount: Pubkey): (r: seq<byte>)
  {
    RaidSeed(keyText(addressOf(competitionId)), keyText(programAccount))
  }

  /**
   * The corrected client's seed is the program's seed for a competition
   * account exactly when that account's address is the one derived from the
   * competition's id, so the raid account the client passes is the one
   * the program derives for that competition, and for no other.
   */
  lemma ClientRaidSeedFixedMatches(addressOf: seq<byte> -> Pubkey, keyText: Pubkey -> seq<byte>, competitionId: seq<byte>,
                                   competitionAccount: Pubkey, programAccount: Pubkey)
    requires IsBase58(keyText(competitionAccount)) && IsBase58(keyText(addressOf(competitionId)))
    ensures ClientRaidSeedFixed(addressOf, keyText, competitionId, programAccount)
            == ChainRaidSeed(keyText, competitionAccount, programAccount)
            <==> keyText(competitionAccount) == keyText(addressOf(competitionId))
  {
    if ClientRaidSeedFixed(addressOf, keyText, competitionId, programAccount)
       == ChainRaidSeed(keyText, competitionAccount, programAccount) {
      RaidSeedInjective(keyText(addressOf(competitionId)), keyText(programAccount),
                        keyText(competitionAccount), keyText(programAccount));
    }
  }
}

=== FILE: text.dfy ===
/**
 * Text over UTF-8 bytes: decimal formatting of integers, Rust's
 * `str::split(',')`, substring search and the two integer parsers the
 * clients use (JavaScript `parseInt(x, 10)`, Python `int(x)`).
 */
module Text {
  import opened Bytes
  import opened Wrappers

  const COMMA: byte := 0x2C
  const UNDERSCORE: byte := 0x5F
  const MINUS: byte := 0x2D
  const PLUS: byte := 0x2B

  /**
   * A character of the Base58 alphabet in which keys are shown
   * (`toBase58()`, `to_string()`): digits 1-9 and letters without 0, O, I, l.
   */
  predicate IsBase58Char(b: byte) {
    (0x31 <= b <= 0x39) || (0x41 <= b <= 0x5A && b != 0x49 && b != 0x4F)
    || (0x61 <= b <= 0x7A && b != 0x6C)
  }

  predicate IsBase58(s: seq<byte>) {
    forall i :: 0 <= i < |s| ==> IsBase58Char(s[i])
  }

  /**
   * The Base58 text of a 32-byte key has at most 44 characters, and at
   * least 43 when the key's first byte is not zero (such a key is at
   * least 2^248, above 58^42).
   */
  const MAX_KEY_TEXT: nat := 44
  const MIN_KEY_TEXT: nat := 43

  /** Base58 text never contains the separators the program uses. */
  lemma Base58Free(s: seq<byte>)
    requires IsBase58(s)
    ensures Free(s, COMMA) && Free(s, UNDERSCORE) && IsAscii(s)
  {
  }

  predicate IsDigit(b: byte) { 0x30 <= b <= 0x39 }

  predicate AllDigits(s: seq<byte>) {
    forall i :: 0 <= i < |s| ==> IsDigit(s[i])
  }

  /** The separator does not occur in `s`. */
  predicate Free(s: seq<byte>, sep: byte) {
    forall i :: 0 <= i < |s| ==> s[i] != sep
  }

  /** Decimal digits of `n` with no leading zero: Rust `{}` and JS `${n}`. */
  function Decimal(n: nat): (r: seq<byte>)
    ensures |r| >= 1 && AllDigits(r)
    ensures |r| > 1 ==> r[0] != 0x30
  {
    if n < 10 then [0x30 + n] else Decimal(n / 10) + [0x30 + n % 10]
  }

  /** The value of a string of decimal digits, most significant first. */
  function DigitsValue(s: seq<byte>): nat
    requires AllDigits(s)
  {
    if |s| == 0 then 0 else 10 * DigitsValue(s[..|s| - 1]) + (s[|s| - 1] - 0x30)
  }

  /** Parsing the printed number gives the number back. */
  lemma {:induction false} DecimalRoundTrip(n: nat)
    ensures DigitsValue(Decimal(n)) == n
  {
    if n >= 10 {
      DecimalRoundTrip(n / 10);
      var d := Decimal(n);
      assert d[..|d| - 1] == Decimal(n / 10);
    }
  }

  /** Distinct numbers print differently, so a sequence number is recoverable from a seed. */
  lemma DecimalInjective(a: nat, b: nat)
    requires Decimal(a) == Decimal(b)
    ensures a == b
  {
    DecimalRoundTrip(a);
    DecimalRoundTrip(b);
  }

  /** A signed integer printed by JavaScript's template literals. */
  function IntString(i: int): (r: seq<byte>)
    ensures |r| >= 1
    ensures i >= 0 ==> r == Decimal(i)
    ensures i < 0 ==> r == [MINUS] + Decimal(-i)
  {
    if i < 0 then [MINUS] + Decimal(-i) else Decimal(i)
  }

  /**
   * `s.split(sep)` in Rust and JavaScript: the pieces between separators,
   * keeping empty pieces, so `""` gives `[""]` and `"a,"` gives `["a", ""]`.
   */
  function Split(s: seq<byte>, sep: byte): (r: seq<seq<byte>>)
    ensures |r| >= 1
    decreases |s|
  {
    if |s| == 0 then [[]]
    else
      var tail := Split(s[1..], sep);
      if s[0] == sep then [[]] + tail else [[s[0]] + tail[0]] + tail[1..]
  }

  /** Number of occurrences of `b` in `s`. */
  function Count(s: seq<byte>, b: byte): nat
  {
    if |s| == 0 then 0 else (if s[0] == b then 1 else 0) + Count(s[1..], b)
  }

  /** `split` yields one more piece than there are separators. */
  lemma {:induction false} SplitLength(s: seq<byte>, sep: byte)
    ensures |Split(s, sep)| == Count(s, sep) + 1
  {
    if |s| > 0 {
      SplitLength(s[1..], sep);
    }
  }

  /** A string without the separator splits into itself alone. */
  lemma {:induction false} SplitFree(s: seq<byte>, sep: byte)
    requires Free(s, sep)
    ensures Split(s, sep) == [s]
  {
    if |s| > 0 {
      assert Free(s[1..], sep);
      SplitFree(s[1..], sep);
      assert [s[0]] + s[1..] == s;
    }
  }

  /** The first piece stops at the first separator. */
  lemma {:induction false} SplitHeadFree(s: seq<byte>, sep: byte)
    ensures Free(Split(s, sep)[0], sep)
    decreases |s|
  {
    if |s| > 0 {
      SplitHeadFree(s[1..], sep);
    }
  }

  lemma FreeConcat(a: seq<byte>, b: seq<byte>, sep: byte)
    ensures Free(a + b, sep) <==> Free(a, sep) && Free(b, sep)
  {
    if Free(a, sep) && Free(b, sep) {
      forall i | 0 <= i < |a + b| ensures (a + b)[i] != sep {
        if i >= |a| { assert (a + b)[i] == b[i - |a|]; }
      }
    }
    if Free(a + b, sep) {
      forall i | 0 <= i < |a| ensures a[i] != sep {
        assert (a + b)[i] == a[i];
      }
      forall i | 0 <= i < |b| ensures b[i] != sep {
        assert (a + b)[|a| + i] == b[i];
      }
    }
  }

  /** Splitting `a ++ [sep] ++ b` splits `a` and `b` separately. */
  lemma {:induction false} SplitAppend(a: seq<byte>, sep: byte, b: seq<byte>)
    ensures Split(a + [sep] + b, sep) == Split(a, sep) + Split(b, sep)
  {
    var u := Split(b, sep);
    if |a| == 0 {
      assert a + [sep] + b == [sep] + b;
      SplitCons(sep, b, sep);
    } else {
      var x, a' := a[0], a[1..];
      var r := a' + [sep] + b;
      assert a + [sep] + b == [x] + r && a == [x] + a';
      SplitCons(x, r, sep);
      SplitCons(x, a', sep);
      SplitAppend(a', sep, b);
      SplitStepJoin(x, sep, Split(a', sep), u);
    }
  }

  /** The list algebra behind one step of `SplitAppend`. */
  lemma SplitStepJoin(x: byte, sep: byte, t: seq<seq<byte>>, u: seq<seq<byte>>)
    requires |t| >= 1
    ensures (if x == sep then [[]] + (t + u) else [[x] + (t + u)[0]] + (t + u)[1..])
            == (if x == sep then [[]] + t else [[x] + t[0]] + t[1..]) + u
  {
    if x != sep {
      assert (t + u)[0] == t[0];
      assert (t + u)[1..] == t[1..] + u;
    }
  }

  /** One step of `split`: a separator closes the current piece, any other byte joins it. */
  lemma SplitCons(x: byte, rest: seq<byte>, sep: byte)
    ensures var t := Split(rest, sep);
            Split([x] + rest, sep) == if x == sep then [[]] + t else [[x] + t[0]] + t[1..]
  {
    assert ([x] + rest)[1..] == rest;
  }

  /** `needle` occurs in `hay` at index `i`. */
  predicate OccursAt(hay: seq<byte>, needle: seq<byte>, i: int) {
    0 <= i && i + |needle| <= |hay| && hay[i..i + |needle|] == needle
  }

  /** `hay.contains(needle)` in Rust: a substring test, not a token test. */
  predicate Contains(hay: seq<byte>, needle: seq<byte>) {
    exists i | 0 <= i <= |hay| :: OccursAt(hay, needle, i)
  }

  /** JavaScript's white space characters in the ASCII range. */
  predicate IsJsSpace(b: byte) { b == 0x20 || 0x09 <= b <= 0x0D }

  /** Longest prefix of decimal digits. */
  function DigitPrefix(s: seq<byte>): (r: seq<byte>)
    ensures AllDigits(r) && |r| <= |s| && r == s[..|r|]
    ensures |r| < |s| ==> !IsDigit(s[|r|])
  {
    if |s| == 0 || !IsDigit(s[0]) then [] else [s[0]] + DigitPrefix(s[1..])
  }

  function TrimJsSpace(s: seq<byte>): (r: seq<byte>)
    ensures |r| <= |s|
    ensures |r| > 0 ==> !IsJsSpace(r[0])
  {
    if |s| > 0 && IsJsSpace(s[0]) then TrimJsSpace(s[1..]) else s
  }

  /**
   * `parseInt(s, 10)`: leading white space, an optional sign, then the
   * longest run of digits; `None` stands for `NaN` (no digits at all).
   */
  function ParseIntJs(s: seq<byte>): (r: Option<int>)
    ensures r.None? <==> |DigitPrefix(SignFree(TrimJsSpace(s)))| == 0
  {
    var t := TrimJsSpace(s);
    var body := SignFree(t);
    var digits := DigitPrefix(body);
    if |digits| == 0 then None
    else
      var v: int := DigitsValue(digits);
      if |t| > 0 && t[0] == MINUS then Some(-v) else Some(v)
  }

  function SignFree(t: seq<byte>): seq<byte> {
    if |t| > 0 && (t[0] == MINUS || t[0] == PLUS) then t[1..] else t
  }

  /** `parseInt` reads back what `${n}` printed. */
  lemma ParseIntJsDecimal(n: nat)
    ensures ParseIntJs(Decimal(n)) == Some(n)
  {
    var d := Decimal(n);
    assert TrimJsSpace(d) == d;
    assert SignFree(d) == d;
    DigitPrefixAll(d);
    DecimalRoundTrip(n);
  }

  lemma {:induction false} DigitPrefixAll(s: seq<byte>)
    requires AllDigits(s)
    ensures DigitPrefix(s) == s
  {
    if |s| > 0 {
      DigitPrefixAll(s[1..]);
    }
  }

  /** The ASCII characters `str.isspace()` accepts, which `int()` strips from both ends. */
  predicate IsPySpace(b: byte) { b == 0x20 || 0x09 <= b <= 0x0D || 0x1C <= b <= 0x1F }

  function StripStart(s: seq<byte>): (r: seq<byte>)
    ensures |r| <= |s| && r == s[|s| - |r|..]
    ensures |r| > 0 ==> !IsPySpace(r[0])
  {
    if |s| > 0 && IsPySpace(s[0]) then StripStart(s[1..]) else s
  }

  function StripEnd(s: seq<byte>): (r: seq<byte>)
    ensures |r| <= |s| && r == s[..|r|]
    ensures |r| > 0 ==> !IsPySpace(r[|r| - 1])
  {
    if |s| > 0 && IsPySpace(s[|s| - 1]) then StripEnd(s[..|s| - 1]) else s
  }

  /**
   * The digit part `int()` accepts: decimal digits, with single
   * underscores allowed between two digits.
   */
  predicate DigitGroups(s: seq<byte>) {
    |s| > 0 && IsDigit(s[0]) && IsDigit(s[|s| - 1]) && DigitsOrUnderscores(s)
    && forall i :: 0 <= i < |s| - 1 && s[i] == UNDERSCORE ==> IsDigit(s[i + 1])
  }

  predicate DigitsOrUnderscores(s: seq<byte>) {
    forall i :: 0 <= i < |s| ==> IsDigit(s[i]) || s[i] == UNDERSCORE
  }

  /** The digits of `s`, underscores removed. */
  function DropUnderscores(s: seq<byte>): (r: seq<byte>)
    requires DigitsOrUnderscores(s)
    ensures AllDigits(r) && |r| <= |s|
  {
    if |s| == 0 then [] else (if s[0] == UNDERSCORE then [] else [s[0]]) + DropUnderscores(s[1..])
  }

  /**
   * Python's `int(s)` on ASCII text: surrounding whitespace is stripped,
   * one `+` or `-` may lead, and the rest must be decimal digits with
   * single underscores between them; anything else raises.
   */
  function ParseIntPy(s: seq<byte>): (r: Option<int>)
    ensures r.Some? && r.value < 0 ==> !Free(s, MINUS)
    ensures r.Some? ==> exists i :: 0 <= i < |s| && IsDigit(s[i])
  {
    var a := StripStart(s);
    var t := StripEnd(a);
    var r := ParseSigned(t);
    if r.Some? then
      assert t == s[|s| - |a|..][..|t|];
      assert forall i :: 0 <= i < |t| ==> t[i] == s[|s| - |a| + i];
      r
    else r
  }

  /** The stripped text: an optional sign, then the digit groups. */
  function ParseSigned(t: seq<byte>): (r: Option<int>)
    ensures r.Some? && r.value < 0 ==> |t| > 0 && t[0] == MINUS
    ensures r.Some? ==> exists i :: 0 <= i < |t| && IsDigit(t[i])
  {
    if |t| > 0 && t[0] == PLUS then
      var r := ParseGroups(t[1..]);
      if r.Some? then assert t[1] == t[1..][0]; Some(r.value) else None
    else if |t| > 0 && t[0] == MINUS then
      var r := ParseGroups(t[1..]);
      if r.Some? then assert t[1] == t[1..][0]; Some(0 - r.value) else None
    else
      var r := ParseGroups(t);
      if r.Some? then Some(r.value) else None
  }

  /** Digit groups separated by single underscores, and their value. */
  function ParseGroups(b: seq<byte>): (r: Option<nat>)
    ensures r.Some? ==> |b| > 0 && IsDigit(b[0])
  {
    if DigitGroups(b) then Some(DigitsValue(DropUnderscores(b))) else None
  }

  lemma {:induction false} DropUnderscoresDigits(s: seq<byte>)
    requires AllDigits(s)
    ensures DigitsOrUnderscores(s) && DropUnderscores(s) == s
  {
    if |s| > 0 {
      DropUnderscoresDigits(s[1..]);
    }
  }

  /** Digits alone form one group. */
  lemma ParseGroupsDigits(d: seq<byte>)
    requires |d| > 0 && AllDigits(d)
    ensures ParseGroups(d) == Some(DigitsValue(d))
  {
    DropUnderscoresDigits(d);
  }

  /** A plain run of digits parses to its value. */
  lemma ParseIntPyDigits(s: seq<byte>)
    requires |s| > 0 && AllDigits(s)
    ensures ParseIntPy(s) == Some(DigitsValue(s))
  {
    assert StripStart(s) == s;
    assert StripEnd(s) == s;
    ParseGroupsDigits(s);
  }

  predicate AllPySpace(s: seq<byte>) {
    forall i :: 0 <= i < |s| ==> IsPySpace(s[i])
  }

  lemma {:induction false} StripStartSpaces(pre: seq<byte>, x: seq<byte>)
    requires AllPySpace(pre) && (|x| > 0 ==> !IsPySpace(x[0]))
    ensures StripStart(pre + x) == x
    decreases |pre|
  {
    if |pre| > 0 {
      assert (pre + x)[1..] == pre[1..] + x;
      StripStartSpaces(pre[1..], x);
    } else {
      assert pre + x == x;
    }
  }

  lemma {:induction false} StripEndSpaces(x: seq<byte>, post: seq<byte>)
    requires AllPySpace(post) && (|x| > 0 ==> !IsPySpace(x[|x| - 1]))
    ensures StripEnd(x + post) == x
    decreases |post|
  {
    if |post| > 0 {
      var shorter := post[..|post| - 1];
      assert (x + post)[..|x + post| - 1] == x + shorter;
      StripEndSpaces(x, shorter);
    } else {
      assert x + post == x;
    }
  }

  /** `int()` ignores whitespace around the text. */
  lemma ParseIntPyPadded(pre: seq<byte>, t: seq<byte>, post: seq<byte>)
    requires AllPySpace(pre) && AllPySpace(post) && |t| > 0 && !IsPySpace(t[0]) && !IsPySpace(t[|t| - 1])
    ensures ParseIntPy(pre + t + post) == ParseIntPy(t)
  {
    assert pre + t + post == pre + (t + post);
    StripStartSpaces(pre, t + post);
    StripEndSpaces(t, post);
    assert StripStart(t) == t && StripEnd(t) == t;
  }

  /** `int()` accepts one leading `+`. */
  lemma ParseIntPyPlus(d: seq<byte>)
    requires |d| > 0 && AllDigits(d)
    ensures ParseIntPy([PLUS] + d) == Some(DigitsValue(d))
  {
    var s := [PLUS] + d;
    assert StripStart(s) == s;
    assert StripEnd(s) == s;
    assert s[1..] == d;
    ParseGroupsDigits(d);
  }

  /** `int()` accepts one leading `-` and negates the value of the digits after it. */
  lemma ParseIntPyMinus(d: seq<byte>)
    requires |d| > 0 && AllDigits(d)
    ensures ParseIntPy([MINUS] + d) == Some(0 - DigitsValue(d))
  {
    ParseIntPyDigits(d);
    ParseIntPyMinusOf(d, DigitsValue(d));
  }

  /** The negation step with the digits' value named `n`. */
  lemma ParseIntPyMinusOf(d: seq<byte>, n: int)
    requires |d| > 0 && AllDigits(d) && n == DigitsValue(d) && ParseIntPy(d) == Some(n)
    ensures ParseIntPy([MINUS] + d) == Some(0 - DigitsValue(d))
  {
    DigitEnds(d);
    ParseIntPyNegates(d, n);
    SameNegation(ParseIntPy([MINUS] + d), d, n);
  }

  lemma DigitEnds(d: seq<byte>)
    requires |d| > 0 && AllDigits(d)
    ensures IsDigit(d[0]) && IsDigit(d[|d| - 1])
  {
  }

  /** Renames the value of the digits inside an optional negated result. */
  lemma SameNegation(x: Option<int>, d: seq<byte>, n: int)
    requires |d| > 0 && AllDigits(d) && n == DigitsValue(d) && x == Some(0 - n)
    ensures x == Some(0 - DigitsValue(d))
  {
  }

  /** A `-` in front of digit-bounded text negates what `int()` makes of that text. */
  lemma ParseIntPyNegates(d: seq<byte>, n: int)
    requires |d| > 0 && IsDigit(d[0]) && IsDigit(d[|d| - 1]) && ParseIntPy(d) == Some(n)
    ensures ParseIntPy([MINUS] + d) == Some(0 - n)
  {
    var s := [MINUS] + d;
    assert s[0] == MINUS && s[1..] == d && s[|s| - 1] == d[|d| - 1];
    ParseIntPyNegatesAt(s, d, n);
  }

  lemma ParseIntPyNegatesAt(s: seq<byte>, d: seq<byte>, n: int)
    requires |d| > 0 && IsDigit(d[0]) && IsDigit(d[|d| - 1]) && ParseIntPy(d) == Some(n)
    requires |s| == |d| + 1 && s[0] == MINUS && s[1..] == d && s[|s| - 1] == d[|d| - 1]
    ensures ParseIntPy(s) == Some(0 - n)
  {
    assert ParseGroups(d).Some? && ParseGroups(d).value == n by {
      ParseIntPyUnstripped(d);
      ParseSignedDigit(d);
    }
    assert ParseSigned(s) == Some(0 - n) by {
      ParseSignedMinus(s);
    }
    ParseIntPyUnstripped(s);
  }

  /** Without a sign, the stripped text is read as digit groups alone. */
  lemma ParseSignedDigit(d: seq<byte>)
    requires |d| > 0 && IsDigit(d[0])
    ensures ParseSigned(d).Some? == ParseGroups(d).Some?
    ensures ParseSigned(d).Some? ==> ParseSigned(d).value == ParseGroups(d).value
  {
  }

  /** A leading `-` negates the value of the digit groups after it. */
  lemma ParseSignedMinus(t: seq<byte>)
    requires |t| > 0 && t[0] == MINUS
    ensures ParseSigned(t).Some? == ParseGroups(t[1..]).Some?
    ensures ParseSigned(t).Some? ==> ParseSigned(t).value == 0 - ParseGroups(t[1..]).value
  {
  }

  /** Text with no surrounding whitespace goes straight to the sign and digit groups. */
  lemma ParseIntPyUnstripped(s: seq<byte>)
    requires |s| > 0 && !IsPySpace(s[0]) && !IsPySpace(s[|s| - 1])
    ensures ParseIntPy(s) == ParseSigned(s)
  {
    assert StripStart(s) == s;
    assert StripEnd(s) == s;
  }

  lemma {:induction false} DropUnderscoresAppend(a: seq<byte>, b: seq<byte>)
    requires DigitsOrUnderscores(a) && DigitsOrUnderscores(b)
    ensures DigitsOrUnderscores(a + b) && DropUnderscores(a + b) == DropUnderscores(a) + DropUnderscores(b)
    decreases |a|
  {
    if |a| > 0 {
      assert (a + b)[1..] == a[1..] + b;
      DropUnderscoresAppend(a[1..], b);
    } else {
      assert a + b == b;
    }
  }

  /** `int()` accepts an underscore between two digit runs and skips it. */
  lemma ParseIntPyUnderscore(a: seq<byte>, b: seq<byte>)
    requires |a| > 0 && AllDigits(a) && |b| > 0 && AllDigits(b)
    ensures ParseIntPy(a + [UNDERSCORE] + b) == Some(DigitsValue(a + b))
  {
    var s := a + [UNDERSCORE] + b;
    assert StripStart(s) == s;
    assert StripEnd(s) == s;
    UnderscoreGroups(a, b);
    UnderscoreDropped(a, b);
  }

  lemma UnderscoreGroups(a: seq<byte>, b: seq<byte>)
    requires |a| > 0 && AllDigits(a) && |b| > 0 && AllDigits(b)
    ensures DigitGroups(a + [UNDERSCORE] + b)
  {
    var s := a + [UNDERSCORE] + b;
    DropUnderscoresDigits(a);
    DropUnderscoresDigits(b);
    assert forall i :: 0 <= i < |s| - 1 && s[i] == UNDERSCORE ==> i == |a|;
    assert s[|a| + 1] == b[0];
  }

  lemma UnderscoreDropped(a: seq<byte>, b: seq<byte>)
    requires AllDigits(a) && AllDigits(b)
    ensures DigitsOrUnderscores(a + [UNDERSCORE] + b)
    ensures DropUnderscores(a + [UNDERSCORE] + b) == a + b
  {
    DropUnderscoresDigits(a);
    DropUnderscoresDigits(b);
    var u := [UNDERSCORE];
    assert DropUnderscores(u) == [];
    DropUnderscoresAppend(a, u);
    assert DropUnderscores(a + u) == a;
    DropUnderscoresAppend(a + u, b);
  }

  /** Text that starts with a letter is not a number to `int()`. */
  lemma ParseIntPyLetter(s: seq<byte>)
    requires |s| > 0 && !IsPySpace(s[0]) && !IsPySpace(s[|s| - 1])
    requires s[0] != PLUS && s[0] != MINUS && !IsDigit(s[0])
    ensures ParseIntPy(s) == None
  {
    assert StripStart(s) == s;
    assert StripEnd(s) == s;
  }

  /** An underscore after the last digit makes `int()` raise. */
  lemma ParseIntPyTrailingUnderscore(a: seq<byte>)
    requires AllDigits(a)
    ensures ParseIntPy(a + [UNDERSCORE]) == None
  {
    var s := a + [UNDERSCORE];
    assert StripStart(s) == s by {
      if |a| > 0 { assert !IsPySpace(s[0]); }
    }
    assert StripEnd(s) == s;
  }
}

=== FILE: user_card.dfy ===
/**
 * `UserCard`, the per-user account record, and its hand-written codec
 * (`UserCard::custom_serialize` / `custom_deserialize` in
 * smart-contract/src/lib.rs). Field order: key, owned programs, enrolled
 * programs, raid flag, email, date of birth, twitter handle, five `u64`
 * counters, profile picture URL.
 */
module UserCards {
  import opened Bytes
  import opened Wrappers
  import opened Borsh
  import opened Fields

  datatype UserCard = UserCard(
    userPubkey: Pubkey,
    ownedPrograms: seq<byte>,     // comma-terminated list of program keys
    enrolledPrograms: seq<byte>,  // comma-terminated list of program keys
    isConductingRaid: bool,
    userEmail: seq<byte>,
    userDob: seq<byte>,
    userTwitterHandle: seq<byte>,
    totalRewards: nat,
    participatedRaids: nat,
    raidRanking: nat,
    engagementScore: nat,
    streaks: nat,
    profilePictureUrl: seq<byte>)

  const LAYOUT: seq<Kind> := [KeyKind, StrKind, StrKind, BoolKind, StrKind, StrKind, StrKind,
                              U64Kind, U64Kind, U64Kind, U64Kind, U64Kind, StrKind]

  /** The card as the field list the serializer walks. */
  function ToFields(c: UserCard): (r: seq<Value>)
    ensures Conforms(r, LAYOUT)
  {
    [Key(c.userPubkey), Str(c.ownedPrograms), Str(c.enrolledPrograms), Bool(c.isConductingRaid),
     Str(c.userEmail), Str(c.userDob), Str(c.userTwitterHandle), U64(c.totalRewards),
     U64(c.participatedRaids), U64(c.raidRanking), U64(c.engagementScore), U64(c.streaks),
     Str(c.profilePictureUrl)]
  }

  function FromFields(vs: seq<Value>): (c: UserCard)
    requires Conforms(vs, LAYOUT)
    ensures ToFields(c) == vs
  {
    UserCard(vs[0].key, vs[1].str, vs[2].str, vs[3].flag, vs[4].str, vs[5].str, vs[6].str,
             vs[7].num, vs[8].num, vs[9].num, vs[10].num, vs[11].num, vs[12].str)
  }

  /** A card whose fields the Rust types can hold (32-byte keys, UTF-8 strings, u64 counters). */
  lemma LayoutPlain()
    ensures Plain(LAYOUT)
  {
  }

  predicate WellFormed(c: UserCard) { AllOk(ToFields(c)) }

  /** A card is well formed exactly when each field fits its Rust type. */
  lemma WellFormedFields(c: UserCard)
    ensures WellFormed(c) <==>
              IsKey(c.userPubkey) && StrOk(c.ownedPrograms) && StrOk(c.enrolledPrograms) && StrOk(c.userEmail)
              && StrOk(c.userDob) && StrOk(c.userTwitterHandle) && U64Ok(c.totalRewards) && U64Ok(c.participatedRaids)
              && U64Ok(c.raidRanking) && U64Ok(c.engagementScore) && U64Ok(c.streaks) && StrOk(c.profilePictureUrl)
  {
    var vs := ToFields(c);
    assert ValueOk(vs[0]) && ValueOk(vs[1]) && ValueOk(vs[2]) && ValueOk(vs[3]) && ValueOk(vs[4])
           && ValueOk(vs[5]) && ValueOk(vs[6]) && ValueOk(vs[7]) && ValueOk(vs[8]) && ValueOk(vs[9])
           && ValueOk(vs[10]) && ValueOk(vs[11]) && ValueOk(vs[12])
       <==> AllOk(vs);
  }

  /** The bytes `custom_serialize` writes. */
  function Encode(c: UserCard): seq<byte> { EncodeFields(ToFields(c)) }

  /**
   * `custom_serialize` into an account buffer: the bytes are written at the
   * front, the rest of the buffer is untouched, and the result is the
   * number of bytes written; a buffer that is too small is an error.
   */
  function Serialize(c: UserCard, buf: seq<byte>): (r: Result<(seq<byte>, nat), ProgramError>)
    ensures r.Ok? <==> |Encode(c)| <= |buf|
    ensures r.Err? ==> r.error == AccountDataTooSmall
    ensures r.Ok? ==> r.value.1 == |Encode(c)|
    ensures r.Ok? ==> |r.value.0| == |buf| && r.value.0[..r.value.1] == Encode(c)
                      && r.value.0[r.value.1..] == buf[r.value.1..]
  {
    var enc := Encode(c);
    var out :- WriteInto(enc, buf);
    Ok((out, |enc|))
  }

  /**
   * `custom_deserialize`: reads the fields in order and reports the cursor
   * position after the last one.
   */
  function Decode(data: seq<byte>): (r: Result<Decoded<UserCard>, ProgramError>)
    ensures r.Err? ==> r.error == InvalidAccountData
    ensures r.Ok? ==> WellFormed(r.value.value) && r.value.consumed <= |data|
  {
    var p :- DecodeFields(LAYOUT, data);
    Ok(Decoded(FromFields(p.value), TotalWidth(p.value)))
  }

  /**
   * Round trip: decoding what the serializer wrote, followed by any unused
   * account space, gives the card back and reports exactly the bytes written.
   */
  lemma RoundTrip(c: UserCard, rest: seq<byte>)
    requires WellFormed(c)
    ensures Decode(Encode(c) + rest) == Ok(Decoded(c, |Encode(c)|))
  {
    ConformsKinds(ToFields(c), LAYOUT);
    FieldsRoundTrip(ToFields(c), rest);
  }

  /**
   * The converse: a successful decode reads exactly the encoding of the
   * card it returns, so the decoder accepts nothing but serializer output
   * followed by unused space.
   */
  lemma DecodeExact(data: seq<byte>)
    requires Decode(data).Ok?
    ensures var d := Decode(data).value;
            d.consumed == |Encode(d.value)| && data[..d.consumed] == Encode(d.value)
  {
    LayoutPlain();
    var p := DecodeFields(LAYOUT, data).value;
    DecodeFieldsExact(LAYOUT, data);
    assert ToFields(FromFields(p.value)) == p.value;
  }

  /** Serializing into an account and decoding the account gives the card back. */
  lemma SerializeThenDecode(c: UserCard, buf: seq<byte>)
    requires WellFormed(c) && Serialize(c, buf).Ok?
    ensures var (out, n) := Serialize(c, buf).value;
            Decode(out) == Ok(Decoded(c, n))
  {
    var (out, n) := Serialize(c, buf).value;
    assert out == Encode(c) + buf[n..];
    RoundTrip(c, buf[n..]);
  }

  /**
   * `UserCard::try_from_slice`: the derived reader over the whole account,
   * which accepts exactly the encoding of a storable card.
   */
  function TryFromSlice(data: seq<byte>): (r: Result<UserCard, ProgramError>)
    ensures r.Ok? ==> WellFormed(r.value) && Encode(r.value) == data
    ensures r.Err? ==> r.error == BorshIoError
  {
    var vs :- StrictDecode(LAYOUT, data);
    Ok(FromFields(vs))
  }

  /** `try_from_slice` reads a card from its encoding and from nothing else. */
  lemma TryFromSliceExact(c: UserCard, data: seq<byte>)
    requires WellFormed(c)
    ensures TryFromSlice(data) == Ok(c) <==> data == Encode(c)
  {
    ConformsKinds(ToFields(c), LAYOUT);
    StrictDecodeExact(ToFields(c), data);
  }

  /**
   * A card followed by unused account space: `try_from_slice` fails, while
   * the hand-written decoder reads the card back.
   */
  lemma TrailingSpaceRejected(c: UserCard, tail: seq<byte>)
    requires WellFormed(c) && tail != []
    ensures TryFromSlice(Encode(c) + tail) == Err(BorshIoError)
    ensures Decode(Encode(c) + tail) == Ok(Decoded(c, |Encode(c)|))
  {
    ConformsKinds(ToFields(c), LAYOUT);
    TrailingBytesRejected(ToFields(c), tail);
    RoundTrip(c, tail);
  }

  /** A handler's read of the account, in either mode. */
  function ReadAccount(mode: ReadMode, data: seq<byte>): (r: Result<UserCard, ProgramError>)
    ensures r.Ok? ==> WellFormed(r.value)
    ensures r.Err? ==> r.error == (if mode == Strict then BorshIoError else InvalidAccountData)
    ensures mode == Strict && r.Ok? ==> data == Encode(r.value)
  {
    if mode == Strict then TryFromSlice(data)
    else
      var d :- Decode(data);
      Ok(d.value)
  }

  /**
   * An account holding a card followed by `tail`: the lenient read gives
   * the card back whatever the tail, the strict read only when there is no
   * tail at all.
   */
  lemma ReadStored(c: UserCard, tail: seq<byte>)
    requires WellFormed(c)
    ensures ReadAccount(Lenient, Encode(c) + tail) == Ok(c)
    ensures ReadAccount(Strict, Encode(c) + tail) == if tail == [] then Ok(c) else Err(BorshIoError)
  {
    RoundTrip(c, tail);
    if tail == [] {
      assert Encode(c) + tail == Encode(c);
      TryFromSliceExact(c, Encode(c));
    } else {
      TrailingSpaceRejected(c, tail);
    }
  }

  /** The bytes a card takes: 65 fixed bytes besides the key and the six strings. */
  lemma EncodeLength(c: UserCard)
    ensures |Encode(c)| == |c.userPubkey| + 65 + |c.ownedPrograms| + |c.enrolledPrograms| + |c.userEmail|
                           + |c.userDob| + |c.userTwitterHandle| + |c.profilePictureUrl|
  {
    var vs := ToFields(c);
    TotalWidthAll(vs);
    assert WidthSum(vs, 1) == WidthSum(vs, 0) + Width(vs[0]);
    assert WidthSum(vs, 2) == WidthSum(vs, 1) + Width(vs[1]);
    assert WidthSum(vs, 3) == WidthSum(vs, 2) + Width(vs[2]);
    assert WidthSum(vs, 4) == WidthSum(vs, 3) + Width(vs[3]);
    assert WidthSum(vs, 5) == WidthSum(vs, 4) + Width(vs[4]);
    assert WidthSum(vs, 6) == WidthSum(vs, 5) + Width(vs[5]);
    assert WidthSum(vs, 7) == WidthSum(vs, 6) + Width(vs[6]);
    assert WidthSum(vs, 8) == WidthSum(vs, 7) + Width(vs[7]);
    assert WidthSum(vs, 9) == WidthSum(vs, 8) + Width(vs[8]);
    assert WidthSum(vs, 10) == WidthSum(vs, 9) + Width(vs[9]);
    assert WidthSum(vs, 11) == WidthSum(vs, 10) + Width(vs[10]);
    assert WidthSum(vs, 12) == WidthSum(vs, 11) + Width(vs[11]);
    assert WidthSum(vs, 13) == WidthSum(vs, 12) + Width(vs[12]);
  }
}

=== FILE: wrappers.dfy ===
/** Failure-compatible result types shared by every module of the model. */
module Wrappers {

  /** An optional value; `Option<T>` in Rust, a nullable field in the clients. */
  datatype Option<+T> = None | Some(value: T) {
    function UnwrapOr(default: T): T {
      match this
      case Some(v) => v
      case None => default
    }
  }

  /** `Ok` or `Err`, usable with `:-` so that the first failing step aborts. */
  datatype Result<+T, +E> = Ok(value: T) | Err(error: E) {
    predicate IsFailure() {
      Err?
    }

    function PropagateFailure<U>(): Result<U, E>
      requires Err?
    {
      Err(error)
    }

    function Extract(): T
      requires Ok?
    {
      value
    }
  }
}
